=== FILE: README.md ===
# Empora tenant core in Dafny

This project models the server core of Empora, a multi-tenant HR back end, and proves properties of that model. Each client organisation gets its own MySQL database, the tenant store, named `client_db_<id>`. A master registry (`clients`) keeps the client's personal data encrypted, and a `config` row holds the last client id handed out. Requests from administrators are routed to their tenant store by the `dbName` claim of a signed token.

The model covers:

- **Field encryption** (`encryption.dfy`). The checks `encrypt`/`decrypt` make on the key and IV, with Node's hex decoding. How non-string values are coerced. The never-throwing `safeEncrypt`/`safeDecrypt`. AES-256-CBC stays abstract: a `Cipher` of two functions, assumed `Sound` (non-empty ciphertexts that decrypt to their plaintext).
- **Client registry** (`client_model.dfy`, `client_controller.dfy`). The duplicate check on ciphertexts, with SQL `NULL` semantics. Id allocation from the `config` counter. Registration, followed by provisioning of the tenant store. Reads through `safeDecrypt`. The column-by-column `UPDATE`. Deletion. The HTTP status each handler answers.
- **Tenant provisioning** (`db_creator.dfy`, `default_admin_creator.dfy`, `schema.dfy`). `CREATE DATABASE`. The `SHOW DATABASES LIKE` check, where `_` is a wildcard. The DDL script run statement by statement, where only `employees` lacks `IF NOT EXISTS`. The default admin with its bcrypt-hashed default password. The three default roles.
- **Request routing** (`admin_auth.dfy`, `Db.Connect`). The bearer token, the role gate, and a connection bound to exactly the store the token names.
- **Employees** (`employee_model.dfy`, `employee_controller.dfy`). The e-mail lookup on the ciphertext. Insert, with the table's `NOT NULL` and `UNIQUE` constraints. The dynamic `UPDATE` that skips undefined values and encrypts the PII columns. Delete. Form normalisation, upload paths and the controller's status codes.
- **Attendance** (`attendance_controller.dfy`). Check-in validation and the record handed to the attendance store. The guards of check-out and of today's attendance.

The world is the class `Db.Server`, made of four parts:

- the `config` counter;
- the registry, keyed by its own auto-increment key;
- the tenant stores by name;
- a ghost set of issued ids.

Its invariant `Valid` says that ids are below the counter, that every `client_db_<id>` store belongs to an issued id, and that every store keeps its `UNIQUE` constraints. Foreign outcomes are parameters of the methods: whether the server creates a database, the bcrypt salt, the token verifier, the form parser, and the attendance store's answers.

A few behaviours of the code shape the model:

- Allocation reads and writes the `config` counter without a transaction.
- Failed provisioning rethrows the raw error. It leaves the registry row and the consumed id behind.
- The employee e-mail lookup encrypts with `safeEncrypt` and throws 'Failed to encrypt email' when that yields null, after the connection is made.
- A failed employee `INSERT` adds no row. A duplicate e-mail still uses up one auto-increment id, as InnoDB does; the earlier checks fail before an id is taken.

## Model

| member | source | states |
|---|---|---|
| Js.Or | server_side/models/client.model.js:89 | `a \|\| b` gives `a` when it is truthy and `b` otherwise; `RegisteredClientReadsBack` uses it for the null agreement path |
| Js.Split | server_side/middlewares/admin_auth.middleware.js:7 | `split` always gives at least one part |
| Js.SplitJoin | server_side/middlewares/admin_auth.middleware.js:7 | joining the parts of a split with the separator restores the string, and no part holds the separator |
| Js.Trim | server_side/controllers/attendance.controller.js:47-51 | `trim()` is empty iff the string is all white space; otherwise it neither starts nor ends with white space |
| Js.TrimWithin | server_side/controllers/attendance.controller.js:47-51 | what `trim()` keeps is a middle part of the string with only white space before and after it |
| Js.TrimStart | server_side/controllers/attendance.controller.js:47 | removes exactly a white-space prefix, and the rest does not start with white space |
| Js.TrimEnd | server_side/controllers/attendance.controller.js:47 | removes exactly a white-space suffix, and the rest does not end with white space |
| Js.TrimIdempotent | server_side/controllers/attendance.controller.js:47 | trimming twice is trimming once |
| Js.HexByteLength | server_side/utils/encryption.js:31-32 | `Buffer.from(s, 'hex')` decodes the longest prefix of hex-digit pairs |
| Js.NatToDecimalShape | server_side/models/client.model.js:82 | a decimal numeral is a non-empty string of digits, one digit long exactly below 10 |
| Js.NatToDecimalInjective | server_side/models/client.model.js:82 | different natural numbers print differently |
| Js.IntToDecimalSign | server_side/models/client.model.js:82 | a numeral starts with '-' exactly for negative numbers |
| Js.IntToDecimalInjective | server_side/models/client.model.js:82 | different integers print differently |
| Db.DbName | server_side/models/client.model.js:82 | the store name of a client id starts with `client_db_` and has more after it |
| Db.DbNameInjective | server_side/utils/dbCreator.js:8 | two client ids never share a store name, so tenants never share a store |
| Db.Connect | server_side/utils/dbConnector.js:4-15 | a falsy name is refused; an unknown store is refused; otherwise the connection is bound to exactly the store named by `String(dbName)` |
| Db.ConnectByName | server_side/utils/dbConnector.js:4-15 | a non-empty name of an existing store connects to exactly that store |
| Db.SetStoreKeepsValid | server_side/utils/dbCreator.js:7-19 | putting a store that keeps its UNIQUE constraints under an existing name or the name of an issued id keeps the server invariant |
| Encryption.KeyCheck | server_side/utils/encryption.js:27-39 | no error iff both variables are set and decode to 16 and 32 bytes |
| Encryption.KeyCheckErrors | server_side/utils/encryption.js:27-39 | each of the three errors iff its check is the first to fail: a missing variable, then the IV length, then the key length |
| Encryption.Coerce | server_side/utils/encryption.js:11-25 | a string is used as is, an array by its first element, anything else through `String`; `RoundTrip` and `ReadBack` show that this coerced text is what reads back |
| Encryption.Encrypt | server_side/utils/encryption.js:8-45 | null for a falsy input before any key check; otherwise it fails iff the key check fails, and succeeds with a ciphertext |
| Encryption.Decrypt | server_side/utils/encryption.js:47-68 | null for a falsy input; key-check errors for a truthy one; a non-string is refused; success carries a plaintext |
| Encryption.SafeEncrypt | server_side/utils/encryption.js:79-86 | never fails: null for a falsy input or a throwing `encrypt`, otherwise exactly `encrypt`'s result; its partner is `SafeDecrypt` through `ReadBack` |
| Encryption.SafeDecrypt | server_side/utils/encryption.js:70-77 | never fails: null for a falsy input or a throwing `decrypt`, otherwise exactly `decrypt`'s result; `ReadBack` shows it returns a stored value's coerced text |
| Encryption.EncryptTruthy | server_side/utils/encryption.js:41-44 | with valid keys a truthy input encrypts to a truthy ciphertext |
| Encryption.RoundTrip | server_side/utils/encryption.js:41-44 | with valid keys `decrypt(encrypt(v))` is the coerced text of `v` (the string itself for a string) |
| Encryption.EncryptByCoercedText | server_side/utils/encryption.js:12-25 | encryption depends only on the coerced text |
| Encryption.CiphertextEqualIff | server_side/utils/encryption.js:41-44 | with one key and IV, equal ciphertexts iff equal plaintexts |
| Encryption.EncryptedIsCanonical | server_side/utils/encryption.js:41-44 | whatever `encrypt` writes decrypts and re-encrypts to itself |
| Encryption.CanonicalMatchIff | server_side/models/client.model.js:12-17 | an equality lookup on an encrypted column matches iff the stored value decrypts to the searched plaintext |
| Encryption.ReadBack | server_side/utils/encryption.js:70-77 | `safeDecrypt` of what `encrypt(v)` stored gives the coerced text, or null for a falsy `v` |
| Schema.SchemaCascades | server_side/utils/dbCreator.js:46-107 | every foreign key stays inside the tenant's tables and cascades; departments and roles reach employees, employees reach attendance, leaves and balances |
| DbCreator.RunScriptOutcome | server_side/utils/dbCreator.js:33-109 | a multi-statement script succeeds iff no plain `CREATE TABLE` meets an existing table; success adds exactly its tables; failure keeps the old tables and names a plain statement's existing table |
| DbCreator.TenantScriptRuns | server_side/utils/dbCreator.js:33-109 | on a fresh store the script creates the six tables; on one that has `employees` it fails there after adding departments and roles |
| DbCreator.TenantScriptTables | server_side/utils/dbCreator.js:33-109 | the script names six different tables, exactly the tenant tables |
| DbCreator.CreateDatabaseOutcome | server_side/utils/dbCreator.js:7-143 | only `client_db_<id>` changes; a store the server did not create fails with nothing changed; a new store gets the six tables; an existing one fails on `employees` with departments and roles added |
| DbCreator.CreateClientDatabase | server_side/utils/dbCreator.js:7-143 | the steps change the stores and answer as `CreateDatabase` says, and the server stays valid |
| DefaultAdminCreator.DefaultAdmin | server_side/utils/defaultAdminCreator.js:32-42 | the admin row holds the two ciphertexts, role 'admin' and bcrypt of 'Admin@123' at cost 10 |
| DefaultAdminCreator.DefaultAdminOutcome | server_side/utils/defaultAdminCreator.js:18-42 | `admins` is created and only the admins change; the row goes in iff name and e-mail are truthy, the keys are valid and the e-mail is not taken; the crypto and NOT NULL errors; the UNIQUE constraints are kept |
| DefaultAdminCreator.CreateDefaultAdmin | server_side/utils/defaultAdminCreator.js:6-51 | an unknown store fails with nothing changed; otherwise the store changes as `AddDefaultAdmin` says and no other store changes |
| ClientModel.ClientExists | server_side/models/client.model.js:10-25 | crypto errors for a truthy input without valid keys; otherwise true iff some row's company name or admin e-mail equals the ciphertext, with NULL matching nothing |
| ClientModel.CanonicalColumnMatch | server_side/models/client.model.js:15-17 | a canonical column equals the ciphertext of a value iff it holds that value |
| ClientModel.ClientExistsByPlaintext | server_side/models/client.model.js:10-25 | on a canonical registry the duplicate check is the plaintext check |
| ClientModel.GetNextClientId | server_side/models/client.model.js:28-49 | 'Config not found' without the row; otherwise the counter becomes last+1, which is returned and exceeds every id issued before |
| ClientModel.SeededFrom | server_side/models/client.model.js:57-59 | the count of default roles inserted before the first one already present |
| ClientModel.DefaultRoleInserted | server_side/models/client.model.js:57-59 | the i-th role collides exactly when it was already there |
| ClientModel.AddRoleKeepsValid | server_side/models/client.model.js:58 | inserting a new role name keeps the UNIQUE constraint |
| ClientModel.SeedRoles | server_side/models/client.model.js:52-59 | the loop inserts the roles one by one up to the first failing insert, keeps those before it, reports that insert's error, and keeps the UNIQUE constraint |
| ClientModel.InsertRoles | server_side/models/client.model.js:51-66 | a connection error changes nothing; otherwise only the named store changes, as `SeedRoles` seeds it |
| ClientModel.ProvisionedStoreShape | server_side/models/client.model.js:92-95 | a provisioned store has the seven tables, exactly the three roles, no employees and one admin whose name and e-mail decrypt to what was registered |
| ClientModel.ProvisionStore | server_side/models/client.model.js:93-95 | the three steps change the stores and answer as `Provision` says, and the server stays valid |
| ClientModel.ProvisionOutcome | server_side/models/client.model.js:93-95 | on a new store name the three steps succeed iff the server creates the store and name and e-mail are truthy, and then leave the provisioned store; no other store changes |
| ClientModel.AdminAndRolesOutcome | server_side/models/client.model.js:94-95 | on a freshly scripted store the admin and roles go in iff name and e-mail are truthy, giving the provisioned store; no other store changes |
| ClientModel.AddAdminAndRoles | server_side/models/client.model.js:94-95 | the admin and role steps change the stores and answer as `AdminAndRoles` says, and the server stays valid |
| ClientModel.CreateClient | server_side/models/client.model.js:70-102 | encryption errors before any write; the id is consumed and the row inserted before provisioning, with nothing undone; success iff the store is created and name and e-mail are truthy |
| ClientModel.GetClientById | server_side/models/client.model.js:128-152 | null iff no row has the id; otherwise the row decrypted |
| ClientModel.GetAllClients | server_side/models/client.model.js:104-126 | every row, each decrypted as `getClientById` decrypts it |
| ClientModel.RegisteredClientReadsBack | server_side/models/client.model.js:75-89 | a registered client reads back with the plaintexts given, `client_db_<id>`, a null file path when none was given, and status 'active' by default |
| ClientModel.RegistryRowCanonical | server_side/models/client.model.js:86-90 | registration keeps the registry canonical, so the duplicate check stays a plaintext check |
| ClientModel.ApplySetPush | server_side/models/client.model.js:187 | one more `SET` assignment applies on top of the others |
| ClientModel.PushApplies | server_side/models/client.model.js:161-179 | a push sets its column on top of the list before it, and an undefined argument pushes nothing |
| ClientModel.PushesPatch | server_side/models/client.model.js:158-187 | the pushed `SET` list patches every row with exactly the given columns, and it is empty iff no column is given |
| ClientModel.UpdatedRow | server_side/models/client.model.js:156-197 | phone, address and store name never change under updateClient |
| ClientModel.BuildClientSet | server_side/models/client.model.js:158-179 | the `SET` list fails only on an encryption error, and it updates every row as `UpdatedRow` says |
| ClientModel.UpdateClient | server_side/models/client.model.js:156-197 | 'No fields provided to update.' without arguments; on success only the row with the id changes, and a missing id changes nothing |
| ClientModel.DeleteClient | server_side/models/client.model.js:201-215 | the row is removed; success iff it existed, with the two messages |
| ClientController.CreateClient | server_side/controllers/client.controller.js:5-33 | 400 on a duplicate with nothing written; 201 iff registration succeeds, with the store name, the counter at the new id, the registry row added and the store provisioned; past allocation a 500 leaves the id consumed and the row in the registry; 500 otherwise |
| ClientController.GetClientById | server_side/controllers/client.controller.js:45-60 | 404 iff the id is absent, otherwise 200 with the decrypted row |
| ClientController.UpdateClient | server_side/controllers/client.controller.js:62-73 | 200 iff there is something to update and it encrypts, also for a missing id, with the addressed row updated as `UpdatedRow` says; 500 leaves the registry unchanged |
| ClientController.DeleteClient | server_side/controllers/client.controller.js:75-89 | 404 iff the id was absent, 200 otherwise; the row is gone |
| AdminAuth.BearerTokenOf | server_side/middlewares/admin_auth.middleware.js:7 | for `<scheme> <token>` the token is exactly the second word |
| AdminAuth.NoSpaceNoToken | server_side/middlewares/admin_auth.middleware.js:7-11 | a header without a space yields 'Token missing' |
| AdminAuth.SplitWithoutSeparator | server_side/middlewares/admin_auth.middleware.js:7 | a string without the separator splits into itself |
| AdminAuth.SplitAtFirst | server_side/middlewares/admin_auth.middleware.js:7 | the text before the first separator is the first part |
| AdminAuth.VerifyAdmin | server_side/middlewares/admin_auth.middleware.js:6-37 | 403 without a token, 401 for a bad token, 403 for other roles; `next()` only with the admin info set and a connection bound to exactly the claimed, existing store; a failed connection gives 401 |
| EmployeeModel.WithId | server_side/models/employee.model.js:66 | `{ id, ...data }`: the id plus every field of the data, and the data wins on a clash |
| EmployeeModel.EmployeeExists | server_side/models/employee.model.js:7-20 | 'Email is required' for a falsy e-mail; connection errors; an encryption failure without valid keys; otherwise true iff some row holds the e-mail's ciphertext |
| EmployeeModel.EmployeeExistsByPlaintext | server_side/models/employee.model.js:7-20 | on canonical rows the lookup finds the employees whose e-mail decrypts to the given one |
| EmployeeModel.EmployeeExistsById | server_side/models/employee.model.js:22-26 | true iff a row has the id |
| EmployeeModel.GetEmployeeById | server_side/models/employee.model.js:75-79 | the row iff it exists, and it agrees with `employeeExistsById` |
| EmployeeModel.EncryptedOrNull | server_side/models/employee.model.js:36-40 | `safeEncrypt` gives NULL for a falsy value or bad keys, and the ciphertext otherwise |
| EmployeeModel.BindValues | server_side/models/employee.model.js:45-63 | with the plain columns apart from the id and the encrypted ones, the row has exactly those columns and each holds what was bound to it |
| EmployeeModel.PlainColumnsApart | server_side/models/employee.model.js:47 | none of the plainly bound columns is the id or an encrypted column |
| EmployeeModel.BoundRowColumns | server_side/models/employee.model.js:42-63 | the inserted row has exactly the id, the three encrypted columns and the ten plain columns from the data |
| EmployeeModel.InsertCheck | server_side/models/employee.model.js:42-63 | the insert fails iff a value is undefined, the table is missing, a NOT NULL name is null, or the e-mail is taken, in that order |
| EmployeeModel.FailedInsertOutcome | server_side/models/employee.model.js:45-64 | a failed INSERT adds no row and never lowers the auto-increment counter, so the store keeps its constraints |
| EmployeeModel.InsertKeepsValid | server_side/models/employee.model.js:42-63 | an insert that passes the checks keeps the store's invariant |
| EmployeeModel.InsertedRowFound | server_side/models/employee.model.js:42-66 | after an insert the new row's e-mail ciphertext is found by the lookup |
| EmployeeModel.CreateEmployee | server_side/models/employee.model.js:28-67 | an unencryptable e-mail fails; success iff the insert checks pass, with `{ id, ...data }` returned and the row added; a failure adds no row, and only a duplicate e-mail advances the auto-increment counter |
| EmployeeModel.ToFields | server_side/models/employee.model.js:85-96 | the object as a map whose keys are exactly the entries' keys |
| EmployeeModel.ToFieldsEntry | server_side/models/employee.model.js:85-96 | with distinct keys, each key of the map holds its own entry's value |
| EmployeeModel.AssignmentsInKeyOrder | server_side/models/employee.model.js:85-96 | the `SET` list follows the object's key order and skips exactly the undefined values |
| EmployeeModel.AssignmentsEmptyIff | server_side/models/employee.model.js:98 | the `SET` list is empty iff every value is undefined |
| EmployeeModel.AssignedIff | server_side/models/employee.model.js:85-96 | a key is assigned iff its value is defined, and a PII value is bound encrypted |
| EmployeeModel.CollectAssignments | server_side/models/employee.model.js:84-96 | the loop builds the `SET` list and its values in key order, skipping undefined values |
| EmployeeModel.FirstFailing | server_side/models/employee.model.js:100-104 | none iff every assignment passes the test, otherwise the column of an assignment that fails |
| EmployeeModel.FirstFailingIsFirst | server_side/models/employee.model.js:100-104 | the column found is that of the first failing assignment: every assignment before it passes |
| EmployeeModel.ApplyColumns | server_side/models/employee.model.js:100-104 | after the `SET`, a column holds the last value assigned to it, or its old value |
| EmployeeModel.UpdateCheck | server_side/models/employee.model.js:100-104 | the update fails for a missing table, an unknown column, a NULL name or a taken e-mail; a missing row is no error |
| EmployeeModel.UpdateKeepsValid | server_side/models/employee.model.js:100-104 | an update that passes the checks keeps the store's invariant |
| EmployeeModel.UpdateEmployee | server_side/models/employee.model.js:81-107 | 'No valid fields' when nothing is defined; success iff the checks pass, with `{ id, ...data }` returned and the row updated; failure changes nothing |
| EmployeeModel.UpdateWritesDefinedKeys | server_side/models/employee.model.js:85-104 | a column changes only when a defined key names it |
| EmployeeModel.DeleteEmployee | server_side/models/employee.model.js:109-113 | the row is removed, and the count is 1 iff it existed |
| EmployeeController.DecryptEmployeeFields | server_side/controllers/employee.controller.js:10-19 | the PII columns pass through `safeDecrypt`, the rest is unchanged, and nothing becomes nothing |
| EmployeeController.StoredEmployeeReadsBack | server_side/controllers/employee.controller.js:10-19 | an inserted employee reads back with the plaintexts it was created with |
| EmployeeController.UploadFolder | server_side/controllers/employee.controller.js:73-77 | each upload field has its folder, and other fields go to `others` |
| EmployeeController.UploadFolderInjective | server_side/controllers/employee.controller.js:73-77 | different document fields never share a folder |
| EmployeeController.FileTarget | server_side/controllers/employee.controller.js:62-89 | no target without a non-blank file name; otherwise a non-empty path, inside the field's folder and ending in `-<name>` when the name holds no `/` |
| EmployeeController.Normalised | server_side/controllers/employee.controller.js:119-126 | every array field gives way to its first element, and nothing else changes |
| EmployeeController.NormaliseFields | server_side/controllers/employee.controller.js:119-126 | the loop normalises the fields as `Normalised` says |
| EmployeeController.RecordedPath | server_side/controllers/employee.controller.js:102-115 | the path recorded for the field, or null when none (or an empty one) was recorded; `ProcessedFileEntry` and `StoredFileInFolder` use it |
| EmployeeController.ProcessedFiles | server_side/controllers/employee.controller.js:102-115 | the processed files have exactly the parsed file fields as keys, and every path is a string or null |
| EmployeeController.ProcessedFileEntry | server_side/controllers/employee.controller.js:102-115 | with distinct field names, each parsed file is kept with the path recorded for its field |
| EmployeeController.RecordedPathInFolder | server_side/controllers/employee.controller.js:46-89 | a field keeps the path of the last file sent under it; with a non-blank name holding no `/` that path lies in the field's folder and ends in `-<name>` |
| EmployeeController.StoredFileInFolder | server_side/controllers/employee.controller.js:46-115 | a parsed file with a non-blank name, the last one sent under its field, keeps a string path, inside its field's folder when the name holds no `/` |
| EmployeeController.ProcessFiles | server_side/controllers/employee.controller.js:102-115 | the loop builds the map `ProcessedFiles` describes |
| EmployeeController.EmployeeDataFields | server_side/controllers/employee.controller.js:177-186 | each form column of the data holds its field, or `''`, `'active'` or null when the field is falsy; `EmployeeDataInsertable` and `EmployeeDataBound` build on it |
| EmployeeController.EmployeeDataFiles | server_side/controllers/employee.controller.js:188-191 | each document column holds the path of the file uploaded under its field, or null; `EmployeeDataBound` builds on it |
| EmployeeController.EmployeeDataBound | server_side/controllers/employee.controller.js:177-192 | every plainly bound column of the data is defined |
| EmployeeController.EmployeeDataInsertable | server_side/controllers/employee.controller.js:177-203 | the form's data passes the insert checks iff the table exists and the e-mail is not taken |
| EmployeeController.CreateEmployee | server_side/controllers/employee.controller.js:138-215 | 400 without a store name, a form or an e-mail; 500 or 400 from the e-mail check; 201 with `{ id, ...data }` and the row added; nothing changes unless 201 |
| EmployeeController.InsertNewEmployee | server_side/controllers/employee.controller.js:203-206 | once the e-mail is known to be new, the answer is 201 with `{ id, ...data }` and the store gains exactly the inserted row |
| EmployeeController.GetEmployeeById | server_side/controllers/employee.controller.js:233-252 | 400, 500, 404 iff there is no row, otherwise 200 with the decrypted row |
| EmployeeController.CollectSpec | server_side/controllers/employee.controller.js:288-316 | the update data has exactly the sources that supply a value, with their values |
| EmployeeController.CollectInOrder | server_side/controllers/employee.controller.js:288-316 | the entries keep the order of the `if` statements: collecting the sources is collecting a prefix of them and then the rest |
| EmployeeController.UpdateSourcesDistinct | server_side/controllers/employee.controller.js:288-316 | the thirteen update sources name distinct columns |
| EmployeeController.UpdateSourcesColumns | server_side/controllers/employee.controller.js:288-316 | every update source names a column of `employees` other than `id` |
| EmployeeController.CollectShape | server_side/controllers/employee.controller.js:288-316 | collected data keeps the sources' distinct keys |
| EmployeeController.UpdatedDataShape | server_side/controllers/employee.controller.js:288-316 | the update data has distinct known columns and no `id` |
| EmployeeController.UpdateEmployee | server_side/controllers/employee.controller.js:254-339 | 400, 400, 500 and 404 before any write; 200 iff there is data and the update checks pass; nothing changes unless 200 |
| EmployeeController.DeleteEmployee | server_side/controllers/employee.controller.js:341-360 | 400, 500, 404 iff no row had the id, and 200 when it was removed |
| AttendanceController.FirstTrimmed | server_side/controllers/attendance.controller.js:47-51 | undefined iff the field has no value; otherwise its first value trimmed, which is empty iff that value is all white space |
| AttendanceController.OrElse | server_side/controllers/attendance.controller.js:50-51 | the fallback replaces exactly an absent or empty value; `CheckIn` uses it for the IP address and device |
| AttendanceController.MissingSpec | server_side/controllers/attendance.controller.js:54-58 | each required field is listed iff it is missing, each once, in the order of the checks; empty iff all four are present |
| AttendanceController.CollectMissing | server_side/controllers/attendance.controller.js:54-58 | the pushes build the missing-field list |
| AttendanceController.PhotoUrl | server_side/controllers/attendance.controller.js:72 | the URL is the photo folder's prefix followed by the file's name; `PhotoUrlInjective` shows distinct files get distinct URLs |
| AttendanceController.PhotoUrlInjective | server_side/controllers/attendance.controller.js:72 | different files get different URLs |
| AttendanceController.CheckInStatusOutsideEnum | server_side/controllers/attendance.controller.js:52 | 'pending' is not a value the `attendance.status` column accepts |
| AttendanceController.CheckIn | server_side/controllers/attendance.controller.js:15-98 | 500 without a store context; 400 on a parse error; 400 naming the missing fields and nothing saved; otherwise the record goes to the store, and 200 or 500 follows its answer |
| AttendanceController.CheckOut | server_side/controllers/attendance.controller.js:100-114 | 400 without an employee id; 200 iff the store's check-out succeeds; 500 with its message otherwise |
| AttendanceController.GetToday | server_side/controllers/attendance.controller.js:116-130 | 400 without an employee id; 200 with the record or null, never undefined; 500 when the lookup throws |

## Left out

- The cipher, bcrypt and JWT are not modelled inside. AES-256-CBC is an abstract `Cipher` assumed `Sound`. bcrypt is a symbolic `Bcrypt(secret, cost, salt)` with the salt as a parameter. `jwt.verify` is a function parameter.
- Numbers are integers only. Fractions, NaN and `-0` do not occur in the modelled paths.
- Timestamps (`created_at`, `updated_at`, attendance times) and the clock are left out. The upload file name takes `Date.now()` as a parameter.
- `path.join` normalisation, directory creation and file moves are left out. Upload targets are plain concatenations.
- EmployeeController.FileTarget: promises the field's folder only for a name without `/`. `path.join` resolves `..` segments, so in the program a name such as `../../../app.js` is written outside the upload folder and its path does not end in `-<name>`.
- EmployeeController.RecordedPathInFolder: promises the field's folder only for a name without `/`, for the same reason as `FileTarget`.
- EmployeeController.StoredFileInFolder: promises the field's folder only for a name without `/`, for the same reason as `FileTarget`.
- The multipart parser (formidable) is a parameter. Its result is a parsed form or an error message.
- The check-in form (`CheckInForm`) holds arrays of fields and files, as version 3 gives them.
- The employee form (`Form`) holds one file per field name. Each of its fields is a single value or an array.
- The employee form's `filePaths` is a parameter. `RecordedPathInFolder` states what the `file` and `fileBegin` handlers put there, and `StoredFileInFolder` what a parsed file then carries. `Form` itself does not require it.
- Transport failures (a lost connection, a timeout) are not modelled. So the 500 of `deleteClient` and the 500 after the e-mail check in `createEmployee` cannot be reached in the model.
- Concurrency is not modelled. Two registrations running at once could read the same `last_client_id`. Each modelled call runs alone.
- The order of rows a `SELECT` returns is left out. The registry and the employees are maps.
- Route parameters are modelled as integers. MySQL's conversion of a non-numeric id string is not modelled.
- `LIKE` is compared case-sensitively. MySQL's collation could make it case-insensitive.
- Rows removed by `ON DELETE CASCADE` are left out. The model stores only employees, roles and admins among a tenant's rows. The cascade graph is stated in `Schema.SchemaCascades`.
- The second argument of `createClientDatabase` is left out, because it is used only in a log line.
- Column types and `ENUM` values are not checked on `INSERT` or on `UPDATE`. Under strict mode MySQL rejects a bad one.
- The foreign keys on `department_id` and `role_id` are not checked on `INSERT` or on `UPDATE`. InnoDB always checks them.
- EmployeeModel.InsertCheck: enforces only `NOT NULL` and `UNIQUE`. So a `department_id` or `role_id` that names no row, a status outside the enum, or a malformed `hire_date` gets 201 from createEmployee in the model. The program answers 500.
- EmployeeModel.UpdateCheck: enforces only `NOT NULL` and `UNIQUE`, so the same values get 200 from updateEmployee in the model. The program answers 500.
- The `getAllEmployees` model and controller functions are left out. They are the per-row loop of `getEmployeeById` with the same decryption, and the model states that decryption.
- The `getAllClients` controller is left out, because it only forwards `ClientModel.GetAllClients`.
- The attendance model (`attendance.model.js`) is left out. Its answers are parameters of `CheckIn`, `CheckOut` and `GetToday`.
- The `received` echo in the 400 body of check-in is left out. The `error` detail in the employee handlers' 500 bodies is left out too.
- The outer `catch` of `checkIn` is left out, because nothing before the parse callback can throw in the model.
- EmployeeModel.UpdateEmployee: requires the data to have distinct keys and no `id` key. The controller builds its data from a fixed list of thirteen columns, so it always meets this.
- EmployeeController.UpdateEmployee: the thirteen `if` statements of the source are modelled by one table of sources (`UpdateSources`) walked by `Collect`. The order is the source's, and `UpdatedDataShape` states the result.
- Closing connections is left out. Connections are values, so there is nothing to release on any path.

=== FILE: admin_auth.dfy ===
/**
 * Tenant routing for admin requests (server_side/middlewares/admin_auth.middleware.js):
 * take the bearer token from the Authorization header, verify it, gate on the
 * role claim, and bind the request to the store named by the dbName claim.
 */
module AdminAuth {
  import opened Results
  import opened Js
  import opened Db

  /** The claims of a verified token, as JavaScript values. */
  datatype Claims = Claims(id: JsValue, email: JsValue, role: JsValue, dbName: JsValue)

  /** `req.admin` */
  datatype AdminInfo = AdminInfo(id: JsValue, email: JsValue, role: JsValue)

  /** The middleware either calls `next()` or answers with a status and a message. */
  datatype Verdict = Next | Respond(status: int, message: string)

  const InvalidToken := "Invalid or expired token"

  /** The request fields the middleware reads and sets. */
  class Request {
    const authorization: Option<string>
    var admin: Option<AdminInfo>
    var dbName: JsValue
    var dbConnection: Option<Connection>

    constructor (authorization: Option<string>)
      ensures this.authorization == authorization
      ensures admin.None? && dbName == Undefined && dbConnection.None?
    {
      this.authorization := authorization;
      admin := None;
      dbName := Undefined;
      dbConnection := None;
    }
  }

  /** `header?.split(' ')[1]`: the second space-separated word, or undefined (None). */
  function BearerToken(header: Option<string>): Option<string> {
    if header.None? then None
    else
      var parts := Split(header.value, ' ');
      if |parts| >= 2 then Some(parts[1]) else None
  }

  /** `!token` is false: there is a second word and it is not empty. */
  predicate HasToken(header: Option<string>) {
    BearerToken(header).Some? && BearerToken(header).value != ""
  }

  /** A string without the separator splits into itself alone. */
  lemma {:induction false} SplitWithoutSeparator(s: string, sep: char)
    requires sep !in s
    ensures Split(s, sep) == [s]
    decreases |s|
  {
    if |s| > 0 {
      SplitWithoutSeparator(s[1..], sep);
      assert [s[0]] + s[1..] == s;
    }
  }

  /** The text before the first separator is the first part; the rest splits on its own. */
  lemma {:induction false} SplitAtFirst(a: string, sep: char, b: string)
    requires sep !in a
    ensures Split(a + [sep] + b, sep) == [a] + Split(b, sep)
    decreases |a|
  {
    var s := a + [sep] + b;
    if |a| > 0 {
      assert s[1..] == a[1..] + [sep] + b;
      SplitAtFirst(a[1..], sep, b);
      assert [a[0]] + a[1..] == a;
    } else {
      assert s[1..] == b;
    }
  }

  /** For `Authorization: <scheme> <token>` with neither word holding a space, the token is exactly the second word. */
  lemma BearerTokenOf(scheme: string, token: string)
    requires ' ' !in scheme && ' ' !in token
    ensures BearerToken(Some(scheme + " " + token)) == Some(token)
  {
    SplitAtFirst(scheme, ' ', token);
    SplitWithoutSeparator(token, ' ');
    assert scheme + " " + token == scheme + [' '] + token;
  }

  /** A header without a space has no second word, so the middleware answers 'Token missing'. */
  lemma NoSpaceNoToken(header: string)
    requires ' ' !in header
    ensures !HasToken(Some(header))
  {
    SplitWithoutSeparator(header, ' ');
  }

  /**
   * verifyAdmin: 403 'Token missing' without a token; 401 when the token does
   * not verify; 403 'Unauthorized' for a role other than admin or superadmin;
   * otherwise `req.admin` and `req.dbName` are set from the claims, and the
   * connection, bound to exactly the claimed store, is attached before
   * `next()`. A connection error (a falsy or unknown dbName) answers 401.
   * `verify` stands for jwt.verify with the server's secret.
   */
  method VerifyAdmin(req: Request, srv: Server, verify: string -> Option<Claims>) returns (v: Verdict)
    modifies req
    ensures !HasToken(req.authorization) ==> v == Respond(403, "Token missing") && unchanged(req)
    ensures HasToken(req.authorization) ==>
      var decoded := verify(BearerToken(req.authorization).value);
      && (decoded.None? ==> v == Respond(401, InvalidToken) && unchanged(req))
      && (decoded.Some? && decoded.value.role != Str("admin") && decoded.value.role != Str("superadmin") ==>
            v == Respond(403, "Unauthorized") && unchanged(req))
      && (decoded.Some? && (decoded.value.role == Str("admin") || decoded.value.role == Str("superadmin")) ==>
            var c := decoded.value;
            && req.admin == Some(AdminInfo(c.id, c.email, c.role))
            && req.dbName == c.dbName
            && (v.Next? <==> Connect(srv.stores, c.dbName).Ok?)
            && (v.Next? ==> req.dbConnection == Some(Connection(ToJsString(c.dbName))))
            && (!v.Next? ==> v == Respond(401, InvalidToken) && req.dbConnection == old(req.dbConnection)))
    ensures v.Next? ==>
      && HasToken(req.authorization)
      && req.admin.Some? && req.dbConnection.Some?
      && req.dbConnection.value.database == ToJsString(req.dbName)
      && req.dbConnection.value.database in srv.stores
  {
    var token := BearerToken(req.authorization);
    if token.None? || token.value == "" {
      return Respond(403, "Token missing");
    }
    var decoded := verify(token.value);
    if decoded.None? {
      return Respond(401, InvalidToken);
    }
    var claims := decoded.value;
    if claims.role != Str("admin") && claims.role != Str("superadmin") {
      return Respond(403, "Unauthorized");
    }
    req.admin := Some(AdminInfo(claims.id, claims.email, claims.role));
    req.dbName := claims.dbName;
    var connection := Connect(srv.stores, claims.dbName);
    if connection.Fail? {
      return Respond(401, InvalidToken);
    }
    req.dbConnection := Some(connection.value);
    return Next;
  }
}

=== FILE: attendance_controller.dfy ===
/**
 * The attendance handlers (server_side/controllers/attendance.controller.js):
 * the check-in validation and the record it hands to the attendance store,
 * and the guards of check-out and of today's record. The attendance store
 * itself is a foreign call here: its outcome is a parameter.
 */
module AttendanceController {
  import opened Results
  import opened Js
  import opened Schema
  import opened Db

  /** A response: the status code, the `message` field when the body has one, and the `result` or `data` field when it has one. */
  datatype Reply = Reply(status: int, message: Option<string>, payload: Option<JsValue>)

  /** An uploaded file, by the name formidable gave it in the upload directory. */
  datatype PhotoFile = PhotoFile(newFilename: string)

  /** What formidable hands to the parse callback: every field and every file as an array. */
  datatype CheckInForm = CheckInForm(fields: map<string, seq<string>>, files: map<string, seq<PhotoFile>>)

  /** The object handed to markCheckIn. */
  datatype CheckInRecord = CheckInRecord(
    employeeId: string, latitude: string, longitude: string,
    ipAddress: Option<string>, deviceInfo: Option<string>,
    status: string, photoUrl: string)

  /** The status every check-in is recorded with. */
  const CheckInStatus := "pending"

  const PhotoPrefix := "/uploads/attendance_photos/"

  /** `fields.key?.[0]?.trim()`: the first value of the field, trimmed, or undefined (None) when there is none. */
  function FirstTrimmed(fields: map<string, seq<string>>, key: string): (r: Option<string>)
    ensures r.None? <==> key !in fields || |fields[key]| == 0
    ensures r == Some("") <==>
      key in fields && |fields[key]| > 0 && forall k :: 0 <= k < |fields[key][0]| ==> IsJsWhitespace(fields[key][0][k])
    ensures r.Some? && r.value != "" ==> !IsJsWhitespace(r.value[0]) && !IsJsWhitespace(r.value[|r.value| - 1])
    ensures r.Some? ==> r.value == Trim(fields[key][0])
  {
    if key in fields && |fields[key]| > 0 then Some(Trim(fields[key][0])) else None
  }

  /** `!v` for an optional string: absent or empty. */
  predicate Blank(v: Option<string>) {
    v.None? || v.value == ""
  }

  /** `v || fallback` */
  function OrElse(v: Option<string>, fallback: Option<string>): (r: Option<string>)
    ensures Blank(v) ==> r == fallback
    ensures !Blank(v) ==> r == v
  {
    if Blank(v) then fallback else v
  }

  /** `!files.photo || !files.photo[0]` is false: a photo was uploaded. */
  predicate HasPhoto(files: map<string, seq<PhotoFile>>) {
    "photo" in files && |files["photo"]| > 0
  }

  /** The required fields, in the order the handler checks them. */
  const RequiredFields: seq<string> := ["employee_id", "latitude", "longitude", "photo"]

  /** The missing required fields, in the order the handler checks them. */
  function Missing(employeeId: Option<string>, latitude: Option<string>, longitude: Option<string>, hasPhoto: bool)
    : seq<string>
  {
    (if Blank(employeeId) then ["employee_id"] else [])
    + (if Blank(latitude) then ["latitude"] else [])
    + (if Blank(longitude) then ["longitude"] else [])
    + (if hasPhoto then [] else ["photo"])
  }

  /** The position of a required field in the order of the checks. */
  function Rank(field: string): int {
    if field == "employee_id" then 0
    else if field == "latitude" then 1
    else if field == "longitude" then 2
    else if field == "photo" then 3
    else 4
  }

  /**
   * The list names exactly the required fields that are missing (a blank
   * value counts as missing), each once and in the order of the checks; it
   * is empty exactly when all four are present.
   */
  lemma MissingSpec(employeeId: Option<string>, latitude: Option<string>, longitude: Option<string>, hasPhoto: bool)
    ensures var m := Missing(employeeId, latitude, longitude, hasPhoto);
      && ("employee_id" in m <==> Blank(employeeId))
      && ("latitude" in m <==> Blank(latitude))
      && ("longitude" in m <==> Blank(longitude))
      && ("photo" in m <==> !hasPhoto)
      && (forall i :: 0 <= i < |m| ==> m[i] in RequiredFields)
      && (forall i, j :: 0 <= i < j < |m| ==> Rank(m[i]) < Rank(m[j]))
      && (|m| == 0 <==> !Blank(employeeId) && !Blank(latitude) && !Blank(longitude) && hasPhoto)
  {
    var m := Missing(employeeId, latitude, longitude, hasPhoto);
    assert forall i :: 0 <= i < |m| ==>
      m[i] in RequiredFields && Rank(m[i]) == (if m[i] == "employee_id" then 0 else if m[i] == "latitude" then 1 else if m[i] == "longitude" then 2 else 3);
  }

  /** The checks of checkIn: each missing field is pushed in turn. */
  method CollectMissing(employeeId: Option<string>, latitude: Option<string>, longitude: Option<string>, hasPhoto: bool)
    returns (missingFields: seq<string>)
    ensures missingFields == Missing(employeeId, latitude, longitude, hasPhoto)
  {
    missingFields := [];
    if Blank(employeeId) {
      missingFields := missingFields + ["employee_id"];
    }
    if Blank(latitude) {
      missingFields := missingFields + ["latitude"];
    }
    if Blank(longitude) {
      missingFields := missingFields + ["longitude"];
    }
    if !hasPhoto {
      missingFields := missingFields + ["photo"];
    }
  }

  /** The public URL of an uploaded photo. */
  function PhotoUrl(newFilename: string): (url: string)
    ensures |url| == |PhotoPrefix| + |newFilename|
    ensures url[..|PhotoPrefix|] == PhotoPrefix && url[|PhotoPrefix|..] == newFilename
  {
    PhotoPrefix + newFilename
  }

  /** Photo URLs name their files one to one. */
  lemma PhotoUrlInjective(a: string, b: string)
    requires PhotoUrl(a) == PhotoUrl(b)
    ensures a == b
  {
    assert a == PhotoUrl(a)[|PhotoPrefix|..];
  }

  /** The status recorded for a check-in is not one the `attendance.status` column accepts. */
  lemma CheckInStatusOutsideEnum()
    ensures CheckInStatus !in AttendanceStatuses
  {
  }

  /**
   * checkIn: 500 'Database context missing' without a store name or a
   * connection, before anything is parsed; 400 when the form does not parse;
   * 400 naming the missing fields, and then nothing is saved; otherwise the
   * record (trimmed values, the request's IP address and user agent as
   * fallbacks, status 'pending', the photo's URL) goes to the attendance
   * store, whose outcome `markCheckIn` decides between 200 and 500.
   * `record` is what was handed to the store, if anything was.
   */
  method CheckIn(dbName: JsValue, connection: Option<Connection>, parsed: Result<CheckInForm, string>,
                 ip: Option<string>, userAgent: Option<string>, markCheckIn: CheckInRecord -> Result<JsValue, string>)
    returns (reply: Reply, record: Option<CheckInRecord>)
    ensures !Truthy(dbName) || connection.None? ==> reply == Reply(500, Some("Database context missing"), None) && record.None?
    ensures Truthy(dbName) && connection.Some? && parsed.Fail? ==>
      reply == Reply(400, Some("Form parsing error: " + parsed.error), None) && record.None?
    ensures Truthy(dbName) && connection.Some? && parsed.Ok? ==>
      var fields, files := parsed.value.fields, parsed.value.files;
      var employeeId := FirstTrimmed(fields, "employee_id");
      var latitude := FirstTrimmed(fields, "latitude");
      var longitude := FirstTrimmed(fields, "longitude");
      var missing := Missing(employeeId, latitude, longitude, HasPhoto(files));
      && (|missing| > 0 ==>
            reply == Reply(400, Some("Missing required fields: " + Join(missing, ", ")), None) && record.None?)
      && (|missing| == 0 ==>
            && record == Some(CheckInRecord(
                 employeeId.value, latitude.value, longitude.value,
                 OrElse(FirstTrimmed(fields, "ip_address"), ip), OrElse(FirstTrimmed(fields, "device_info"), userAgent),
                 CheckInStatus, PhotoUrl(files["photo"][0].newFilename)))
            && reply == match markCheckIn(record.value)
                        case Ok(result) => Reply(200, Some("Check-in successful"), Some(result))
                        case Fail(m) => Reply(500, Some("Failed to record attendance: " + m), None))
    ensures record.Some? ==>
      && record.value.employeeId != "" && record.value.latitude != "" && record.value.longitude != ""
      && record.value.status !in AttendanceStatuses
      && record.value.photoUrl[..|PhotoPrefix|] == PhotoPrefix
  {
    if !Truthy(dbName) || connection.None? {
      return Reply(500, Some("Database context missing"), None), None;
    }
    if parsed.Fail? {
      return Reply(400, Some("Form parsing error: " + parsed.error), None), None;
    }
    var fields, files := parsed.value.fields, parsed.value.files;
    var employeeId := FirstTrimmed(fields, "employee_id");
    var latitude := FirstTrimmed(fields, "latitude");
    var longitude := FirstTrimmed(fields, "longitude");
    var ipAddress := OrElse(FirstTrimmed(fields, "ip_address"), ip);
    var deviceInfo := OrElse(FirstTrimmed(fields, "device_info"), userAgent);
    var missingFields := CollectMissing(employeeId, latitude, longitude, HasPhoto(files));
    MissingSpec(employeeId, latitude, longitude, HasPhoto(files));
    if |missingFields| > 0 {
      return Reply(400, Some("Missing required fields: " + Join(missingFields, ", ")), None), None;
    }
    var photo := files["photo"][0];
    CheckInStatusOutsideEnum();
    var data := CheckInRecord(employeeId.value, latitude.value, longitude.value, ipAddress, deviceInfo,
                              CheckInStatus, PhotoUrl(photo.newFilename));
    record := Some(data);
    match markCheckIn(data)
    case Ok(result) =>
      reply := Reply(200, Some("Check-in successful"), Some(result));
    case Fail(m) =>
      reply := Reply(500, Some("Failed to record attendance: " + m), None);
  }

  /** checkOut: 400 without an employee id in the body; otherwise `markCheckOut` decides between 200 and 500. */
  function CheckOut(employeeId: JsValue, markCheckOut: JsValue -> Result<JsValue, string>): (reply: Reply)
    ensures !Truthy(employeeId) ==> reply == Reply(400, Some("Employee.. ID is required"), None)
    ensures Truthy(employeeId) ==>
      && (reply.status == 200 <==> markCheckOut(employeeId).Ok?)
      && (reply.status == 200 ==> reply == Reply(200, Some("Check-out successful"), Some(markCheckOut(employeeId).value)))
      && (reply.status != 200 ==> reply == Reply(500, Some("Internal Server Error: " + markCheckOut(employeeId).error), None))
  {
    if !Truthy(employeeId) then Reply(400, Some("Employee.. ID is required"), None)
    else match markCheckOut(employeeId)
      case Ok(result) => Reply(200, Some("Check-out successful"), Some(result))
      case Fail(m) => Reply(500, Some("Internal Server Error: " + m), None)
  }

  /**
   * getToday: 400 without an employee id; otherwise 200 with `data`, the
   * record `todayAttendance` found or null (never undefined); 500 when the
   * lookup throws.
   */
  function GetToday(employeeId: JsValue, todayAttendance: JsValue -> Result<JsValue, string>): (reply: Reply)
    ensures !Truthy(employeeId) ==> reply == Reply(400, Some("Employee ID is required"), None)
    ensures Truthy(employeeId) && todayAttendance(employeeId).Fail? ==>
      reply == Reply(500, Some("Internal Server Error: " + todayAttendance(employeeId).error), None)
    ensures Truthy(employeeId) && todayAttendance(employeeId).Ok? ==>
      && reply.status == 200 && reply.message.None? && reply.payload.Some?
      && !reply.payload.value.Undefined?
      && (Truthy(todayAttendance(employeeId).value) ==> reply.payload.value == todayAttendance(employeeId).value)
      && (!Truthy(todayAttendance(employeeId).value) ==> reply.payload.value == Null)
  {
    if !Truthy(employeeId) then Reply(400, Some("Employee ID is required"), None)
    else match todayAttendance(employeeId)
      case Ok(result) => Reply(200, None, Some(Or(result, Null)))
      case Fail(m) => Reply(500, Some("Internal Server Error: " + m), None)
  }
}

=== FILE: client_controller.dfy ===
/**
 * The HTTP decisions of the client registry
 * (server_side/controllers/client.controller.js): each handler calls the
 * registry and answers with a status code and a JSON body.
 */
module ClientController {
  import opened Results
  import opened Js
  import opened Encryption
  import opened Db
  import opened ClientModel

  /** A response: the status code, the `message` field when the body has one, and the payload otherwise. */
  datatype Reply<T> = Reply(status: int, message: Option<string>, payload: Option<T>)

  /** The fields createClient reads from the request body. */
  datatype ClientBody = ClientBody(
    companyName: JsValue, email: JsValue, address: JsValue, phone: JsValue,
    agreementFilePath: JsValue, status: JsValue)

  const InternalError := Some("Internal server error.")

  /**
   * createClient: 400 when the duplicate check finds a client, and then the
   * registry is not touched (no id is consumed); 201 with the plaintext store
   * name when registration succeeds; 500 for anything thrown.
   */
  method CreateClient(srv: Server, codec: Codec, body: ClientBody, serverCreates: bool, salt: string)
    returns (reply: Reply<string>)
    requires srv.Valid()
    modifies srv`config, srv`issued, srv`clients, srv`nextClientKey, srv`stores
    ensures srv.Valid()
    ensures reply.status in {201, 400, 500}
    ensures reply.status == 500 ==> reply == Reply(500, InternalError, None)
    ensures var found := ClientExists(codec, old(srv.clients), body.companyName, body.email);
      && (found == Ok(true) ==> reply == Reply(400, Some("Client already exists."), None) && unchanged(srv))
      && (found.Fail? ==> reply.status == 500 && unchanged(srv))
      && (reply.status == 201 <==>
            && found == Ok(false) && ValidKeys(codec.env) && old(srv.config).Some?
            && serverCreates && Truthy(body.companyName) && Truthy(body.email))
    ensures reply.status == 201 ==>
      reply == Reply(201, Some("Client created successfully."), Some(DbName(old(srv.config).value + 1)))
    // past the duplicate check the registry decides; what it commits stays, also after a 500
    ensures var found := ClientExists(codec, old(srv.clients), body.companyName, body.email);
      var data := ClientData(body.companyName, body.email, body.address, body.phone, body.agreementFilePath,
                             WithDefaultStatus(body.status));
      var encrypts := Truthy(body.companyName) || Truthy(body.email) || Truthy(body.address) || Truthy(body.phone);
      found == Ok(false) ==>
        && (old(srv.config).None? || (!ValidKeys(codec.env) && encrypts) ==> unchanged(srv))
        && (old(srv.config).Some? ==>
              var id := old(srv.config).value + 1;
              && (ValidKeys(codec.env) || !encrypts ==>
                    srv.config == Some(id) && srv.issued == old(srv.issued) + {id})
              && (!ValidKeys(codec.env) && !encrypts ==>
                    && srv.clients == old(srv.clients) && srv.nextClientKey == old(srv.nextClientKey)
                    && srv.stores == old(srv.stores))
              && (ValidKeys(codec.env) ==>
                    && srv.clients == old(srv.clients)[old(srv.nextClientKey) := RegistryRow(codec, data, DbName(id))]
                    && srv.nextClientKey == old(srv.nextClientKey) + 1
                    && srv.stores - {DbName(id)} == old(srv.stores) - {DbName(id)}
                    && (reply.status == 201 ==>
                          DbName(id) in srv.stores && srv.stores[DbName(id)] == ProvisionedStore(codec, data, salt))))
  {
    var status := WithDefaultStatus(body.status);
    var found := ClientExists(codec, srv.clients, body.companyName, body.email);
    if found.Fail? {
      return Reply(500, InternalError, None);
    }
    if found.value {
      return Reply(400, Some("Client already exists."), None);
    }
    var data := ClientData(body.companyName, body.email, body.address, body.phone, body.agreementFilePath, status);
    var created := ClientModel.CreateClient(srv, codec, data, serverCreates, salt);
    if created.Fail? {
      return Reply(500, InternalError, None);
    }
    var (_, dbName) := created.value;
    return Reply(201, Some("Client created successfully."), Some(dbName));
  }

  /** getClientById: 404 'Client not found.' when the registry has no such row, otherwise 200 with the decrypted record. */
  method GetClientById(codec: Codec, clients: map<int, ClientRow>, clientId: int) returns (reply: Reply<ClientView>)
    ensures reply.status == 404 <==> clientId !in clients
    ensures reply.status == 404 ==> reply == Reply(404, Some("Client not found."), None)
    ensures reply.status != 404 ==> reply == Reply(200, None, Some(View(codec, clientId, clients[clientId])))
  {
    var client := ClientModel.GetClientById(codec, clients, clientId);
    if client.None? {
      return Reply(404, Some("Client not found."), None);
    }
    return Reply(200, None, client);
  }

  /** updateClient: 200 whenever the registry does not throw, also when no row has the id; 500 otherwise. */
  method UpdateClient(srv: Server, codec: Codec, clientId: int, companyName: JsValue, adminEmail: JsValue,
                      agreementFilePath: JsValue, status: JsValue) returns (reply: Reply<()>)
    requires srv.Valid()
    modifies srv`clients
    ensures srv.Valid()
    ensures reply.status == 200 <==>
      && !NothingToUpdate(companyName, adminEmail, agreementFilePath, status)
      && (companyName.Undefined? || Encrypt(codec, companyName).Ok?)
      && (adminEmail.Undefined? || Encrypt(codec, adminEmail).Ok?)
    ensures reply.status == 200 ==> reply == Reply(200, Some("Client updated successfully."), None)
    ensures reply.status != 200 ==> reply == Reply(500, InternalError, None) && srv.clients == old(srv.clients)
    ensures reply.status == 200 ==> (srv.clients ==
      if clientId in old(srv.clients)
      then old(srv.clients)[clientId := UpdatedRow(codec, old(srv.clients)[clientId], companyName, adminEmail, agreementFilePath, status)]
      else old(srv.clients))
    ensures clientId !in old(srv.clients) ==> srv.clients == old(srv.clients)
  {
    var updated := ClientModel.UpdateClient(srv, codec, clientId, companyName, adminEmail, agreementFilePath, status);
    if updated.Fail? {
      return Reply(500, InternalError, None);
    }
    return Reply(200, Some("Client updated successfully."), None);
  }

  /** deleteClient: 404 with the registry's message when nothing was deleted, otherwise 200 with its message. */
  method DeleteClient(srv: Server, clientId: int) returns (reply: Reply<()>)
    requires srv.Valid()
    modifies srv`clients
    ensures srv.Valid()
    ensures srv.clients == old(srv.clients) - {clientId}
    ensures reply.status == 404 <==> clientId !in old(srv.clients)
    ensures reply.status == 404 ==> reply == Reply(404, Some("Client not found."), None)
    ensures reply.status != 404 ==> reply == Reply(200, Some("Client deleted successfully."), None)
  {
    var result := ClientModel.DeleteClient(srv, clientId);
    if !result.success {
      return Reply(404, Some(result.message), None);
    }
    return Reply(200, Some(result.message), None);
  }
}

=== FILE: client_model.dfy ===
/**
 * The client registry (server_side/models/client.model.js): duplicate check,
 * client id allocation, registration with provisioning of the tenant store,
 * reads with decryption, update and delete. PII columns are stored encrypted.
 */
module ClientModel {
  import opened Results
  import opened Js
  import opened Schema
  import opened Encryption
  import opened Db
  import opened DbCreator
  import opened DefaultAdminCreator

  // ---------------------------------------------------------------------------
  // clientExists

  /**
   * clientExists(companyName, email): one query for a row whose company name
   * OR admin e-mail equals the ciphertext of the given value. A falsy value
   * encrypts to null, and `= NULL` matches no row.
   */
  function ClientExists(codec: Codec, clients: map<int, ClientRow>, companyName: JsValue, email: JsValue)
    : (r: Result<bool, DbError>)
    ensures (Truthy(companyName) || Truthy(email)) && !ValidKeys(codec.env) ==> r.Fail? && r.error.Crypto?
    ensures r.Ok? <==> ValidKeys(codec.env) || (!Truthy(companyName) && !Truthy(email))
    ensures !Truthy(companyName) && !Truthy(email) ==> r == Ok(false)
    ensures r.Ok? ==>
      (r.value <==> SomeRowMatches(clients, EncryptedColumn(codec, companyName), EncryptedColumn(codec, email)))
  {
    var c := Encrypt(codec, companyName);
    if c.Fail? then Fail(Crypto(c.error))
    else
      var e := Encrypt(codec, email);
      if e.Fail? then Fail(Crypto(e.error))
      else Ok(SomeRowMatches(clients, OfNullable(c.value), OfNullable(e.value)))
  }

  /** `WHERE company_name = ? OR admin_email = ?` finds a row. */
  predicate SomeRowMatches(clients: map<int, ClientRow>, name: JsValue, mail: JsValue) {
    exists k :: k in clients && (SqlEquals(clients[k].companyName, name) || SqlEquals(clients[k].adminEmail, mail))
  }

  /** Every encrypted lookup column of the registry holds a value `encrypt` could have written. */
  ghost predicate CanonicalRegistry(codec: Codec, clients: map<int, ClientRow>) {
    forall k :: k in clients ==> Canonical(codec, clients[k].companyName) && Canonical(codec, clients[k].adminEmail)
  }

  /**
   * On a canonical registry the duplicate check is a check on plaintexts:
   * it finds a client exactly when some row's company name decrypts to the
   * given company name or its admin e-mail decrypts to the given e-mail.
   */
  lemma ClientExistsByPlaintext(codec: Codec, clients: map<int, ClientRow>, companyName: JsValue, email: JsValue)
    requires Sound(codec.cipher) && ValidKeys(codec.env) && CanonicalRegistry(codec, clients)
    ensures ClientExists(codec, clients, companyName, email).Ok?
    ensures ClientExists(codec, clients, companyName, email).value <==>
      exists k :: k in clients && (Holds(codec, clients[k].companyName, companyName) || Holds(codec, clients[k].adminEmail, email))
  {
    forall k | k in clients
      ensures (SqlEquals(clients[k].companyName, EncryptedColumn(codec, companyName))
               || SqlEquals(clients[k].adminEmail, EncryptedColumn(codec, email)))
          <==> (Holds(codec, clients[k].companyName, companyName) || Holds(codec, clients[k].adminEmail, email))
    {
      CanonicalColumnMatch(codec, clients[k].companyName, companyName);
      CanonicalColumnMatch(codec, clients[k].adminEmail, email);
    }
  }

  /** One canonical column equals the ciphertext of a value exactly when it holds that value. */
  lemma CanonicalColumnMatch(codec: Codec, column: JsValue, v: JsValue)
    requires Sound(codec.cipher) && ValidKeys(codec.env) && Canonical(codec, column)
    ensures SqlEquals(column, EncryptedColumn(codec, v)) <==> Holds(codec, column, v)
  {
    if Truthy(v) {
      CanonicalMatchIff(codec, column, v);
      EncryptTruthy(codec, v);
    }
  }

  // ---------------------------------------------------------------------------
  // getNextClientId

  /**
   * getNextClientId: read `last_client_id`, write back one more and return it.
   * The id is larger than every id handed out before, so it is new.
   */
  method GetNextClientId(srv: Server) returns (r: Result<int, DbError>)
    requires srv.Valid()
    modifies srv`config, srv`issued
    ensures srv.Valid()
    ensures old(srv.config).None? ==>
      r == Fail(ConfigNotFound) && srv.config == old(srv.config) && srv.issued == old(srv.issued)
    ensures old(srv.config).Some? ==>
      && r == Ok(old(srv.config).value + 1)
      && srv.config == Some(r.value)
      && srv.issued == old(srv.issued) + {r.value}
    ensures r.Ok? ==> forall i :: i in old(srv.issued) ==> i < r.value
  {
    if srv.config.None? {
      return Fail(ConfigNotFound);
    }
    var last := srv.config.value;
    var next := last + 1;
    srv.config := Some(next);
    srv.issued := srv.issued + {next};
    return Ok(next);
  }

  // ---------------------------------------------------------------------------
  // insertRoles

  const DefaultRoles: seq<string> := ["superuser", "admin", "employee"]

  /** How many default roles, from index `i` on, go in before one that `existing` already holds. */
  function SeededFrom(existing: seq<string>, i: nat): (k: nat)
    requires i <= |DefaultRoles|
    ensures i <= k <= |DefaultRoles|
    ensures forall j :: i <= j < k ==> DefaultRoles[j] !in existing
    ensures k < |DefaultRoles| ==> DefaultRoles[k] in existing
    decreases |DefaultRoles| - i
  {
    if i == |DefaultRoles| || DefaultRoles[i] in existing then i else SeededFrom(existing, i + 1)
  }

  /** How many default roles insertRoles adds to `store` before it stops: none without a `roles` table. */
  function RolesInserted(store: TenantStore): nat {
    if Roles !in store.tables then 0 else SeededFrom(store.roles, 0)
  }

  /** The store after insertRoles: the default roles that went in, in order, appended. */
  function WithRolesInserted(store: TenantStore): TenantStore {
    store.(roles := store.roles + DefaultRoles[..RolesInserted(store)])
  }

  /** What insertRoles reports: success when all three went in, otherwise the error of the insert that failed. */
  function InsertRolesResult(store: TenantStore): Result<(), DbError> {
    if Roles !in store.tables then Fail(NoSuchTable(Roles))
    else if RolesInserted(store) < |DefaultRoles| then Fail(DuplicateEntry(Roles, "role_name"))
    else Ok(())
  }

  /** The i-th default role collides with the roles present after the first i went in exactly when it was there before. */
  lemma DefaultRoleInserted(existing: seq<string>, i: nat)
    requires i < |DefaultRoles| && i <= SeededFrom(existing, 0)
    ensures DefaultRoles[i] in existing + DefaultRoles[..i] <==> SeededFrom(existing, 0) == i
  {
    assert DefaultRoles[i] !in DefaultRoles[..i];
  }

  /** Adding a role name not yet present keeps the store's UNIQUE constraints. */
  lemma AddRoleKeepsValid(store: TenantStore, role: string)
    requires store.Valid() && role !in store.roles
    ensures store.(roles := store.roles + [role]).Valid()
  {
  }

  /**
   * The loop of insertRoles on one store: insert 'superuser', 'admin',
   * 'employee' one by one; the first insert that fails (missing table,
   * duplicate name) ends the loop, and the roles inserted before it stay.
   * The store keeps its UNIQUE constraints.
   */
  method SeedRoles(store: TenantStore) returns (r: Result<(), DbError>, after: TenantStore)
    ensures after == WithRolesInserted(store) && r == InsertRolesResult(store)
    ensures store.Valid() ==> after.Valid()
  {
    ghost var k := RolesInserted(store);
    after := store;
    assert store.(roles := store.roles + DefaultRoles[..0]) == store;
    var i := 0;
    while i < |DefaultRoles|
      invariant 0 <= i <= k
      invariant Roles in store.tables || i == 0
      invariant after == store.(roles := store.roles + DefaultRoles[..i])
      invariant store.Valid() ==> after.Valid()
    {
      if Roles !in after.tables {
        return Fail(NoSuchTable(Roles)), after;
      }
      DefaultRoleInserted(store.roles, i);
      if DefaultRoles[i] in after.roles {
        return Fail(DuplicateEntry(Roles, "role_name")), after;
      }
      if store.Valid() {
        AddRoleKeepsValid(after, DefaultRoles[i]);
      }
      assert store.roles + DefaultRoles[..i] + [DefaultRoles[i]] == store.roles + DefaultRoles[..i + 1];
      after := after.(roles := after.roles + [DefaultRoles[i]]);
      i := i + 1;
    }
    return Ok(()), after;
  }

  /**
   * insertRoles(dbName): connect to the store by name (an unknown store
   * fails and changes nothing), then seed its roles as SeedRoles does.
   */
  method InsertRoles(srv: Server, dbName: string) returns (r: Result<(), DbError>)
    requires srv.Valid()
    modifies srv`stores
    ensures srv.Valid()
    ensures Connect(old(srv.stores), Str(dbName)).Fail? ==>
      r == Fail(Connect(old(srv.stores), Str(dbName)).error) && srv.stores == old(srv.stores)
    ensures Connect(old(srv.stores), Str(dbName)).Ok? ==>
      && srv.stores == old(srv.stores)[dbName := WithRolesInserted(old(srv.stores)[dbName])]
      && r == InsertRolesResult(old(srv.stores)[dbName])
  {
    var conn := Connect(srv.stores, Str(dbName));
    if conn.Fail? {
      return Fail(conn.error);
    }
    var after;
    r, after := SeedRoles(srv.stores[dbName]);
    SetStoreKeepsValid(srv.stores, srv.issued, dbName, after);
    srv.stores := srv.stores[dbName := after];
  }

  // ---------------------------------------------------------------------------
  // createClient

  /** The fields createClient reads from its argument. */
  datatype ClientData = ClientData(
    companyName: JsValue, email: JsValue, address: JsValue, phone: JsValue,
    agreementFilePath: JsValue, status: JsValue)

  /** `status = 'active'` in a destructuring: the default applies only to undefined. */
  function WithDefaultStatus(status: JsValue): JsValue {
    if status.Undefined? then Str("active") else status
  }

  /** The registry row createClient inserts for the store `dbName`. */
  function RegistryRow(codec: Codec, data: ClientData, dbName: string): ClientRow
    requires ValidKeys(codec.env)
  {
    ClientRow(
      EncryptedColumn(codec, data.companyName), EncryptedColumn(codec, data.email),
      EncryptedColumn(codec, data.phone), EncryptedColumn(codec, data.address),
      EncryptedColumn(codec, Str(dbName)), Or(data.agreementFilePath, Null), WithDefaultStatus(data.status))
  }

  /** The tenant store a successful createClient leaves behind. */
  function ProvisionedStore(codec: Codec, data: ClientData, salt: string): TenantStore
    requires ValidKeys(codec.env) && Truthy(data.companyName) && Truthy(data.email)
  {
    TenantStore(
      ScriptTables + {Admins}, DefaultRoles,
      [DefaultAdmin(Encrypt(codec, data.companyName).value.value, Encrypt(codec, data.email).value.value, salt)],
      map[], 1)
  }

  /**
   * A provisioned store has all seven tenant tables, exactly the three default
   * roles, no employees, and exactly one admin: role 'admin', the default
   * password hashed at cost 10, and a name and e-mail that decrypt to the
   * company name and e-mail the client registered with.
   */
  lemma ProvisionedStoreShape(codec: Codec, data: ClientData, salt: string)
    requires Sound(codec.cipher) && ValidKeys(codec.env) && Truthy(data.companyName) && Truthy(data.email)
    ensures var s := ProvisionedStore(codec, data, salt);
      && s.Valid()
      && s.tables == {Departments, Roles, Employees, Attendance, Leaves, LeaveBalances, Admins}
      && s.roles == ["superuser", "admin", "employee"] && s.employees == map[]
      && |s.admins| == 1
      && s.admins[0].role == "admin" && s.admins[0].password == Bcrypt("Admin@123", 10, salt)
      && SafeDecrypt(codec, Str(s.admins[0].email)) == Some(Coerce(data.email))
      && SafeDecrypt(codec, Str(s.admins[0].name)) == Some(Coerce(data.companyName))
  {
    ReadBack(codec, data.email);
    ReadBack(codec, data.companyName);
    EncryptTruthy(codec, data.email);
    EncryptTruthy(codec, data.companyName);
  }

  /**
   * The three provisioning steps createClient runs once the registry row is
   * in: createClientDatabase, createDefaultAdmin, insertRoles, each on the
   * store `name`, stopping at the first that throws.
   */
  function Provision(stores: map<string, TenantStore>, name: string, codec: Codec, data: ClientData,
                     serverCreates: bool, salt: string): (Result<(), DbError>, map<string, TenantStore>)
  {
    var created := CreateDatabase(stores, name, serverCreates);
    if created.0.Fail? then created
    else AdminAndRoles(created.1, name, codec, data, salt)
  }

  /** createDefaultAdmin, then insertRoles (unless it threw), on the store `name`. */
  function AdminAndRoles(stores: map<string, TenantStore>, name: string, codec: Codec, data: ClientData, salt: string)
    : (Result<(), DbError>, map<string, TenantStore>)
  {
    if name !in stores then (Fail(UnknownDatabase(name)), stores)
    else
      var admin := AddDefaultAdmin(stores[name], codec, data.email, data.companyName, salt);
      if admin.0.Fail? then (admin.0, stores[name := admin.1])
      else (InsertRolesResult(admin.1), stores[name := WithRolesInserted(admin.1)])
  }

  /**
   * On a new store, with valid keys, provisioning succeeds exactly when the
   * server creates the store and the company name and e-mail are non-empty,
   * and then leaves the store ProvisionedStore describes. Whatever happens,
   * no other store changes.
   */
  lemma ProvisionOutcome(stores: map<string, TenantStore>, name: string, codec: Codec, data: ClientData,
                         serverCreates: bool, salt: string)
    requires ValidKeys(codec.env) && name !in stores
    ensures var (r, after) := Provision(stores, name, codec, data, serverCreates, salt);
      && after - {name} == stores - {name}
      && (r.Ok? <==> serverCreates && Truthy(data.companyName) && Truthy(data.email))
      && (r.Ok? ==> name in after && after[name] == ProvisionedStore(codec, data, salt))
  {
    CreateDatabaseOutcome(stores, name, serverCreates);
    if serverCreates {
      AdminAndRolesOutcome(CreateDatabase(stores, name, serverCreates).1, name, codec, data, salt);
    }
  }

  /**
   * On a store that holds just the script's tables, the default admin and the
   * roles go in exactly when the company name and e-mail are non-empty, and
   * the store is then as ProvisionedStore describes; no other store changes.
   */
  lemma AdminAndRolesOutcome(stores: map<string, TenantStore>, name: string, codec: Codec, data: ClientData, salt: string)
    requires ValidKeys(codec.env) && name in stores && stores[name] == EmptyStore.(tables := ScriptTables)
    ensures var (r, after) := AdminAndRoles(stores, name, codec, data, salt);
      && after - {name} == stores - {name}
      && (r.Ok? <==> Truthy(data.companyName) && Truthy(data.email))
      && (r.Ok? ==> name in after && after[name] == ProvisionedStore(codec, data, salt))
  {
    DefaultAdminOutcome(stores[name], codec, data.email, data.companyName, salt);
    assert DefaultRoles[..3] == DefaultRoles;
  }

  /**
   * The provisioning steps on the store `client_db_<clientId>`, as Provision
   * describes; the stores stay valid whatever step fails.
   */
  method ProvisionStore(srv: Server, codec: Codec, clientId: int, data: ClientData, serverCreates: bool, salt: string)
    returns (r: Result<(), DbError>)
    requires srv.Valid() && clientId in srv.issued
    modifies srv`stores
    ensures srv.Valid()
    ensures (r, srv.stores) == Provision(old(srv.stores), DbName(clientId), codec, data, serverCreates, salt)
  {
    var created := CreateClientDatabase(srv, clientId, serverCreates);
    if created.Fail? {
      return Fail(created.error);
    }
    r := AddAdminAndRoles(srv, codec, DbName(clientId), data, salt);
  }

  /** The last two provisioning steps on the store `dbName`, as AdminAndRoles describes. */
  method AddAdminAndRoles(srv: Server, codec: Codec, dbName: string, data: ClientData, salt: string)
    returns (r: Result<(), DbError>)
    requires srv.Valid() && dbName != ""
    modifies srv`stores
    ensures srv.Valid()
    ensures (r, srv.stores) == AdminAndRoles(old(srv.stores), dbName, codec, data, salt)
  {
    ghost var before := srv.stores;
    var admin := CreateDefaultAdmin(srv, codec, dbName, data.email, data.companyName, salt);
    if admin.Fail? {
      return Fail(admin.error);
    }
    ghost var withAdmin := srv.stores[dbName];
    assert srv.stores == before[dbName := withAdmin];
    ConnectByName(srv.stores, dbName);
    r := InsertRoles(srv, dbName);
    assert srv.stores == before[dbName := WithRolesInserted(withAdmin)];
  }

  /**
   * createClient(clientData): encrypt the four PII fields, allocate the next
   * client id, insert the registry row, then provision `client_db_<id>`
   * (tables, default admin, default roles). Nothing is undone when a later
   * step throws: the id stays consumed and the row stays in the registry.
   * With valid keys the call succeeds exactly when the server creates the
   * store and the company name and e-mail are non-empty.
   */
  method CreateClient(srv: Server, codec: Codec, data: ClientData, serverCreates: bool, salt: string)
    returns (r: Result<(int, string), DbError>)
    requires srv.Valid()
    modifies srv`config, srv`issued, srv`clients, srv`nextClientKey, srv`stores
    ensures srv.Valid()
    // an encryption error comes before anything is written
    ensures !ValidKeys(codec.env) && (Truthy(data.companyName) || Truthy(data.email) || Truthy(data.address) || Truthy(data.phone)) ==>
      r.Fail? && r.error.Crypto? && unchanged(srv)
    // without the config row nothing is written, whichever step fails first
    ensures old(srv.config).None? ==> r.Fail? && unchanged(srv)
    // the id is allocated; without valid keys encrypt(dbName) then throws
    ensures old(srv.config).Some? && (ValidKeys(codec.env) || !(Truthy(data.companyName) || Truthy(data.email) || Truthy(data.address) || Truthy(data.phone))) ==>
      var id := old(srv.config).value + 1;
      && srv.config == Some(id) && srv.issued == old(srv.issued) + {id} && id !in old(srv.issued)
      && (!ValidKeys(codec.env) ==>
            && r.Fail? && r.error.Crypto?
            && srv.clients == old(srv.clients) && srv.nextClientKey == old(srv.nextClientKey)
            && srv.stores == old(srv.stores))
    // with valid keys: the row is in, only the new store changed, and the outcome
    ensures old(srv.config).Some? && ValidKeys(codec.env) ==>
      var id := old(srv.config).value + 1;
      && srv.clients == old(srv.clients)[old(srv.nextClientKey) := RegistryRow(codec, data, DbName(id))]
      && srv.nextClientKey == old(srv.nextClientKey) + 1
      && DbName(id) !in old(srv.stores)
      && srv.stores - {DbName(id)} == old(srv.stores) - {DbName(id)}
      && (r.Ok? <==> serverCreates && Truthy(data.companyName) && Truthy(data.email))
      && (r.Ok? ==>
            && r.value == (id, DbName(id)) && DbName(id) in srv.stores
            && srv.stores[DbName(id)] == ProvisionedStore(codec, data, salt))
  {
    var name := Encrypt(codec, data.companyName);
    if name.Fail? { return Fail(Crypto(name.error)); }
    var email := Encrypt(codec, data.email);
    if email.Fail? { return Fail(Crypto(email.error)); }
    var address := Encrypt(codec, data.address);
    if address.Fail? { return Fail(Crypto(address.error)); }
    var phone := Encrypt(codec, data.phone);
    if phone.Fail? { return Fail(Crypto(phone.error)); }

    var next := GetNextClientId(srv);
    if next.Fail? { return Fail(next.error); }
    var clientId := next.value;
    var dbName := DbName(clientId);
    var encDbName := Encrypt(codec, Str(dbName));
    if encDbName.Fail? { return Fail(Crypto(encDbName.error)); }

    // INSERT INTO clients
    var row := ClientRow(
      OfNullable(name.value), OfNullable(email.value), OfNullable(phone.value), OfNullable(address.value),
      OfNullable(encDbName.value), Or(data.agreementFilePath, Null), WithDefaultStatus(data.status));
    assert row == RegistryRow(codec, data, dbName);
    srv.clients := srv.clients[srv.nextClientKey := row];
    srv.nextClientKey := srv.nextClientKey + 1;

    ProvisionOutcome(srv.stores, dbName, codec, data, serverCreates, salt);
    var provisioned := ProvisionStore(srv, codec, clientId, data, serverCreates, salt);
    if provisioned.Fail? { return Fail(provisioned.error); }
    return Ok((clientId, dbName));
  }

  // ---------------------------------------------------------------------------
  // getAllClients, getClientById

  /** A registry row as the reads return it: PII columns through safeDecrypt, the rest as stored. */
  datatype ClientView = ClientView(
    id: int, companyName: Option<string>, adminEmail: Option<string>, phone: Option<string>,
    address: Option<string>, dbName: Option<string>, agreementFilePath: JsValue, status: JsValue)

  function View(codec: Codec, id: int, row: ClientRow): ClientView {
    ClientView(
      id, SafeDecrypt(codec, row.companyName), SafeDecrypt(codec, row.adminEmail), SafeDecrypt(codec, row.phone),
      SafeDecrypt(codec, row.address), SafeDecrypt(codec, row.dbName), row.agreementFilePath, row.status)
  }

  /** getClientById(clientId): null when no row has the id, otherwise the decrypted row. */
  function GetClientById(codec: Codec, clients: map<int, ClientRow>, clientId: int): (r: Option<ClientView>)
    ensures r.None? <==> clientId !in clients
    ensures r.Some? ==> r.value == View(codec, clientId, clients[clientId]) && r.value.id == clientId
  {
    if clientId in clients then Some(View(codec, clientId, clients[clientId])) else None
  }

  /** getAllClients(): every row, decrypted the same way getClientById decrypts it. */
  function GetAllClients(codec: Codec, clients: map<int, ClientRow>): (r: map<int, ClientView>)
    ensures r.Keys == clients.Keys
    ensures forall k :: k in r ==> GetClientById(codec, clients, k) == Some(r[k])
  {
    map k | k in clients :: View(codec, k, clients[k])
  }

  /**
   * A registered client reads back as registered: the PII fields decrypt to
   * the coerced text of what was given (null for a falsy value), the store
   * name to `client_db_<id>`, the file path is null when none was given and
   * the status defaults to 'active'.
   */
  lemma RegisteredClientReadsBack(codec: Codec, data: ClientData, id: int, key: int)
    requires Sound(codec.cipher) && ValidKeys(codec.env)
    ensures View(codec, key, RegistryRow(codec, data, DbName(id))) == ClientView(
      key, Plain(data.companyName), Plain(data.email), Plain(data.phone), Plain(data.address),
      Some(DbName(id)), Or(data.agreementFilePath, Null), WithDefaultStatus(data.status))
  {
    ReadBack(codec, data.companyName);
    ReadBack(codec, data.email);
    ReadBack(codec, data.phone);
    ReadBack(codec, data.address);
    ReadBack(codec, Str(DbName(id)));
  }

  /** Registration keeps the registry canonical, so the duplicate check stays a plaintext check. */
  lemma RegistryRowCanonical(codec: Codec, clients: map<int, ClientRow>, key: int, data: ClientData, dbName: string)
    requires Sound(codec.cipher) && ValidKeys(codec.env) && CanonicalRegistry(codec, clients)
    ensures CanonicalRegistry(codec, clients[key := RegistryRow(codec, data, dbName)])
  {
    EncryptedIsCanonical(codec, data.companyName);
    EncryptedIsCanonical(codec, data.email);
  }

  // ---------------------------------------------------------------------------
  // updateClient

  /** The columns updateClient may set. */
  datatype ClientColumn = CompanyNameColumn | AdminEmailColumn | AgreementFilePathColumn | StatusColumn

  function SetColumn(row: ClientRow, c: ClientColumn, v: JsValue): ClientRow {
    match c
    case CompanyNameColumn => row.(companyName := v)
    case AdminEmailColumn => row.(adminEmail := v)
    case AgreementFilePathColumn => row.(agreementFilePath := v)
    case StatusColumn => row.(status := v)
  }

  /** `UPDATE ... SET c1 = v1, c2 = v2, ...`: the assignments in order. */
  function ApplySet(row: ClientRow, columns: seq<ClientColumn>, values: seq<JsValue>): ClientRow
    requires |columns| == |values|
    decreases |columns|
  {
    if |columns| == 0 then row
    else SetColumn(ApplySet(row, columns[..|columns| - 1], values[..|values| - 1]), columns[|columns| - 1], values[|values| - 1])
  }

  lemma ApplySetPush(row: ClientRow, columns: seq<ClientColumn>, values: seq<JsValue>, c: ClientColumn, v: JsValue)
    requires |columns| == |values|
    ensures ApplySet(row, columns + [c], values + [v]) == SetColumn(ApplySet(row, columns, values), c, v)
  {
    assert (columns + [c])[..|columns|] == columns;
    assert (values + [v])[..|values|] == values;
  }

  /** A row with the columns that are given replaced; the columns given as None keep their values. */
  function Patch(row: ClientRow, companyName: Option<JsValue>, adminEmail: Option<JsValue>,
                 agreementFilePath: Option<JsValue>, status: Option<JsValue>): ClientRow {
    row.(
      companyName := if companyName.Some? then companyName.value else row.companyName,
      adminEmail := if adminEmail.Some? then adminEmail.value else row.adminEmail,
      agreementFilePath := if agreementFilePath.Some? then agreementFilePath.value else row.agreementFilePath,
      status := if status.Some? then status.value else row.status)
  }

  /** The value updateClient sets for an argument: nothing for undefined, otherwise `f(v)`. */
  function Given(v: JsValue, encoded: JsValue): Option<JsValue> {
    if v.Undefined? then None else Some(encoded)
  }

  /** The value updateClient binds for an encrypted column: nothing for undefined, otherwise the ciphertext. */
  function Encoded(codec: Codec, v: JsValue): Option<JsValue>
    requires v.Undefined? || Encrypt(codec, v).Ok?
  {
    if v.Undefined? then None else Some(EncryptedColumn(codec, v))
  }

  /**
   * What updateClient makes of a row, column by column: each argument that is
   * not undefined replaces its column (the company name and e-mail encrypted,
   * an empty file path as null); phone, address and store name never change.
   */
  function UpdatedRow(codec: Codec, row: ClientRow, companyName: JsValue, adminEmail: JsValue,
                      agreementFilePath: JsValue, status: JsValue): (u: ClientRow)
    requires companyName.Undefined? || Encrypt(codec, companyName).Ok?
    requires adminEmail.Undefined? || Encrypt(codec, adminEmail).Ok?
    ensures u.phone == row.phone && u.address == row.address && u.dbName == row.dbName
  {
    Patch(row, Encoded(codec, companyName), Encoded(codec, adminEmail),
      Given(agreementFilePath, Or(agreementFilePath, Null)), Given(status, status))
  }

  /** `if (arg !== undefined) { fields.push(c); values.push(v); }`, with an undefined argument as None. */
  function Push(list: (seq<ClientColumn>, seq<JsValue>), c: ClientColumn, given: Option<JsValue>)
    : (seq<ClientColumn>, seq<JsValue>)
  {
    if given.None? then list else (list.0 + [c], list.1 + [given.value])
  }

  /** The SET list of the given columns, pushed in updateClient's order. */
  function Pushes(name: Option<JsValue>, email: Option<JsValue>, path: Option<JsValue>, status: Option<JsValue>)
    : (seq<ClientColumn>, seq<JsValue>)
  {
    Push(Push(Push(Push(([], []), CompanyNameColumn, name), AdminEmailColumn, email), AgreementFilePathColumn, path),
         StatusColumn, status)
  }

  /** A push sets its column on top of what the list did before, and nothing when the argument is undefined. */
  lemma PushApplies(row: ClientRow, list: (seq<ClientColumn>, seq<JsValue>), c: ClientColumn, given: Option<JsValue>)
    requires |list.0| == |list.1|
    ensures var pushed := Push(list, c, given);
      && |pushed.0| == |pushed.1|
      && ApplySet(row, pushed.0, pushed.1)
         == if given.None? then ApplySet(row, list.0, list.1) else SetColumn(ApplySet(row, list.0, list.1), c, given.value)
  {
    if given.Some? {
      ApplySetPush(row, list.0, list.1, c, given.value);
    }
  }

  /**
   * The pushed SET list patches every row with exactly the given columns, and
   * it is empty exactly when no column is given.
   */
  lemma PushesPatch(name: Option<JsValue>, email: Option<JsValue>, path: Option<JsValue>, status: Option<JsValue>)
    ensures var list := Pushes(name, email, path, status);
      && |list.0| == |list.1|
      && (|list.0| == 0 <==> name.None? && email.None? && path.None? && status.None?)
      && forall row :: ApplySet(row, list.0, list.1) == Patch(row, name, email, path, status)
  {
    var a := Push(([], []), CompanyNameColumn, name);
    var b := Push(a, AdminEmailColumn, email);
    var c := Push(b, AgreementFilePathColumn, path);
    forall row
      ensures ApplySet(row, Pushes(name, email, path, status).0, Pushes(name, email, path, status).1)
           == Patch(row, name, email, path, status)
    {
      PushApplies(row, ([], []), CompanyNameColumn, name);
      PushApplies(row, a, AdminEmailColumn, email);
      PushApplies(row, b, AgreementFilePathColumn, path);
      PushApplies(row, c, StatusColumn, status);
    }
  }

  /** No argument of updateClient was given. */
  predicate NothingToUpdate(companyName: JsValue, adminEmail: JsValue, agreementFilePath: JsValue, status: JsValue) {
    companyName.Undefined? && adminEmail.Undefined? && agreementFilePath.Undefined? && status.Undefined?
  }

  /**
   * The SET list of updateClient, pushed column by column for each argument
   * that is not undefined; encrypting the company name or e-mail may throw.
   * Applied to any row, the list gives that row updated as UpdatedRow says.
   */
  method BuildClientSet(codec: Codec, companyName: JsValue, adminEmail: JsValue, agreementFilePath: JsValue, status: JsValue)
    returns (r: Result<(seq<ClientColumn>, seq<JsValue>), DbError>)
    ensures r.Ok? <==>
      && (companyName.Undefined? || Encrypt(codec, companyName).Ok?)
      && (adminEmail.Undefined? || Encrypt(codec, adminEmail).Ok?)
    ensures r.Fail? ==> r.error.Crypto?
    ensures r.Ok? ==>
      var (fields, values) := r.value;
      && |fields| == |values|
      && (|fields| == 0 <==> NothingToUpdate(companyName, adminEmail, agreementFilePath, status))
      && forall row :: ApplySet(row, fields, values) == UpdatedRow(codec, row, companyName, adminEmail, agreementFilePath, status)
  {
    var fields: seq<ClientColumn> := [];
    var values: seq<JsValue> := [];
    if !companyName.Undefined? {
      var c := Encrypt(codec, companyName);
      if c.Fail? { return Fail(Crypto(c.error)); }
      fields, values := fields + [CompanyNameColumn], values + [OfNullable(c.value)];
    }
    ghost var name := Encoded(codec, companyName);
    assert (fields, values) == Push(([], []), CompanyNameColumn, name);
    ghost var a := (fields, values);
    if !adminEmail.Undefined? {
      var e := Encrypt(codec, adminEmail);
      if e.Fail? { return Fail(Crypto(e.error)); }
      fields, values := fields + [AdminEmailColumn], values + [OfNullable(e.value)];
    }
    ghost var email := Encoded(codec, adminEmail);
    assert (fields, values) == Push(a, AdminEmailColumn, email);
    ghost var b := (fields, values);
    ghost var path := Given(agreementFilePath, Or(agreementFilePath, Null));
    if !agreementFilePath.Undefined? {
      fields, values := fields + [AgreementFilePathColumn], values + [Or(agreementFilePath, Null)];
    }
    assert (fields, values) == Push(b, AgreementFilePathColumn, path);
    ghost var c := (fields, values);
    ghost var st := Given(status, status);
    if !status.Undefined? {
      fields, values := fields + [StatusColumn], values + [status];
    }
    assert (fields, values) == Push(c, StatusColumn, st);
    PushesPatch(name, email, path, st);
    return Ok((fields, values));
  }

  /**
   * updateClient(clientId, ...): build the SET list; an empty one throws
   * 'No fields provided to update.'. The update runs even when no row has
   * the id, and the call returns true.
   */
  method UpdateClient(srv: Server, codec: Codec, clientId: int, companyName: JsValue, adminEmail: JsValue,
                      agreementFilePath: JsValue, status: JsValue) returns (r: Result<bool, DbError>)
    requires srv.Valid()
    modifies srv`clients
    ensures srv.Valid()
    ensures NothingToUpdate(companyName, adminEmail, agreementFilePath, status) ==> r == Fail(NoFieldsProvided)
    ensures r.Ok? <==>
      && !NothingToUpdate(companyName, adminEmail, agreementFilePath, status)
      && (companyName.Undefined? || Encrypt(codec, companyName).Ok?)
      && (adminEmail.Undefined? || Encrypt(codec, adminEmail).Ok?)
    ensures r.Ok? ==> r.value
    ensures r.Fail? ==> srv.clients == old(srv.clients)
    ensures r.Ok? ==> (srv.clients ==
      if clientId in old(srv.clients)
      then old(srv.clients)[clientId := UpdatedRow(codec, old(srv.clients)[clientId], companyName, adminEmail, agreementFilePath, status)]
      else old(srv.clients))
  {
    var assignments := BuildClientSet(codec, companyName, adminEmail, agreementFilePath, status);
    if assignments.Fail? {
      return Fail(assignments.error);
    }
    var (fields, values) := assignments.value;
    if |fields| == 0 {
      return Fail(NoFieldsProvided);
    }
    // UPDATE clients SET ... WHERE id = ?
    if clientId in srv.clients {
      srv.clients := srv.clients[clientId := ApplySet(srv.clients[clientId], fields, values)];
    }
    return Ok(true);
  }

  // ---------------------------------------------------------------------------
  // deleteClient

  datatype DeleteResult = DeleteResult(success: bool, message: string)

  /**
   * deleteClient(clientId): remove the registry row. Only the row goes; the
   * tenant store stays. No affected row reports 'Client not found.'.
   */
  method DeleteClient(srv: Server, clientId: int) returns (r: DeleteResult)
    requires srv.Valid()
    modifies srv`clients
    ensures srv.Valid()
    ensures srv.clients == old(srv.clients) - {clientId}
    ensures r.success <==> clientId in old(srv.clients)
    ensures r.message == if r.success then "Client deleted successfully." else "Client not found."
  {
    var affected := if clientId in srv.clients then 1 else 0;
    srv.clients := srv.clients - {clientId};
    if affected == 0 {
      return DeleteResult(false, "Client not found.");
    }
    return DeleteResult(true, "Client deleted successfully.");
  }
}

=== FILE: db.dfy ===
/**
 * The state the server works on: the master control store (the `config`
 * counter row and the `clients` registry) and the tenant stores, one per
 * provisioned client, reached by name. A connection to a tenant store is
 * bound to exactly one store name (server_side/utils/dbConnector.js).
 */
module Db {
  import opened Results
  import opened Js
  import opened Schema
  import opened Encryption

  /** The errors the modelled code paths can throw, database errors included. */
  datatype DbError =
    | ConfigNotFound                           // 'Config not found'
    | DatabaseNotCreated(name: string)         // "Database '<name>' was not created."
    | UnknownDatabase(name: string)            // the server refuses a connection to a missing database
    | DbNameRequired                           // 'dbName is required'
    | TableExists(table: Table)                // CREATE TABLE without IF NOT EXISTS on an existing table
    | NoSuchTable(table: Table)
    | DuplicateEntry(table: Table, column: string)
    | ColumnCannotBeNull(table: Table, column: string)
    | UnknownColumn(table: Table, column: string)
    | BindUndefined                            // a prepared statement was given `undefined`
    | Crypto(error: CryptoError)               // encrypt/decrypt threw
    | NoFieldsProvided                         // 'No fields provided to update.'
    | NoValidFields                            // 'No valid fields to update.'
    | EmailRequired                            // 'Email is required to check if employee exists.'
    | FailedToEncryptEmail                     // 'Failed to encrypt email'

  /** A row of a table whose columns the code reaches by name; a column the map lacks holds NULL. */
  type Row = map<string, JsValue>

  /** The value of column `c` of `row`. */
  function Column(row: Row, c: string): JsValue {
    if c in row then row[c] else Null
  }

  /** A bcrypt hash, kept symbolic: the secret, the cost factor and the salt it was made from. */
  datatype PasswordHash = Bcrypt(secret: string, cost: nat, salt: string)

  /** A row of a tenant's `admins` table. */
  datatype AdminRow = AdminRow(name: string, email: string, password: PasswordHash, role: string)

  /** A row of the master `clients` registry; the columns are stored as the code bound them. */
  datatype ClientRow = ClientRow(
    companyName: JsValue, adminEmail: JsValue, phone: JsValue, address: JsValue,
    dbName: JsValue, agreementFilePath: JsValue, status: JsValue)

  /** One tenant store: its tables, its `roles` names, its `admins`, its `employees` keyed by id. */
  datatype TenantStore = TenantStore(
    tables: set<Table>, roles: seq<string>, admins: seq<AdminRow>,
    employees: map<int, Row>, nextEmployeeId: int)
  {
    /** The UNIQUE constraints hold and the auto-increment counter is past every key. */
    ghost predicate Valid() {
      && (forall i, j :: 0 <= i < j < |roles| ==> roles[i] != roles[j])
      && (forall i, j :: 0 <= i < j < |admins| ==> admins[i].email != admins[j].email)
      && (forall id :: id in employees ==> id < nextEmployeeId)
      && (forall a, b :: a in employees && b in employees && a != b && Column(employees[a], "email") != Null
            ==> Column(employees[a], "email") != Column(employees[b], "email"))
    }
  }

  /** A database the server has just created: no tables yet. */
  const EmptyStore := TenantStore({}, [], [], map[], 1)

  /** SQL `a = b` in a WHERE clause: NULL equals nothing, itself included. */
  predicate SqlEquals(a: JsValue, b: JsValue) {
    !a.Null? && !b.Null? && a == b
  }

  /** The store name a client id is given: `client_db_<id>`. */
  function DbName(clientId: int): (name: string)
    ensures |name| > |"client_db_"| && name[..|"client_db_"|] == "client_db_"
  {
    IntToDecimalSign(clientId);
    "client_db_" + IntToDecimal(clientId)
  }

  /** Different client ids never share a store name, so tenants never share a store. */
  lemma DbNameInjective(a: int, b: int)
    requires DbName(a) == DbName(b)
    ensures a == b
  {
    var p := |"client_db_"|;
    assert IntToDecimal(a) == DbName(a)[p..];
    assert IntToDecimal(b) == DbName(b)[p..];
    IntToDecimalInjective(a, b);
  }

  /** A connection handle, bound to one store name. */
  datatype Connection = Connection(database: string)

  /**
   * getClientDBConnection: a falsy name is refused before connecting; the
   * server refuses a name that is not a store; otherwise the connection is
   * bound to exactly the store named by `String(dbName)`.
   */
  function Connect(stores: map<string, TenantStore>, dbName: JsValue): (r: Result<Connection, DbError>)
    ensures !Truthy(dbName) ==> r == Fail(DbNameRequired)
    ensures Truthy(dbName) && ToJsString(dbName) !in stores ==> r == Fail(UnknownDatabase(ToJsString(dbName)))
    ensures r.Ok? <==> Truthy(dbName) && ToJsString(dbName) in stores
    ensures r.Ok? ==> r.value.database == ToJsString(dbName) && r.value.database in stores
  {
    if !Truthy(dbName) then Fail(DbNameRequired)
    else if ToJsString(dbName) !in stores then Fail(UnknownDatabase(ToJsString(dbName)))
    else Ok(Connection(ToJsString(dbName)))
  }

  /**
   * Every tenant-named store belongs to an id that was handed out, and every
   * store keeps its UNIQUE constraints.
   */
  ghost predicate StoresValid(stores: map<string, TenantStore>, issued: set<int>) {
    && (forall i {:trigger DbName(i)} :: DbName(i) in stores ==> i in issued)
    && (forall n :: n in stores ==> stores[n].Valid())
  }

  /**
   * Putting a store that keeps its constraints under an existing name, or
   * under the name of an issued id, keeps the stores valid.
   */
  lemma SetStoreKeepsValid(stores: map<string, TenantStore>, issued: set<int>, name: string, s: TenantStore)
    requires StoresValid(stores, issued) && s.Valid()
    requires name in stores || exists id :: id in issued && DbName(id) == name
    ensures StoresValid(stores[name := s], issued)
  {
    forall i | DbName(i) in stores[name := s] ensures i in issued {
      if DbName(i) == name && name !in stores {
        var id :| id in issued && DbName(id) == name;
        DbNameInjective(i, id);
      }
    }
  }

  /** Connecting by the name of an existing store reaches that store. */
  lemma ConnectByName(stores: map<string, TenantStore>, name: string)
    requires name in stores && name != ""
    ensures Connect(stores, Str(name)) == Ok(Connection(name))
  {
  }

  /**
   * The server: the `config` row's `last_client_id` (absent when the row is
   * missing), the `clients` registry keyed by its auto-increment id, and the
   * stores by name. `issued` records every client id handed out so far.
   */
  class Server {
    var config: Option<int>
    var clients: map<int, ClientRow>
    var nextClientKey: int
    var stores: map<string, TenantStore>
    ghost var issued: set<int>

    /**
     * Every id handed out is at most the counter, every registry key is below
     * the auto-increment counter, every tenant-named store belongs to an id
     * that was handed out, and every store keeps its UNIQUE constraints.
     */
    ghost predicate Valid()
      reads this
    {
      && (forall i :: i in issued ==> config.Some? && i <= config.value)
      && (forall k :: k in clients ==> k < nextClientKey)
      && StoresValid(stores, issued)
    }

    /** A server whose master store holds the config row `lastClientId` and no clients, with the given other stores. */
    constructor (lastClientId: Option<int>, others: map<string, TenantStore>)
      requires forall i {:trigger DbName(i)} :: DbName(i) !in others
      requires forall n :: n in others ==> others[n].Valid()
      ensures Valid()
      ensures config == lastClientId && clients == map[] && stores == others && issued == {}
    {
      config := lastClientId;
      clients := map[];
      nextClientKey := 1;
      stores := others;
      issued := {};
    }
  }
}

=== FILE: db_creator.dfy ===
/**
 * Provisioning of a tenant store (server_side/utils/dbCreator.js): create the
 * store `client_db_<id>`, check that the server lists it, switch to it and run
 * the multi-statement DDL script that creates the tenant tables.
 */
module DbCreator {
  import opened Results
  import opened Js
  import opened Schema
  import opened Db

  /** One `CREATE TABLE` statement of the script. */
  datatype CreateTable = CreateTable(table: Table, ifNotExists: bool)

  /** The script, in order. Only `employees` lacks IF NOT EXISTS. */
  const TenantScript: seq<CreateTable> := [
    CreateTable(Departments, true),
    CreateTable(Roles, true),
    CreateTable(Employees, false),
    CreateTable(Attendance, true),
    CreateTable(Leaves, true),
    CreateTable(LeaveBalances, true)
  ]

  /** No table is created twice by one script. */
  ghost predicate DistinctTables(script: seq<CreateTable>) {
    forall i, j :: 0 <= i < j < |script| ==> script[i].table != script[j].table
  }

  /** The tables a script names. */
  function TablesOf(script: seq<CreateTable>): set<Table> {
    set i | 0 <= i < |script| :: script[i].table
  }

  /** What running a script left: the tables now present, and the statement that failed, if one did. */
  datatype ScriptOutcome = ScriptOutcome(tables: set<Table>, failedAt: Option<Table>)

  /**
   * The server runs the statements one after another and stops at the first
   * that fails; the statements before it stay applied (DDL is not transactional).
   */
  function RunScript(tables: set<Table>, script: seq<CreateTable>): ScriptOutcome
    decreases |script|
  {
    if |script| == 0 then ScriptOutcome(tables, None)
    else if script[0].table in tables && !script[0].ifNotExists then ScriptOutcome(tables, Some(script[0].table))
    else RunScript(tables + {script[0].table}, script[1..])
  }

  /**
   * A script of distinct tables succeeds exactly when every statement without
   * IF NOT EXISTS names a table that is not there yet, and then adds exactly
   * the tables it names; a failing script keeps the tables it had before and
   * reports a statement without IF NOT EXISTS whose table already existed.
   */
  lemma {:induction false} RunScriptOutcome(tables: set<Table>, script: seq<CreateTable>)
    requires DistinctTables(script)
    ensures var r := RunScript(tables, script);
      && (r.failedAt.None? <==> forall i :: 0 <= i < |script| && !script[i].ifNotExists ==> script[i].table !in tables)
      && (r.failedAt.None? ==> r.tables == tables + TablesOf(script))
      && (r.failedAt.Some? ==>
            && tables <= r.tables <= tables + TablesOf(script)
            && r.failedAt.value in tables
            && exists i :: 0 <= i < |script| && !script[i].ifNotExists && script[i].table == r.failedAt.value)
    decreases |script|
  {
    if |script| > 0 {
      var s := script[0];
      var rest := script[1..];
      assert TablesOf(script) == {s.table} + TablesOf(rest) by {
        forall t | t in TablesOf(script) ensures t in {s.table} + TablesOf(rest) {
          var i :| 0 <= i < |script| && script[i].table == t;
          if i > 0 { assert rest[i - 1] == script[i]; }
        }
      }
      if !(s.table in tables && !s.ifNotExists) {
        RunScriptOutcome(tables + {s.table}, rest);
        // the later statements never name s.table, so adding it changes none of their checks
        forall i | 0 <= i < |rest| ensures rest[i].table != s.table {
          assert script[i + 1] == rest[i];
        }
        var r := RunScript(tables + {s.table}, rest);
        if r.failedAt.Some? {
          var i :| 0 <= i < |rest| && !rest[i].ifNotExists && rest[i].table == r.failedAt.value;
          assert script[i + 1] == rest[i];
        }
        if forall i :: 0 <= i < |rest| && !rest[i].ifNotExists ==> rest[i].table !in tables + {s.table} {
          forall i | 0 <= i < |script| && !script[i].ifNotExists ensures script[i].table !in tables {
            if i > 0 { assert script[i] == rest[i - 1]; }
          }
        } else {
          var i :| 0 <= i < |rest| && !rest[i].ifNotExists && rest[i].table in tables + {s.table};
          assert script[i + 1] == rest[i];
        }
      }
    }
  }

  /**
   * On a store without tables the script creates the six tenant tables; on a
   * store that already has `employees` it fails there, after adding
   * `departments` and `roles`, so provisioning the same store twice fails.
   */
  lemma TenantScriptRuns(tables: set<Table>)
    ensures Employees !in tables ==> RunScript(tables, TenantScript) == ScriptOutcome(tables + ScriptTables, None)
    ensures Employees in tables ==>
      RunScript(tables, TenantScript) == ScriptOutcome(tables + {Departments, Roles}, Some(Employees))
  {
    if Employees !in tables {
      TenantScriptTables();
      RunScriptOutcome(tables, TenantScript);
    }
  }

  /** The script names six different tables, exactly the tenant tables. */
  lemma TenantScriptTables()
    ensures DistinctTables(TenantScript) && TablesOf(TenantScript) == ScriptTables
  {
    assert TenantScript[0].table == Departments && TenantScript[1].table == Roles;
    assert TenantScript[2].table == Employees && TenantScript[3].table == Attendance;
    assert TenantScript[4].table == Leaves && TenantScript[5].table == LeaveBalances;
  }

  /**
   * `SHOW DATABASES LIKE name`: the name is used as a LIKE pattern, in which
   * `_` matches any one character (the names used here hold no `%` or `\`).
   */
  predicate LikeMatches(pattern: string, name: string) {
    |pattern| == |name| && forall k :: 0 <= k < |pattern| ==> pattern[k] == '_' || pattern[k] == name[k]
  }

  /** `SHOW DATABASES LIKE name` returns a row. */
  predicate Listed(stores: map<string, TenantStore>, name: string) {
    exists n :: n in stores && LikeMatches(name, n)
  }

  /** The store a statement on `name` sees: the existing one, or a freshly created empty one. */
  function StoreOrEmpty(stores: map<string, TenantStore>, name: string): TenantStore {
    if name in stores then stores[name] else EmptyStore
  }

  /**
   * What createClientDatabase does to the stores for the store `name`, and
   * what it returns. `serverCreates` is whether `CREATE DATABASE IF NOT
   * EXISTS` makes a store the server did not have (the server may refuse).
   * The store must then be listed by `SHOW DATABASES LIKE name` and exist
   * for the switch to it; the DDL script then runs in it.
   */
  function CreateDatabase(stores: map<string, TenantStore>, name: string, serverCreates: bool)
    : (Result<(), DbError>, map<string, TenantStore>)
  {
    var created := if name !in stores && serverCreates then stores[name := EmptyStore] else stores;
    if !Listed(created, name) then (Fail(DatabaseNotCreated(name)), created)
    else if name !in created then (Fail(UnknownDatabase(name)), created)
    else
      var outcome := RunScript(created[name].tables, TenantScript);
      var after := created[name := created[name].(tables := outcome.tables)];
      (if outcome.failedAt.Some? then Fail(TableExists(outcome.failedAt.value)) else Ok(()), after)
  }

  /**
   * Nothing outside the store `name` changes. Without an existing store and
   * without the server creating one, the call fails and changes nothing. A
   * store that already exists is reused: on one without `employees` the
   * script adds the six tenant tables, on one with it the script fails on
   * `employees` with `departments` and `roles` applied.
   */
  lemma CreateDatabaseOutcome(stores: map<string, TenantStore>, name: string, serverCreates: bool)
    ensures var (r, after) := CreateDatabase(stores, name, serverCreates);
      && after - {name} == stores - {name}
      && (name !in stores && !serverCreates ==>
            && r.Fail? && after == stores
            && r.error in {DatabaseNotCreated(name), UnknownDatabase(name)})
      && (name in stores || serverCreates ==>
            var base := StoreOrEmpty(stores, name);
            && name in after
            && (Employees !in base.tables ==> r == Ok(()) && after[name] == base.(tables := base.tables + ScriptTables))
            && (Employees in base.tables ==>
                  && r == Fail(TableExists(Employees))
                  && after[name] == base.(tables := base.tables + {Departments, Roles})))
  {
    var created := if name !in stores && serverCreates then stores[name := EmptyStore] else stores;
    if name in created {
      assert LikeMatches(name, name);
      TenantScriptRuns(created[name].tables);
    }
  }

  /**
   * createClientDatabase(clientId, ...) on the store `client_db_<clientId>`,
   * as CreateDatabase describes; the store it creates or changes keeps the
   * server valid.
   */
  method CreateClientDatabase(srv: Server, clientId: int, serverCreates: bool) returns (r: Result<(), DbError>)
    requires srv.Valid()
    requires clientId in srv.issued
    modifies srv`stores
    ensures srv.Valid()
    ensures (r, srv.stores) == CreateDatabase(old(srv.stores), DbName(clientId), serverCreates)
  {
    var name := DbName(clientId);
    // 1. CREATE DATABASE IF NOT EXISTS
    if name !in srv.stores && serverCreates {
      SetStoreKeepsValid(srv.stores, srv.issued, name, EmptyStore);
      srv.stores := srv.stores[name := EmptyStore];
    }
    // 2. the store must be listed
    if !Listed(srv.stores, name) {
      return Fail(DatabaseNotCreated(name));
    }
    // 3. changeUser fails for a store that does not exist
    if name !in srv.stores {
      return Fail(UnknownDatabase(name));
    }
    // 4. the DDL script
    var store := srv.stores[name];
    var outcome := RunScript(store.tables, TenantScript);
    SetStoreKeepsValid(srv.stores, srv.issued, name, store.(tables := outcome.tables));
    srv.stores := srv.stores[name := store.(tables := outcome.tables)];
    if outcome.failedAt.Some? {
      return Fail(TableExists(outcome.failedAt.value));
    }
    // 5. the second connection, to the store by name, succeeds: the store exists
    return Ok(());
  }
}

=== FILE: default_admin_creator.dfy ===
/**
 * The first administrator of a new tenant store
 * (server_side/utils/defaultAdminCreator.js): ensure the `admins` table, then
 * insert one admin whose name and e-mail are ciphertexts and whose password is
 * a bcrypt hash of the fixed default password.
 */
module DefaultAdminCreator {
  import opened Results
  import opened Js
  import opened Schema
  import opened Encryption
  import opened Db

  const DefaultPassword := "Admin@123"
  const BcryptCost := 10

  /** Some row of `admins` already holds this e-mail (the UNIQUE index would refuse another). */
  predicate EmailTaken(admins: seq<AdminRow>, email: string) {
    exists i :: 0 <= i < |admins| && admins[i].email == email
  }

  /** The admin row createDefaultAdmin inserts, given the two ciphertexts and the bcrypt salt. */
  function DefaultAdmin(encName: string, encEmail: string, salt: string): (a: AdminRow)
    ensures a.password == Bcrypt(DefaultPassword, BcryptCost, salt) && a.role == "admin"
    ensures a.name == encName && a.email == encEmail
  {
    AdminRow(encName, encEmail, Bcrypt(DefaultPassword, BcryptCost, salt), "admin")
  }

  /**
   * What createDefaultAdmin does to one store, and what it returns. The
   * `admins` table is created if missing before the values are encrypted, so
   * it stays even when a later step throws. A falsy company name or e-mail
   * encrypts to null, which the NOT NULL columns refuse; a taken e-mail is
   * refused by the UNIQUE index.
   */
  function AddDefaultAdmin(store: TenantStore, codec: Codec, adminEmail: JsValue, companyName: JsValue, salt: string)
    : (Result<(), DbError>, TenantStore)
  {
    var withTable := store.(tables := store.tables + {Admins});
    var name := Encrypt(codec, companyName);
    var email := Encrypt(codec, adminEmail);
    if name.Fail? then (Fail(Crypto(name.error)), withTable)
    else if email.Fail? then (Fail(Crypto(email.error)), withTable)
    else if name.value.None? then (Fail(ColumnCannotBeNull(Admins, "name")), withTable)
    else if email.value.None? then (Fail(ColumnCannotBeNull(Admins, "email")), withTable)
    else if EmailTaken(store.admins, email.value.value) then (Fail(DuplicateEntry(Admins, "email")), withTable)
    else (Ok(()), withTable.(admins := store.admins + [DefaultAdmin(name.value.value, email.value.value, salt)]))
  }

  /**
   * Only `admins` and the table set change, and the table set gains exactly
   * `admins`. The insert succeeds exactly when both values are non-empty, the
   * keys are valid and the encrypted e-mail is not taken; it then appends the
   * one default admin, and a failure keeps the admins as they were. Without
   * valid keys a value to encrypt throws a crypto error; with valid keys an
   * empty company name or e-mail is refused by its NOT NULL column. The store
   * keeps its UNIQUE constraints.
   */
  lemma DefaultAdminOutcome(store: TenantStore, codec: Codec, adminEmail: JsValue, companyName: JsValue, salt: string)
    ensures var (r, after) := AddDefaultAdmin(store, codec, adminEmail, companyName, salt);
      && after.(admins := store.admins) == store.(tables := store.tables + {Admins})
      && (r.Ok? <==>
            && Truthy(companyName) && Truthy(adminEmail) && ValidKeys(codec.env)
            && !EmailTaken(store.admins, Encrypt(codec, adminEmail).value.value))
      && (r.Ok? ==> after.admins == store.admins + [DefaultAdmin(
            Encrypt(codec, companyName).value.value, Encrypt(codec, adminEmail).value.value, salt)])
      && (r.Fail? ==> after.admins == store.admins)
      && (!ValidKeys(codec.env) && (Truthy(companyName) || Truthy(adminEmail)) ==> r.Fail? && r.error.Crypto?)
      && (ValidKeys(codec.env) && !Truthy(companyName) ==> r == Fail(ColumnCannotBeNull(Admins, "name")))
      && (ValidKeys(codec.env) && Truthy(companyName) && !Truthy(adminEmail) ==> r == Fail(ColumnCannotBeNull(Admins, "email")))
      && (store.Valid() ==> after.Valid())
  {
  }

  /**
   * createDefaultAdmin(dbName, adminEmail, companyName): the connection names
   * the store directly, so an unknown store fails before anything happens;
   * otherwise the store changes as AddDefaultAdmin says, and nothing else.
   */
  method CreateDefaultAdmin(srv: Server, codec: Codec, dbName: string, adminEmail: JsValue, companyName: JsValue, salt: string)
    returns (r: Result<(), DbError>)
    requires srv.Valid()
    modifies srv`stores
    ensures srv.Valid()
    ensures dbName !in old(srv.stores) ==> r == Fail(UnknownDatabase(dbName)) && srv.stores == old(srv.stores)
    ensures dbName in old(srv.stores) ==>
      var (result, after) := AddDefaultAdmin(old(srv.stores)[dbName], codec, adminEmail, companyName, salt);
      r == result && srv.stores == old(srv.stores)[dbName := after]
  {
    if dbName !in srv.stores {
      return Fail(UnknownDatabase(dbName));
    }
    ghost var outcome := AddDefaultAdmin(srv.stores[dbName], codec, adminEmail, companyName, salt);
    DefaultAdminOutcome(srv.stores[dbName], codec, adminEmail, companyName, salt);
    SetStoreKeepsValid(srv.stores, srv.issued, dbName, outcome.1);
    // 1. CREATE TABLE IF NOT EXISTS admins
    var store := srv.stores[dbName];
    store := store.(tables := store.tables + {Admins});
    srv.stores := srv.stores[dbName := store];
    // 2. the encrypted name and e-mail, and the hash
    var name := Encrypt(codec, companyName);
    if name.Fail? {
      return Fail(Crypto(name.error));
    }
    var email := Encrypt(codec, adminEmail);
    if email.Fail? {
      return Fail(Crypto(email.error));
    }
    // 3. INSERT INTO admins
    if name.value.None? {
      return Fail(ColumnCannotBeNull(Admins, "name"));
    }
    if email.value.None? {
      return Fail(ColumnCannotBeNull(Admins, "email"));
    }
    if EmailTaken(store.admins, email.value.value) {
      return Fail(DuplicateEntry(Admins, "email"));
    }
    srv.stores := srv.stores[dbName := store.(admins := store.admins + [DefaultAdmin(name.value.value, email.value.value, salt)])];
    return Ok(());
  }
}

=== FILE: employee_controller.dfy ===
/**
 * The HTTP decisions of the employee handlers
 * (server_side/controllers/employee.controller.js): the display form of a
 * stored row, the upload folders, the normalisation of a parsed multipart
 * form, the defaults of a new employee, the fields an update carries, and
 * the status code each handler answers with.
 */
module EmployeeController {
  import opened Results
  import opened Js
  import opened Schema
  import opened Encryption
  import opened Db
  import opened EmployeeModel

  /** A response: the status code, the `message` field when the body has one, and the record it carries. */
  datatype Reply = Reply(status: int, message: Option<string>, body: Option<Fields>)

  const DbNameMissing := Some("Database name is missing.")
  const FormError := Some("Error parsing form data.")
  const NotFound := Some("Employee not found.")

  // ---------------------------------------------------------------------------
  // decryptEmployeeFields

  /**
   * decryptEmployeeFields(employee): null for a missing row; otherwise the
   * same fields, with email safeDecrypt'ed and phone and address decrypted
   * when truthy and null when not.
   */
  function DecryptEmployeeFields(codec: Codec, employee: Option<Row>): (r: Option<Row>)
    ensures r.None? <==> employee.None?
    ensures r.Some? ==>
      && r.value.Keys == employee.value.Keys + PiiKeys
      && (forall k :: k in employee.value && k !in PiiKeys ==> r.value[k] == employee.value[k])
      && (forall k :: k in PiiKeys ==> r.value[k] == OfNullable(SafeDecrypt(codec, Field(employee.value, k))))
  {
    match employee
    case None => None
    case Some(e) =>
      var phone, address := Field(e, "phone"), Field(e, "address");
      Some(e["email" := OfNullable(SafeDecrypt(codec, Field(e, "email")))]
            ["phone" := if Truthy(phone) then OfNullable(SafeDecrypt(codec, phone)) else Null]
            ["address" := if Truthy(address) then OfNullable(SafeDecrypt(codec, address)) else Null])
  }

  /**
   * Round trip with createEmployee: with valid key material, the display form
   * of the row createEmployee stores gives back the e-mail, phone and address
   * it was given (a falsy phone or address as null) and every other bound
   * column as given.
   */
  lemma StoredEmployeeReadsBack(codec: Codec, id: int, data: Fields)
    requires Sound(codec.cipher) && ValidKeys(codec.env) && Truthy(Field(data, "email"))
    ensures Encrypt(codec, Field(data, "email")).Ok? && Encrypt(codec, Field(data, "email")).value.Some?
    ensures var row := InsertedRow(codec, id, data, Encrypt(codec, Field(data, "email")).value.value);
      var shown := DecryptEmployeeFields(codec, Some(row)).value;
      && shown["email"] == Str(Coerce(Field(data, "email")))
      && shown["phone"] == OfNullable(Plain(Field(data, "phone")))
      && shown["address"] == OfNullable(Plain(Field(data, "address")))
      && shown["id"] == Num(id)
      && (forall c :: c in PlainInsertColumns ==> shown[c] == Field(data, c))
  {
    var email := Field(data, "email");
    EncryptTruthy(codec, email);
    RoundTrip(codec, email);
    ReadBack(codec, Field(data, "phone"));
    ReadBack(codec, Field(data, "address"));
    var row := InsertedRow(codec, id, data, Encrypt(codec, email).value.value);
    BoundRowColumns(id, Str(Encrypt(codec, email).value.value), EncryptedOrNull(codec, Field(data, "phone")),
      EncryptedOrNull(codec, Field(data, "address")), data);
    PlainColumnsApart();
    var shown := DecryptEmployeeFields(codec, Some(row)).value;
    assert Field(row, "email") == EncryptedColumn(codec, email);
    assert shown["email"] == OfNullable(SafeDecrypt(codec, Field(row, "email")));
    assert shown["phone"] == OfNullable(SafeDecrypt(codec, Field(row, "phone")));
    assert shown["address"] == OfNullable(SafeDecrypt(codec, Field(row, "address")));
    forall c | c in PlainInsertColumns ensures shown[c] == Field(data, c) {
      assert c in row && c !in PiiKeys;
    }
  }

  // ---------------------------------------------------------------------------
  // parseForm: upload folders and normalisation

  /** The form fields whose files get a folder of their own. */
  const UploadFields: set<string> := {"profile_picture", "document_Aadhar", "document_PAN", "document_Licence"}

  /** The folder under the upload directory a file of this form field goes to. */
  function UploadFolder(formName: string): (folder: string)
    ensures folder == "others" <==> formName !in UploadFields
    ensures folder in {"profile_pictures", "documents/Aadhar", "documents/PAN", "documents/Licence", "others"}
  {
    if formName == "profile_picture" then "profile_pictures"
    else if formName == "document_Aadhar" then "documents/Aadhar"
    else if formName == "document_PAN" then "documents/PAN"
    else if formName == "document_Licence" then "documents/Licence"
    else "others"
  }

  /** Files of different upload fields never share a folder. */
  lemma UploadFolderInjective(a: string, b: string)
    requires a in UploadFields && UploadFolder(a) == UploadFolder(b)
    ensures a == b
  {
  }

  /** `path` lies in the folder of field `formName` under `uploadDir` and ends with `-<name>`. */
  predicate InFolder(path: string, uploadDir: string, formName: string, name: string) {
    var dir := uploadDir + "/" + UploadFolder(formName) + "/";
    var tail := "-" + name;
    && |path| >= |dir| + |tail|
    && path[..|dir|] == dir
    && path[|path| - |tail|..] == tail
  }

  /**
   * A file name that `path.join` keeps as one last segment: it holds no `/`.
   * Behind the `<now>-` prefix it can be neither `.` nor `..`, so joining and
   * concatenating agree on it. A name with `/..` segments is resolved by
   * `path.join` and can leave the field's folder.
   */
  predicate OneSegment(name: string) {
    '/' !in name
  }

  /**
   * The path a file is saved under (the `fileBegin` handler): none when its
   * original name is missing or blank, the file being left where formidable
   * put it; otherwise `<uploadDir>/<folder>/<now>-<original name>`, `now` being
   * the clock in milliseconds. The path lies in the field's folder when the
   * name is one segment.
   */
  function FileTarget(uploadDir: string, formName: string, originalFilename: Option<string>, now: nat)
    : (target: Option<string>)
    ensures target.None? <==> originalFilename.None? || Trim(originalFilename.value) == ""
    ensures target.Some? ==> target.value != ""
    ensures target.Some? && OneSegment(originalFilename.value) ==>
      InFolder(target.value, uploadDir, formName, originalFilename.value)
  {
    if originalFilename.None? || Trim(originalFilename.value) == "" then None
    else
      var dir := uploadDir + "/" + UploadFolder(formName) + "/";
      var tail := "-" + originalFilename.value;
      var target := dir + NatToDecimal(now) + tail;
      assert target[..|dir|] == dir;
      assert target[|target| - |tail|..] == tail;
      Some(target)
  }

  /** A file as the handlers see it after parsing. */
  datatype UploadedFile = UploadedFile(filepath: JsValue, originalFilename: Option<string>, size: nat)

  /** What formidable hands to the parse callback, with the paths the `file` handler recorded by field name. */
  datatype Form = Form(fields: Entries, files: seq<(string, UploadedFile)>, filePaths: map<string, string>)

  /** A field formidable gives as an array keeps its first value; a single value stays. */
  function FirstValue(v: JsValue): JsValue {
    if v.Arr? then (if |v.elems| > 0 then v.elems[0] else Undefined) else v
  }

  /** The processed fields: each key of the parsed form with its first value. */
  function Normalised(fields: Entries): (m: Fields)
    ensures m.Keys == set i | 0 <= i < |fields| :: fields[i].0
    ensures DistinctKeys(fields) ==> forall i :: 0 <= i < |fields| ==> m[fields[i].0] == FirstValue(fields[i].1)
    decreases |fields|
  {
    if |fields| == 0 then map[]
    else
      var init := fields[..|fields| - 1];
      assert forall i :: 0 <= i < |init| ==> init[i] == fields[i];
      Normalised(init)[fields[|fields| - 1].0 := FirstValue(fields[|fields| - 1].1)]
  }

  /** The loop over the parsed fields: an array-valued field is replaced by its first element, a scalar kept. */
  method NormaliseFields(fields: Entries) returns (processed: Fields)
    ensures processed == Normalised(fields)
    ensures processed.Keys == set i | 0 <= i < |fields| :: fields[i].0
    ensures DistinctKeys(fields) ==> forall i :: 0 <= i < |fields| ==> processed[fields[i].0] == FirstValue(fields[i].1)
  {
    processed := map[];
    for i := 0 to |fields|
      invariant processed == Normalised(fields[..i])
    {
      assert fields[..i + 1][..i] == fields[..i];
      var (key, value) := fields[i];
      if value.Arr? {
        processed := processed[key := if |value.elems| > 0 then value.elems[0] else Undefined];
      } else {
        processed := processed[key := value];
      }
    }
    assert fields[..|fields|] == fields;
  }

  /** `filePaths[key] || null`: the recorded path, or null when none (or an empty one) was recorded. */
  function RecordedPath(filePaths: map<string, string>, key: string): (p: JsValue)
    ensures p.Str? <==> key in filePaths && filePaths[key] != ""
    ensures p.Str? ==> p.s == filePaths[key]
    ensures !p.Str? ==> p.Null?
  {
    if key in filePaths && filePaths[key] != "" then Str(filePaths[key]) else Null
  }

  /** The processed files: each parsed file, its path replaced by the recorded one. */
  function ProcessedFiles(files: seq<(string, UploadedFile)>, filePaths: map<string, string>): (m: map<string, UploadedFile>)
    ensures m.Keys == set i | 0 <= i < |files| :: files[i].0
    ensures forall k :: k in m ==> m[k].filepath.Str? || m[k].filepath.Null?
    decreases |files|
  {
    if |files| == 0 then map[]
    else
      var init := files[..|files| - 1];
      assert forall i :: 0 <= i < |init| ==> init[i] == files[i];
      var (key, file) := files[|files| - 1];
      ProcessedFiles(init, filePaths)[key := file.(filepath := RecordedPath(filePaths, key))]
  }

  /** With distinct field names, each parsed file is kept with the path recorded for its field. */
  lemma {:induction false} ProcessedFileEntry(files: seq<(string, UploadedFile)>, filePaths: map<string, string>, i: int)
    requires DistinctKeys(files) && 0 <= i < |files|
    ensures var m := ProcessedFiles(files, filePaths);
      files[i].0 in m && m[files[i].0] == files[i].1.(filepath := RecordedPath(filePaths, files[i].0))
    decreases |files|
  {
    var init := files[..|files| - 1];
    if i < |files| - 1 {
      assert init[i] == files[i];
      assert DistinctKeys(init) by {
        forall a, b | 0 <= a < b < |init| ensures init[a].0 != init[b].0 {
          assert init[a] == files[a] && init[b] == files[b];
        }
      }
      ProcessedFileEntry(init, filePaths, i);
      assert files[i].0 != files[|files| - 1].0;
    }
  }

  /**
   * One file as formidable announces it: its field, its original name, the
   * path formidable gave it, and the clock when `fileBegin` ran.
   */
  datatype FileEvent = FileEvent(formName: string, originalFilename: Option<string>, defaultPath: string, now: nat)

  /** The path a file ends up with: the `fileBegin` target, or formidable's own path when there is none. */
  function SavedPath(uploadDir: string, e: FileEvent): string {
    match FileTarget(uploadDir, e.formName, e.originalFilename, e.now)
    case Some(target) => target
    case None => e.defaultPath
  }

  /** `filePaths` after the `file` handler has run for each file in turn. */
  function RecordPaths(uploadDir: string, events: seq<FileEvent>): map<string, string>
    decreases |events|
  {
    if |events| == 0 then map[]
    else
      var e := events[|events| - 1];
      RecordPaths(uploadDir, events[..|events| - 1])[e.formName := SavedPath(uploadDir, e)]
  }

  /**
   * A field keeps the path `fileBegin` chose for the last file sent under it;
   * when that file has a name that is not blank and is one segment, the path
   * lies in the field's folder.
   */
  lemma {:induction false} RecordedPathInFolder(uploadDir: string, events: seq<FileEvent>, k: int)
    requires 0 <= k < |events|
    requires forall j :: k < j < |events| ==> events[j].formName != events[k].formName
    ensures var e := events[k];
      && e.formName in RecordPaths(uploadDir, events)
      && RecordPaths(uploadDir, events)[e.formName] == SavedPath(uploadDir, e)
      && (e.originalFilename.Some? && Trim(e.originalFilename.value) != "" && OneSegment(e.originalFilename.value) ==>
            InFolder(RecordPaths(uploadDir, events)[e.formName], uploadDir, e.formName, e.originalFilename.value))
    decreases |events|
  {
    if k < |events| - 1 {
      var init := events[..|events| - 1];
      assert init[k] == events[k];
      RecordedPathInFolder(uploadDir, init, k);
    }
  }

  /**
   * With the paths the handlers recorded, a parsed file whose name is not blank
   * and which was the last one sent under its field keeps a string path, inside
   * its field's folder when the name is one segment.
   */
  lemma StoredFileInFolder(uploadDir: string, files: seq<(string, UploadedFile)>, events: seq<FileEvent>, i: int, k: int)
    requires DistinctKeys(files) && 0 <= i < |files|
    requires 0 <= k < |events| && events[k].formName == files[i].0
    requires forall j :: k < j < |events| ==> events[j].formName != files[i].0
    requires events[k].originalFilename.Some? && Trim(events[k].originalFilename.value) != ""
    ensures var m := ProcessedFiles(files, RecordPaths(uploadDir, events));
      && files[i].0 in m && m[files[i].0].filepath.Str?
      && (OneSegment(events[k].originalFilename.value) ==>
            InFolder(m[files[i].0].filepath.s, uploadDir, files[i].0, events[k].originalFilename.value))
  {
    var filePaths := RecordPaths(uploadDir, events);
    RecordedPathInFolder(uploadDir, events, k);
    ProcessedFileEntry(files, filePaths, i);
    var e := events[k];
    assert filePaths[files[i].0] != "" by {
      assert FileTarget(uploadDir, e.formName, e.originalFilename, e.now).Some?;
    }
  }

  /** The loop over the parsed files: every file keeps its data and takes the path recorded for its field. */
  method ProcessFiles(files: seq<(string, UploadedFile)>, filePaths: map<string, string>)
    returns (processed: map<string, UploadedFile>)
    ensures processed == ProcessedFiles(files, filePaths)
  {
    processed := map[];
    for i := 0 to |files|
      invariant processed == ProcessedFiles(files[..i], filePaths)
    {
      assert files[..i + 1][..i] == files[..i];
      var (key, file) := files[i];
      processed := processed[key := file.(filepath := if key in filePaths && filePaths[key] != "" then Str(filePaths[key]) else Null)];
    }
    assert files[..|files|] == files;
  }

  // ---------------------------------------------------------------------------
  // createEmployee

  /** `files.x ? files.x.filepath : null` */
  function FilePath(files: map<string, UploadedFile>, formName: string): JsValue {
    if formName in files then files[formName].filepath else Null
  }

  /** The data createEmployee hands to the store: the form fields with their defaults, and the uploaded paths. */
  function EmployeeData(fields: Fields, files: map<string, UploadedFile>): Fields {
    map[
      "first_name" := Or(Field(fields, "first_name"), Str("")),
      "last_name" := Or(Field(fields, "last_name"), Str("")),
      "email" := Field(fields, "email"),
      "phone" := Or(Field(fields, "phone"), Null),
      "address" := Or(Field(fields, "address"), Null),
      "department_id" := Or(Field(fields, "department_id"), Null),
      "role_id" := Or(Field(fields, "role_id"), Null),
      "hire_date" := Or(Field(fields, "hire_date"), Null),
      "status" := Or(Field(fields, "status"), Str("active")),
      "profile_picture" := FilePath(files, "profile_picture"),
      "document_aadhar" := FilePath(files, "document_Aadhar"),
      "document_pan" := FilePath(files, "document_PAN"),
      "document_licence" := FilePath(files, "document_Licence")]
  }

  /** Each form column of the data holds its form field or its default. */
  lemma EmployeeDataFields(fields: Fields, files: map<string, UploadedFile>)
    ensures var data := EmployeeData(fields, files);
      && Field(data, "email") == Field(fields, "email")
      && Field(data, "first_name") == Or(Field(fields, "first_name"), Str(""))
      && Field(data, "last_name") == Or(Field(fields, "last_name"), Str(""))
      && Field(data, "status") == Or(Field(fields, "status"), Str("active"))
      && Field(data, "department_id") == Or(Field(fields, "department_id"), Null)
      && Field(data, "role_id") == Or(Field(fields, "role_id"), Null)
      && Field(data, "hire_date") == Or(Field(fields, "hire_date"), Null)
  {
  }

  /** Each file column of the data holds the path of the file uploaded under its form field, or null. */
  lemma EmployeeDataFiles(fields: Fields, files: map<string, UploadedFile>)
    ensures var data := EmployeeData(fields, files);
      && Field(data, "profile_picture") == FilePath(files, "profile_picture")
      && Field(data, "document_aadhar") == FilePath(files, "document_Aadhar")
      && Field(data, "document_pan") == FilePath(files, "document_PAN")
      && Field(data, "document_licence") == FilePath(files, "document_Licence")
  {
  }

  /**
   * The defaults make every bound column defined and the two NOT NULL names
   * non-null: a missing name becomes '', a missing status 'active', every
   * other missing field or file null. So once the e-mail is checked, the
   * INSERT can fail only on a missing table or a duplicate e-mail.
   */
  lemma EmployeeDataInsertable(fields: Fields, files: map<string, UploadedFile>, store: TenantStore, encryptedEmail: string)
    requires forall k :: k in files ==> !files[k].filepath.Undefined?
    ensures var data := EmployeeData(fields, files);
      && Field(data, "email") == Field(fields, "email")
      && Field(data, "status") == (if Truthy(Field(fields, "status")) then Field(fields, "status") else Str("active"))
      && (InsertCheck(store, data, encryptedEmail).None? <==>
            Employees in store.tables && !EmailStored(store.employees, Str(encryptedEmail)))
  {
    EmployeeDataBound(fields, files);
    EmployeeDataFields(fields, files);
  }

  /** Every plainly bound column of the data is defined: a field, its default, or a path or null. */
  lemma EmployeeDataBound(fields: Fields, files: map<string, UploadedFile>)
    requires forall k :: k in files ==> !files[k].filepath.Undefined?
    ensures AllBound(EmployeeData(fields, files))
  {
    EmployeeDataFields(fields, files);
    EmployeeDataFiles(fields, files);
    var data := EmployeeData(fields, files);
    forall c | c in PlainInsertColumns ensures !Field(data, c).Undefined? {
      assert c in {"first_name", "last_name", "profile_picture", "status", "department_id", "role_id",
        "hire_date", "document_aadhar", "document_pan", "document_licence"};
    }
  }

  /**
   * createEmployee: 400 'Database name is missing.', 400 on a form that does
   * not parse, 400 'Email is required.', 400 when the e-mail is already
   * stored, 500 when that check throws; otherwise the employee is inserted
   * and the answer is 201 with `{ id, ...data }`. Nothing is written unless
   * the answer is 201.
   */
  method CreateEmployee(srv: Server, codec: Codec, dbName: JsValue, form: Option<Form>) returns (reply: Reply)
    requires srv.Valid()
    modifies srv`stores
    ensures srv.Valid()
    ensures reply.status in {201, 400, 500}
    ensures reply.status != 201 ==> srv.stores == old(srv.stores)
    ensures !Truthy(dbName) ==> reply == Reply(400, DbNameMissing, None)
    ensures Truthy(dbName) && form.None? ==> reply == Reply(400, FormError, None)
    ensures Truthy(dbName) && form.Some? ==>
      var fields := Normalised(form.value.fields);
      var email := Field(fields, "email");
      var found := EmployeeExists(old(srv.stores), codec, dbName, email);
      && (!Truthy(email) ==> reply == Reply(400, Some("Email is required."), None))
      && (Truthy(email) && found.Fail? ==> reply == Reply(500, Some("Database error when checking email."), None))
      && (Truthy(email) && found == Ok(true) ==>
            reply == Reply(400, Some("Employee with this email already exists."), None))
      && (Truthy(email) && found == Ok(false) ==>
            var data := EmployeeData(fields, ProcessedFiles(form.value.files, form.value.filePaths));
            var name := ToJsString(dbName);
            var before := old(srv.stores)[name];
            && reply == Reply(201, Some("Employee created successfully."), Some(WithId(before.nextEmployeeId, data)))
            && srv.stores == old(srv.stores)[name := Inserted(before,
                 InsertedRow(codec, before.nextEmployeeId, data, Encrypt(codec, email).value.value))])
  {
    if !Truthy(dbName) {
      return Reply(400, DbNameMissing, None);
    }
    if form.None? {
      return Reply(400, FormError, None);
    }
    var fields := NormaliseFields(form.value.fields);
    var files := ProcessFiles(form.value.files, form.value.filePaths);
    var email := Field(fields, "email");
    if !Truthy(email) {
      return Reply(400, Some("Email is required."), None);
    }
    var found := EmployeeExists(srv.stores, codec, dbName, email);
    if found.Fail? {
      return Reply(500, Some("Database error when checking email."), None);
    }
    if found.value {
      return Reply(400, Some("Employee with this email already exists."), None);
    }
    reply := InsertNewEmployee(srv, codec, dbName, fields, files);
  }

  /**
   * The last step of createEmployee, once the e-mail is known to be new: the
   * defaults make the INSERT succeed, so the answer is 201 with
   * `{ id, ...data }` and the store gains exactly the inserted row.
   */
  method InsertNewEmployee(srv: Server, codec: Codec, dbName: JsValue, fields: Fields, files: map<string, UploadedFile>)
    returns (reply: Reply)
    requires srv.Valid()
    requires forall k :: k in files ==> !files[k].filepath.Undefined?
    requires Truthy(Field(fields, "email"))
    requires EmployeeExists(srv.stores, codec, dbName, Field(fields, "email")) == Ok(false)
    modifies srv`stores
    ensures srv.Valid()
    ensures
      var data := EmployeeData(fields, files);
      var name := ToJsString(dbName);
      var before := old(srv.stores)[name];
      && reply == Reply(201, Some("Employee created successfully."), Some(WithId(before.nextEmployeeId, data)))
      && srv.stores == old(srv.stores)[name := Inserted(before,
           InsertedRow(codec, before.nextEmployeeId, data, Encrypt(codec, Field(fields, "email")).value.value))]
  {
    var email := Field(fields, "email");
    var data := EmployeeData(fields, files);
    EmployeeDataInsertable(fields, files, srv.stores[ToJsString(dbName)], SafeEncrypt(codec, email).value);
    var created := EmployeeModel.CreateEmployee(srv, codec, dbName, data);
    reply := if created.Ok? then Reply(201, Some("Employee created successfully."), Some(created.value))
             else Reply(500, Some("Database error when creating employee."), None);
  }

  // ---------------------------------------------------------------------------
  // getEmployeeById

  /** getEmployeeById: 400 without a store name, 404 when no row has the id, 200 with the display form, 500 when the lookup throws. */
  method GetEmployeeById(stores: map<string, TenantStore>, codec: Codec, dbName: JsValue, employeeId: int)
    returns (reply: Reply)
    ensures !Truthy(dbName) ==> reply == Reply(400, DbNameMissing, None)
    ensures Truthy(dbName) ==>
      var found := EmployeeModel.GetEmployeeById(stores, dbName, employeeId);
      && (found.Fail? ==> reply == Reply(500, Some("Internal server error."), None))
      && (found == Ok(None) ==> reply == Reply(404, NotFound, None))
      && (found.Ok? && found.value.Some? ==> reply == Reply(200, None, DecryptEmployeeFields(codec, found.value)))
    ensures reply.status == 200 <==> Truthy(dbName) && EmployeeExistsById(stores, dbName, employeeId) == Ok(true)
  {
    if !Truthy(dbName) {
      return Reply(400, DbNameMissing, None);
    }
    var found := EmployeeModel.GetEmployeeById(stores, dbName, employeeId);
    if found.Fail? {
      return Reply(500, Some("Internal server error."), None);
    }
    if found.value.None? {
      return Reply(404, NotFound, None);
    }
    return Reply(200, None, DecryptEmployeeFields(codec, found.value));
  }

  // ---------------------------------------------------------------------------
  // updateEmployee

  /** Where updateEmployee takes a column's new value from: a form field, or the path of an uploaded file. */
  datatype Source = FormField(name: string) | UploadedPath(name: string)

  /** The columns updateEmployee may set, in the order it sets them, with their sources. */
  const UpdateSources: seq<(string, Source)> := [
    ("first_name", FormField("first_name")), ("last_name", FormField("last_name")),
    ("email", FormField("email")), ("phone", FormField("phone")), ("address", FormField("address")),
    ("department_id", FormField("department_id")), ("role_id", FormField("role_id")),
    ("hire_date", FormField("hire_date")), ("status", FormField("status")),
    ("profile_picture", UploadedPath("profile_picture")), ("document_aadhar", UploadedPath("document_Aadhar")),
    ("document_pan", UploadedPath("document_PAN")), ("document_licence", UploadedPath("document_Licence"))]

  /** The value a source provides: a form field that is not undefined, or the path of a file that is present with a truthy path. */
  function Provided(fields: Fields, files: map<string, UploadedFile>, s: Source): Option<JsValue> {
    match s
    case FormField(n) => if Field(fields, n).Undefined? then None else Some(Field(fields, n))
    case UploadedPath(n) => if n in files && Truthy(files[n].filepath) then Some(files[n].filepath) else None
  }

  /** The entries the sources provide, in the sources' order. */
  function Collect(fields: Fields, files: map<string, UploadedFile>, sources: seq<(string, Source)>): Entries
    decreases |sources|
  {
    if |sources| == 0 then []
    else
      var rest := Collect(fields, files, sources[1..]);
      match Provided(fields, files, sources[0].1)
      case None => rest
      case Some(v) => [(sources[0].0, v)] + rest
  }

  /** `updatedData`: only the fields and files that were provided, in the order the handler adds them. */
  function UpdatedData(fields: Fields, files: map<string, UploadedFile>): Entries {
    Collect(fields, files, UpdateSources)
  }

  /** Every collected entry comes from a source that provided its value, and every providing source has its entry. */
  lemma {:induction false} CollectSpec(fields: Fields, files: map<string, UploadedFile>, sources: seq<(string, Source)>)
    ensures var c := Collect(fields, files, sources);
      && (forall i :: 0 <= i < |c| ==>
            exists j :: 0 <= j < |sources| && c[i].0 == sources[j].0 && Provided(fields, files, sources[j].1) == Some(c[i].1))
      && (forall j :: 0 <= j < |sources| && Provided(fields, files, sources[j].1).Some? ==>
            (sources[j].0, Provided(fields, files, sources[j].1).value) in c)
      && (DistinctKeys(sources) ==> DistinctKeys(c))
    decreases |sources|
  {
    if |sources| > 0 {
      var tail := sources[1..];
      CollectSpec(fields, files, tail);
      var rest := Collect(fields, files, tail);
      var c := Collect(fields, files, sources);
      forall j | 1 <= j < |sources| ensures sources[j] == tail[j - 1] {}
      forall i | 0 <= i < |rest|
        ensures exists j :: 1 <= j < |sources| && rest[i].0 == sources[j].0 && Provided(fields, files, sources[j].1) == Some(rest[i].1)
      {
        var j :| 0 <= j < |tail| && rest[i].0 == tail[j].0 && Provided(fields, files, tail[j].1) == Some(rest[i].1);
        assert sources[j + 1] == tail[j];
      }
      if DistinctKeys(sources) {
        assert DistinctKeys(tail);
        forall i | 0 <= i < |rest| ensures rest[i].0 != sources[0].0 {
          var j :| 1 <= j < |sources| && rest[i].0 == sources[j].0 && Provided(fields, files, sources[j].1) == Some(rest[i].1);
        }
      }
    }
  }

  /**
   * The entries keep the order of their sources: collecting a list of sources
   * is collecting its first `k` and then the rest, one after the other.
   */
  lemma {:induction false} CollectInOrder(fields: Fields, files: map<string, UploadedFile>, sources: seq<(string, Source)>, k: int)
    requires 0 <= k <= |sources|
    ensures Collect(fields, files, sources) == Collect(fields, files, sources[..k]) + Collect(fields, files, sources[k..])
    decreases k
  {
    if k == 0 {
      assert sources[..0] == [] && sources[0..] == sources;
    } else {
      CollectInOrder(fields, files, sources[1..], k - 1);
      assert sources[1..][..k - 1] == sources[..k][1..];
      assert sources[1..][k - 1..] == sources[k..];
    }
  }

  /** No column is listed twice among the update sources. */
  lemma UpdateSourcesDistinct()
    ensures DistinctKeys(UpdateSources)
  {
    var s := UpdateSources;
    forall i, j | 0 <= i < j < |s| ensures s[i].0 != s[j].0 {
      // no two of the names agree in both length and first letter
      assert |s[i].0| != |s[j].0| || s[i].0[0] != s[j].0[0];
    }
  }

  /** Every update source names a column of `employees` other than `id`. */
  lemma UpdateSourcesColumns()
    ensures forall j :: 0 <= j < |UpdateSources| ==> UpdateSources[j].0 in EmployeeColumns && UpdateSources[j].0 != "id"
  {
    var s := UpdateSources;
    forall j | 0 <= j < |s| ensures s[j].0 in EmployeeColumns && s[j].0 != "id" {
    }
  }

  /**
   * The entries collected from sources that each name a column of
   * `employees` other than `id`, each once, name each column once, never
   * `id`, and never with an undefined value; they are empty exactly when no
   * source provided a value.
   */
  lemma CollectShape(fields: Fields, files: map<string, UploadedFile>, sources: seq<(string, Source)>)
    requires DistinctKeys(sources)
    requires forall j :: 0 <= j < |sources| ==> sources[j].0 in EmployeeColumns && sources[j].0 != "id"
    ensures var d := Collect(fields, files, sources);
      && DistinctKeys(d)
      && (forall i :: 0 <= i < |d| ==> d[i].0 in EmployeeColumns && d[i].0 != "id" && !d[i].1.Undefined?)
      && (|d| == 0 <==> forall j :: 0 <= j < |sources| ==> Provided(fields, files, sources[j].1).None?)
  {
    var d := Collect(fields, files, sources);
    CollectSpec(fields, files, sources);
    forall i | 0 <= i < |d| ensures d[i].0 in EmployeeColumns && d[i].0 != "id" && !d[i].1.Undefined? {
      var j :| 0 <= j < |sources| && d[i].0 == sources[j].0 && Provided(fields, files, sources[j].1) == Some(d[i].1);
    }
    if exists j :: 0 <= j < |sources| && Provided(fields, files, sources[j].1).Some? {
      var j :| 0 <= j < |sources| && Provided(fields, files, sources[j].1).Some?;
      assert (sources[j].0, Provided(fields, files, sources[j].1).value) in d;
    }
  }

  /**
   * The update data names each column once, only columns of `employees`,
   * never `id`, and never with an undefined value; it is empty exactly when
   * no field and no file was provided. A form field is carried exactly when it
   * is not undefined, a file path exactly when the file is present with a
   * truthy path.
   */
  lemma UpdatedDataShape(fields: Fields, files: map<string, UploadedFile>)
    ensures var d := UpdatedData(fields, files);
      && DistinctKeys(d)
      && (forall i :: 0 <= i < |d| ==> d[i].0 in EmployeeColumns && d[i].0 != "id" && !d[i].1.Undefined?)
      && (|d| == 0 <==> forall j :: 0 <= j < |UpdateSources| ==> Provided(fields, files, UpdateSources[j].1).None?)
      && (forall j :: 0 <= j < |UpdateSources| && Provided(fields, files, UpdateSources[j].1).Some? ==>
            (UpdateSources[j].0, Provided(fields, files, UpdateSources[j].1).value) in d)
  {
    UpdateSourcesDistinct();
    UpdateSourcesColumns();
    CollectSpec(fields, files, UpdateSources);
    CollectShape(fields, files, UpdateSources);
  }

  /**
   * updateEmployee: 400 without a store name or on a form that does not
   * parse, 404 'Employee not found.' when no row has the id, 500 when that
   * check throws; then the provided fields are written and the answer is 200
   * with `{ id, ...updatedData }`, or 500 when the update throws (no field
   * provided, a NULL name, an e-mail another row holds). Nothing is written
   * unless the answer is 200.
   */
  method UpdateEmployee(srv: Server, codec: Codec, dbName: JsValue, employeeId: int, form: Option<Form>)
    returns (reply: Reply)
    requires srv.Valid()
    modifies srv`stores
    ensures srv.Valid()
    ensures reply.status in {200, 400, 404, 500}
    ensures reply.status != 200 ==> srv.stores == old(srv.stores)
    ensures !Truthy(dbName) ==> reply == Reply(400, DbNameMissing, None)
    ensures Truthy(dbName) && form.None? ==> reply == Reply(400, FormError, None)
    ensures Truthy(dbName) && form.Some? ==>
      var found := EmployeeExistsById(old(srv.stores), dbName, employeeId);
      && (found.Fail? ==> reply == Reply(500, Some("Database error when checking employee."), None))
      && (found == Ok(false) ==> reply == Reply(404, NotFound, None))
      && (found == Ok(true) ==>
            var data := UpdatedData(Normalised(form.value.fields), ProcessedFiles(form.value.files, form.value.filePaths));
            var a := Assignments(codec, data);
            var name := ToJsString(dbName);
            var before := old(srv.stores)[name];
            && (reply.status == 200 <==> |data| > 0 && UpdateCheck(before, employeeId, a).None?)
            && (reply.status == 200 ==>
                  && reply == Reply(200, Some("Employee updated successfully."), Some(WithId(employeeId, ToFields(data))))
                  && srv.stores == old(srv.stores)[name := Updated(before, employeeId, a)])
            && (reply.status != 200 ==> reply == Reply(500, Some("Database error when updating employee."), None)))
  {
    if !Truthy(dbName) {
      return Reply(400, DbNameMissing, None);
    }
    if form.None? {
      return Reply(400, FormError, None);
    }
    var fields := NormaliseFields(form.value.fields);
    var files := ProcessFiles(form.value.files, form.value.filePaths);
    var found := EmployeeExistsById(srv.stores, dbName, employeeId);
    if found.Fail? {
      return Reply(500, Some("Database error when checking employee."), None);
    }
    if !found.value {
      return Reply(404, NotFound, None);
    }
    var data := UpdatedData(fields, files);
    UpdatedDataShape(fields, files);
    AssignmentsEmptyIff(codec, data);
    var updated := EmployeeModel.UpdateEmployee(srv, codec, dbName, employeeId, data);
    if updated.Fail? {
      return Reply(500, Some("Database error when updating employee."), None);
    }
    return Reply(200, Some("Employee updated successfully."), Some(updated.value));
  }

  // ---------------------------------------------------------------------------
  // deleteEmployee

  /** deleteEmployee: 400 without a store name, 404 exactly when no row was deleted, 200 otherwise, 500 when the delete throws. */
  method DeleteEmployee(srv: Server, dbName: JsValue, employeeId: int) returns (reply: Reply)
    requires srv.Valid()
    modifies srv`stores
    ensures srv.Valid()
    ensures !Truthy(dbName) ==> reply == Reply(400, DbNameMissing, None) && srv.stores == old(srv.stores)
    ensures Truthy(dbName) ==>
      var found := EmployeeExistsById(old(srv.stores), dbName, employeeId);
      && (found.Fail? ==> reply == Reply(500, Some("Internal server error."), None) && srv.stores == old(srv.stores))
      && (found == Ok(false) ==> reply == Reply(404, NotFound, None))
      && (found == Ok(true) ==> reply == Reply(200, Some("Employee deleted successfully."), None))
      && (found.Ok? ==> var name := ToJsString(dbName);
            srv.stores == old(srv.stores)[name := old(srv.stores)[name].(employees := old(srv.stores)[name].employees - {employeeId})])
  {
    if !Truthy(dbName) {
      return Reply(400, DbNameMissing, None);
    }
    var result := EmployeeModel.DeleteEmployee(srv, dbName, employeeId);
    if result.Fail? {
      return Reply(500, Some("Internal server error."), None);
    }
    if result.value == 0 {
      return Reply(404, NotFound, None);
    }
    return Reply(200, Some("Employee deleted successfully."), None);
  }
}

=== FILE: employee_model.dfy ===
/**
 * The `employees` table of one tenant store (server_side/models/employee.model.js):
 * the duplicate-e-mail check, insertion with the PII columns (email, phone,
 * address) encrypted, the partial update built from the defined keys only,
 * lookup and deletion. Every operation first connects to the store named by
 * `dbName`, so it reads and writes that store and no other.
 */
module EmployeeModel {
  import opened Results
  import opened Js
  import opened Schema
  import opened Encryption
  import opened Db

  /** A JavaScript object read by key: a key it lacks reads as undefined. */
  type Fields = map<string, JsValue>

  function Field(data: Fields, key: string): JsValue {
    if key in data then data[key] else Undefined
  }

  /** The object `{ id, ...data }`: every key of data, and `id` unless data has its own. */
  function WithId(id: int, data: Fields): (r: Fields)
    ensures r.Keys == data.Keys + {"id"}
    ensures forall k :: k in data ==> r[k] == data[k]
    ensures "id" !in data ==> r["id"] == Num(id)
  {
    map["id" := Num(id)] + data
  }

  /** The store a successful connection reaches. */
  function StoreOf(stores: map<string, TenantStore>, dbName: JsValue): TenantStore
    requires Connect(stores, dbName).Ok?
  {
    stores[ToJsString(dbName)]
  }

  /** `SELECT id FROM employees WHERE email = ?` finds a row. */
  predicate EmailStored(employees: map<int, Row>, v: JsValue) {
    exists id :: id in employees && SqlEquals(Column(employees[id], "email"), v)
  }

  /** The e-mail column of every row holds a value `encrypt` could have written. */
  ghost predicate CanonicalEmails(codec: Codec, employees: map<int, Row>) {
    forall id :: id in employees ==> Canonical(codec, Column(employees[id], "email"))
  }

  // ---------------------------------------------------------------------------
  // employeeExists, employeeExistsById, getEmployeeById

  /**
   * employeeExists(dbName, email): a falsy e-mail is refused before
   * connecting; an e-mail that cannot be encrypted is refused after; otherwise
   * the answer is whether some row stores exactly its ciphertext.
   */
  function EmployeeExists(stores: map<string, TenantStore>, codec: Codec, dbName: JsValue, email: JsValue)
    : (r: Result<bool, DbError>)
    ensures !Truthy(email) ==> r == Fail(EmailRequired)
    ensures Truthy(email) && Connect(stores, dbName).Fail? ==> r == Fail(Connect(stores, dbName).error)
    ensures r == Fail(FailedToEncryptEmail) <==>
      Truthy(email) && Connect(stores, dbName).Ok? && !ValidKeys(codec.env)
    ensures r.Ok? <==>
      Truthy(email) && Connect(stores, dbName).Ok? && ValidKeys(codec.env)
      && Employees in StoreOf(stores, dbName).tables
    ensures r.Ok? ==> (r.value <==> EmailStored(StoreOf(stores, dbName).employees, EncryptedColumn(codec, email)))
  {
    if !Truthy(email) then Fail(EmailRequired)
    else
      match Connect(stores, dbName)
      case Fail(e) => Fail(e)
      case Ok(db) =>
        match SafeEncrypt(codec, email)
        case None => Fail(FailedToEncryptEmail)
        case Some(encrypted) =>
          var store := stores[db.database];
          if Employees !in store.tables then Fail(NoSuchTable(Employees))
          else Ok(EmailStored(store.employees, Str(encrypted)))
  }

  /**
   * On a store whose e-mails are canonical, the duplicate check is a check on
   * plaintexts: it finds a row exactly when some stored e-mail decrypts to
   * the given one.
   */
  lemma EmployeeExistsByPlaintext(stores: map<string, TenantStore>, codec: Codec, dbName: JsValue, email: JsValue)
    requires Sound(codec.cipher) && ValidKeys(codec.env) && Truthy(email)
    requires Connect(stores, dbName).Ok? && Employees in StoreOf(stores, dbName).tables
    requires CanonicalEmails(codec, StoreOf(stores, dbName).employees)
    ensures EmployeeExists(stores, codec, dbName, email).Ok?
    ensures EmployeeExists(stores, codec, dbName, email).value <==>
      exists id :: id in StoreOf(stores, dbName).employees && Holds(codec, Column(StoreOf(stores, dbName).employees[id], "email"), email)
  {
    var employees := StoreOf(stores, dbName).employees;
    var mail := EncryptedColumn(codec, email);
    EncryptTruthy(codec, email);
    forall id | id in employees
      ensures SqlEquals(Column(employees[id], "email"), mail) <==> Holds(codec, Column(employees[id], "email"), email)
    {
      CanonicalMatchIff(codec, Column(employees[id], "email"), email);
    }
  }

  /** employeeExistsById(dbName, employeeId): whether a row has this id. */
  function EmployeeExistsById(stores: map<string, TenantStore>, dbName: JsValue, employeeId: int)
    : (r: Result<bool, DbError>)
    ensures Connect(stores, dbName).Fail? ==> r == Fail(Connect(stores, dbName).error)
    ensures r.Ok? <==> Connect(stores, dbName).Ok? && Employees in StoreOf(stores, dbName).tables
    ensures r.Ok? ==> (r.value <==> employeeId in StoreOf(stores, dbName).employees)
  {
    match Connect(stores, dbName)
    case Fail(e) => Fail(e)
    case Ok(db) =>
      if Employees !in stores[db.database].tables then Fail(NoSuchTable(Employees))
      else Ok(employeeId in stores[db.database].employees)
  }

  /** getEmployeeById(dbName, id): the row with this id as stored (ciphertexts included), or undefined (None). */
  function GetEmployeeById(stores: map<string, TenantStore>, dbName: JsValue, id: int): (r: Result<Option<Row>, DbError>)
    ensures r.Fail? <==> EmployeeExistsById(stores, dbName, id).Fail?
    ensures r.Fail? ==> r.error == EmployeeExistsById(stores, dbName, id).error
    ensures r.Ok? ==> (r.value.Some? <==> EmployeeExistsById(stores, dbName, id) == Ok(true))
    ensures r.Ok? && r.value.Some? ==> r.value.value == StoreOf(stores, dbName).employees[id]
  {
    match Connect(stores, dbName)
    case Fail(e) => Fail(e)
    case Ok(db) =>
      var store := stores[db.database];
      if Employees !in store.tables then Fail(NoSuchTable(Employees))
      else if id in store.employees then Ok(Some(store.employees[id]))
      else Ok(None)
  }

  // ---------------------------------------------------------------------------
  // createEmployee

  /** The columns createEmployee binds as given, in the order of the INSERT (email, phone and address are encrypted). */
  const PlainInsertColumns: seq<string> := [
    "first_name", "last_name", "profile_picture", "status", "department_id", "role_id",
    "hire_date", "document_aadhar", "document_pan", "document_licence"]

  /** `v ? safeEncrypt(v) : null`: the ciphertext, or SQL NULL for a falsy value or when encryption fails. */
  function EncryptedOrNull(codec: Codec, v: JsValue): (r: JsValue)
    ensures !Truthy(v) || !ValidKeys(codec.env) ==> r == Null
    ensures ValidKeys(codec.env) ==> Encrypt(codec, v).Ok? && r == EncryptedColumn(codec, v)
  {
    OfNullable(SafeEncrypt(codec, v))
  }

  /** The row createEmployee inserts under the auto-increment id `id`, given the e-mail's ciphertext. */
  function InsertedRow(codec: Codec, id: int, data: Fields, encryptedEmail: string): Row {
    BoundRow(id, Str(encryptedEmail), EncryptedOrNull(codec, Field(data, "phone")),
      EncryptedOrNull(codec, Field(data, "address")), data)
  }

  /** The columns of the INSERT: the id, the three encrypted values as bound, and the plain columns from data. */
  function BoundRow(id: int, email: JsValue, phone: JsValue, address: JsValue, data: Fields): Row {
    Bind(PlainInsertColumns, id, email, phone, address, data)
  }

  /** The id and the three encrypted columns, then the columns `plain` read from data. */
  function Bind(plain: seq<string>, id: int, email: JsValue, phone: JsValue, address: JsValue, data: Fields): Row {
    map["id" := Num(id), "email" := email, "phone" := phone, "address" := address]
    + (map c | c in plain :: Field(data, c))
  }

  /** With plain columns apart from the id and the encrypted ones, each column holds what was bound to it. */
  lemma BindValues(plain: seq<string>, id: int, email: JsValue, phone: JsValue, address: JsValue, data: Fields)
    requires "id" !in plain && "email" !in plain && "phone" !in plain && "address" !in plain
    ensures var row := Bind(plain, id, email, phone, address, data);
      && row.Keys == {"id", "email", "phone", "address"} + (set c | c in plain)
      && row["id"] == Num(id) && row["email"] == email && row["phone"] == phone && row["address"] == address
      && (forall c :: c in plain ==> row[c] == Field(data, c))
  {
    assert "email"[0] != "phone"[0];
  }

  /**
   * The bound row has exactly the columns of the INSERT and holds the id,
   * the three encrypted values as bound, and every plain column as given.
   */
  lemma BoundRowColumns(id: int, email: JsValue, phone: JsValue, address: JsValue, data: Fields)
    ensures var row := BoundRow(id, email, phone, address, data);
      && row.Keys == {"id", "email", "phone", "address"} + (set c | c in PlainInsertColumns)
      && row["id"] == Num(id) && row["email"] == email && row["phone"] == phone && row["address"] == address
      && (forall c :: c in PlainInsertColumns ==> row[c] == Field(data, c))
  {
    PlainColumnsApart();
    BindValues(PlainInsertColumns, id, email, phone, address, data);
  }

  /** None of the plainly bound columns is one of the id or the three encrypted columns. */
  lemma PlainColumnsApart()
    ensures "id" !in PlainInsertColumns && "email" !in PlainInsertColumns
    ensures "phone" !in PlainInsertColumns && "address" !in PlainInsertColumns
  {
    var s := PlainInsertColumns;
    forall j | 0 <= j < |s| ensures s[j] !in {"id", "email", "phone", "address"} {
      assert |s[j]| != 5 && |s[j]| != 2 && (|s[j]| != 7 || s[j][0] != 'a');
    }
  }

  /** No plainly bound column reads as undefined (the driver refuses to bind undefined). */
  predicate AllBound(data: Fields) {
    forall c :: c in PlainInsertColumns ==> !Field(data, c).Undefined?
  }

  /** The store after inserting `row` under the next auto-increment id. */
  function Inserted(store: TenantStore, row: Row): TenantStore {
    store.(employees := store.employees[store.nextEmployeeId := row], nextEmployeeId := store.nextEmployeeId + 1)
  }

  /**
   * Why the INSERT of createEmployee fails, if it does, in the order the
   * checks happen: a bound `undefined` (refused by the driver before sending),
   * a missing table, a NULL in a NOT NULL column, an e-mail already stored.
   */
  function InsertCheck(store: TenantStore, data: Fields, encryptedEmail: string): (r: Option<DbError>)
    ensures r.None? <==>
      && AllBound(data)
      && Employees in store.tables
      && !Field(data, "first_name").Null? && !Field(data, "last_name").Null?
      && !EmailStored(store.employees, Str(encryptedEmail))
    ensures !AllBound(data) ==> r == Some(BindUndefined)
  {
    if !AllBound(data) then Some(BindUndefined)
    else if Employees !in store.tables then Some(NoSuchTable(Employees))
    else if Field(data, "first_name").Null? then Some(ColumnCannotBeNull(Employees, "first_name"))
    else if Field(data, "last_name").Null? then Some(ColumnCannotBeNull(Employees, "last_name"))
    else if EmailStored(store.employees, Str(encryptedEmail)) then Some(DuplicateEntry(Employees, "email"))
    else None
  }

  /**
   * The store after an INSERT that failed with `error`. InnoDB hands the row
   * its auto-increment value before the unique index is checked and does not
   * take it back, so a duplicate e-mail uses up one id; the earlier checks
   * fail before an id is taken.
   */
  function AfterFailedInsert(store: TenantStore, error: DbError): TenantStore {
    if error.DuplicateEntry? then store.(nextEmployeeId := store.nextEmployeeId + 1) else store
  }

  /** A failed INSERT adds no row and never lowers the counter, so the store keeps its constraints. */
  lemma FailedInsertOutcome(store: TenantStore, error: DbError)
    ensures AfterFailedInsert(store, error).employees == store.employees
    ensures AfterFailedInsert(store, error).tables == store.tables
    ensures AfterFailedInsert(store, error).nextEmployeeId >= store.nextEmployeeId
    ensures store.Valid() ==> AfterFailedInsert(store, error).Valid()
  {
  }

  /** A row whose e-mail no other row holds keeps the store's constraints. */
  lemma InsertKeepsValid(store: TenantStore, row: Row)
    requires store.Valid()
    requires !EmailStored(store.employees, Column(row, "email"))
    ensures Inserted(store, row).Valid()
  {
    var s := Inserted(store, row);
    var id := store.nextEmployeeId;
    forall a, b | a in s.employees && b in s.employees && a != b && Column(s.employees[a], "email") != Null
      ensures Column(s.employees[a], "email") != Column(s.employees[b], "email")
    {
      if a == id {
        assert !SqlEquals(Column(store.employees[b], "email"), Column(row, "email"));
      } else if b == id {
        assert !SqlEquals(Column(store.employees[a], "email"), Column(row, "email"));
      }
    }
  }

  /** The inserted row holds the e-mail's ciphertext, so the duplicate check finds it afterwards. */
  lemma InsertedRowFound(codec: Codec, store: TenantStore, data: Fields, encryptedEmail: string)
    ensures EmailStored(Inserted(store, InsertedRow(codec, store.nextEmployeeId, data, encryptedEmail)).employees, Str(encryptedEmail))
  {
    var id := store.nextEmployeeId;
    BoundRowColumns(id, Str(encryptedEmail), EncryptedOrNull(codec, Field(data, "phone")),
      EncryptedOrNull(codec, Field(data, "address")), data);
    var s := Inserted(store, InsertedRow(codec, id, data, encryptedEmail));
    assert Column(s.employees[id], "email") == Str(encryptedEmail);
  }

  /**
   * createEmployee(dbName, data). The e-mail is encrypted first, and when that
   * yields null nothing is inserted. The INSERT either fails without writing
   * or adds exactly the row `InsertedRow` under the next auto-increment id; the
   * result is `{ id, ...data }`, the plaintext input rather than the stored row.
   */
  method CreateEmployee(srv: Server, codec: Codec, dbName: JsValue, data: Fields) returns (r: Result<Fields, DbError>)
    requires srv.Valid()
    modifies srv`stores
    ensures srv.Valid()
    ensures r.Fail? && !r.error.DuplicateEntry? ==> srv.stores == old(srv.stores)
    ensures Connect(old(srv.stores), dbName).Fail? ==> r == Fail(Connect(old(srv.stores), dbName).error)
    ensures Connect(old(srv.stores), dbName).Ok? ==>
      var name := ToJsString(dbName);
      var before := old(srv.stores)[name];
      var email := SafeEncrypt(codec, Field(data, "email"));
      && (email.None? ==> r == Fail(FailedToEncryptEmail))
      && (email.Some? ==>
            && (r.Ok? <==> InsertCheck(before, data, email.value).None?)
            && (r.Fail? ==> Some(r.error) == InsertCheck(before, data, email.value)
                            && srv.stores == old(srv.stores)[name := AfterFailedInsert(before, r.error)])
            && (r.Ok? ==>
                  && r.value == WithId(before.nextEmployeeId, data)
                  && srv.stores == old(srv.stores)[name := Inserted(before,
                       InsertedRow(codec, before.nextEmployeeId, data, email.value))]))
  {
    var connection := Connect(srv.stores, dbName);
    if connection.Fail? {
      return Fail(connection.error);
    }
    var name := connection.value.database;
    var email := SafeEncrypt(codec, Field(data, "email"));
    if email.None? {
      return Fail(FailedToEncryptEmail);
    }
    var store := srv.stores[name];
    var check := InsertCheck(store, data, email.value);
    if check.Some? {
      if check.value.DuplicateEntry? {
        FailedInsertOutcome(store, check.value);
        SetStoreKeepsValid(srv.stores, srv.issued, name, AfterFailedInsert(store, check.value));
        srv.stores := srv.stores[name := AfterFailedInsert(store, check.value)];
      }
      return Fail(check.value);
    }
    var id := store.nextEmployeeId;
    var row := InsertedRow(codec, id, data, email.value);
    assert Column(row, "email") == Str(email.value) by {
      BoundRowColumns(id, Str(email.value), EncryptedOrNull(codec, Field(data, "phone")),
        EncryptedOrNull(codec, Field(data, "address")), data);
    }
    InsertKeepsValid(store, row);
    SetStoreKeepsValid(srv.stores, srv.issued, name, Inserted(store, row));
    srv.stores := srv.stores[name := Inserted(store, row)];
    return Ok(WithId(id, data));
  }

  // ---------------------------------------------------------------------------
  // updateEmployee

  /**
   * A JavaScript object with its keys in insertion order, the order `for...in`
   * visits them (the keys here are column names, none of them integer-like).
   */
  type Entries = seq<(string, JsValue)>

  /** An object has each key once. */
  predicate DistinctKeys<V>(data: seq<(string, V)>) {
    forall i, j :: 0 <= i < j < |data| ==> data[i].0 != data[j].0
  }

  /** The object as a map from key to value. */
  function ToFields(data: Entries): (m: Fields)
    ensures m.Keys == set i | 0 <= i < |data| :: data[i].0
    decreases |data|
  {
    if |data| == 0 then map[]
    else
      var m := ToFields(data[..|data| - 1]);
      assert forall i :: 0 <= i < |data| - 1 ==> data[..|data| - 1][i] == data[i];
      m[data[|data| - 1].0 := data[|data| - 1].1]
  }

  /** With distinct keys, each key of the object holds its own entry's value. */
  lemma {:induction false} ToFieldsEntry(data: Entries, i: int)
    requires DistinctKeys(data) && 0 <= i < |data|
    ensures data[i].0 in ToFields(data) && ToFields(data)[data[i].0] == data[i].1
    decreases |data|
  {
    var init := data[..|data| - 1];
    if i < |data| - 1 {
      assert init[i] == data[i];
      assert DistinctKeys(init) by {
        forall a, b | 0 <= a < b < |init| ensures init[a].0 != init[b].0 {
          assert init[a] == data[a] && init[b] == data[b];
        }
      }
      ToFieldsEntry(init, i);
      assert data[i].0 != data[|data| - 1].0;
    }
  }

  /** The keys whose values updateEmployee encrypts unless they are null. */
  const PiiKeys: set<string> := {"email", "phone", "address"}

  /** The value bound for `key = ?`: safeEncrypt'ed for a PII key with a non-null value, as given otherwise. */
  function BoundValue(codec: Codec, key: string, v: JsValue): JsValue {
    if key in PiiKeys && !v.Null? then OfNullable(SafeEncrypt(codec, v)) else v
  }

  /** The SET list of updateEmployee: the entries whose value is not undefined, in key order, with their bound values. */
  function Assignments(codec: Codec, data: Entries): seq<(string, JsValue)>
    decreases |data|
  {
    if |data| == 0 then []
    else
      var rest := Assignments(codec, data[..|data| - 1]);
      var (key, value) := data[|data| - 1];
      if value.Undefined? then rest else rest + [(key, BoundValue(codec, key, value))]
  }

  /** The positions of the entries whose value is not undefined, in increasing order. */
  function DefinedPositions(data: Entries): seq<int>
    decreases |data|
  {
    if |data| == 0 then []
    else
      var rest := DefinedPositions(data[..|data| - 1]);
      if data[|data| - 1].1.Undefined? then rest else rest + [|data| - 1]
  }

  /**
   * The SET list writes exactly the defined entries, each once, in the order
   * of the object's keys: its p-th assignment is the p-th defined entry with
   * its bound value, and every defined entry has a place in it.
   */
  lemma {:induction false} AssignmentsInKeyOrder(codec: Codec, data: Entries)
    ensures var a, pos := Assignments(codec, data), DefinedPositions(data);
      && |a| == |pos|
      && (forall p, q :: 0 <= p < q < |pos| ==> pos[p] < pos[q])
      && (forall p :: 0 <= p < |pos| ==>
            && 0 <= pos[p] < |data| && !data[pos[p]].1.Undefined?
            && a[p] == (data[pos[p]].0, BoundValue(codec, data[pos[p]].0, data[pos[p]].1)))
      && (forall i :: 0 <= i < |data| && !data[i].1.Undefined? ==> i in pos)
    decreases |data|
  {
    if |data| > 0 {
      var init := data[..|data| - 1];
      AssignmentsInKeyOrder(codec, init);
      assert forall i :: 0 <= i < |init| ==> init[i] == data[i];
    }
  }

  /** updateEmployee throws 'No valid fields to update.' exactly when every value is undefined. */
  lemma AssignmentsEmptyIff(codec: Codec, data: Entries)
    ensures |Assignments(codec, data)| == 0 <==> forall i :: 0 <= i < |data| ==> data[i].1.Undefined?
  {
    AssignmentsInKeyOrder(codec, data);
    var pos := DefinedPositions(data);
    if exists i :: 0 <= i < |data| && !data[i].1.Undefined? {
      var i :| 0 <= i < |data| && !data[i].1.Undefined?;
      assert i in pos;
    }
  }

  /** A key is assigned exactly when its value is defined, and then to its bound value. */
  lemma AssignedIff(codec: Codec, data: Entries, i: int)
    requires DistinctKeys(data) && 0 <= i < |data|
    ensures (exists p :: 0 <= p < |Assignments(codec, data)| && Assignments(codec, data)[p].0 == data[i].0) <==> !data[i].1.Undefined?
    ensures forall p :: 0 <= p < |Assignments(codec, data)| && Assignments(codec, data)[p].0 == data[i].0 ==>
      Assignments(codec, data)[p].1 == BoundValue(codec, data[i].0, data[i].1)
  {
    AssignmentsInKeyOrder(codec, data);
    var a, pos := Assignments(codec, data), DefinedPositions(data);
    if !data[i].1.Undefined? {
      assert i in pos;
      var p :| 0 <= p < |pos| && pos[p] == i;
      assert a[p].0 == data[i].0;
    }
  }

  /**
   * The loop of updateEmployee: `updates` gets one entry per key whose value
   * is not undefined (the fragment `<key> = ?`, represented by its key) and
   * `values` the matching bound value, in key order.
   */
  method CollectAssignments(codec: Codec, data: Entries) returns (updates: seq<string>, values: seq<JsValue>)
    ensures |updates| == |values| == |Assignments(codec, data)|
    ensures forall p :: 0 <= p < |updates| ==> (updates[p], values[p]) == Assignments(codec, data)[p]
  {
    updates, values := [], [];
    for i := 0 to |data|
      invariant |updates| == |values| == |Assignments(codec, data[..i])|
      invariant forall p :: 0 <= p < |updates| ==> (updates[p], values[p]) == Assignments(codec, data[..i])[p]
    {
      var (key, value) := data[i];
      assert data[..i + 1][..i] == data[..i];
      if !value.Undefined? {
        updates := updates + [key];
        values := values + [BoundValue(codec, key, value)];
      }
    }
    assert data[..|data|] == data;
  }

  /** The first key of a SET list whose pair fails `ok`, if any. */
  function FirstFailing(a: seq<(string, JsValue)>, ok: ((string, JsValue)) -> bool): (r: Option<string>)
    ensures r.None? <==> forall p :: 0 <= p < |a| ==> ok(a[p])
    ensures r.Some? ==> exists p :: 0 <= p < |a| && !ok(a[p]) && a[p].0 == r.value
    decreases |a|
  {
    if |a| == 0 then None
    else if !ok(a[0]) then Some(a[0].0)
    else
      var r := FirstFailing(a[1..], ok);
      assert forall p :: 0 <= p < |a| - 1 ==> a[1..][p] == a[p + 1];
      r
  }

  /** The key found is that of the first failing pair: every pair before it passes. */
  lemma {:induction false} FirstFailingIsFirst(a: seq<(string, JsValue)>, ok: ((string, JsValue)) -> bool)
    requires FirstFailing(a, ok).Some?
    ensures exists p ::
              && 0 <= p < |a| && !ok(a[p]) && a[p].0 == FirstFailing(a, ok).value
              && forall q :: 0 <= q < p ==> ok(a[q])
    decreases |a|
  {
    if ok(a[0]) {
      FirstFailingIsFirst(a[1..], ok);
      var p :|
        && 0 <= p < |a| - 1 && !ok(a[1..][p]) && a[1..][p].0 == FirstFailing(a[1..], ok).value
        && forall q :: 0 <= q < p ==> ok(a[1..][q]);
      assert forall q :: 0 <= q < p + 1 ==> ok(a[q]) by {
        forall q | 0 <= q < p + 1 ensures ok(a[q]) {
          if q > 0 {
            assert a[q] == a[1..][q - 1];
          }
        }
      }
      assert a[p + 1] == a[1..][p];
    } else {
      assert !ok(a[0]) && a[0].0 == FirstFailing(a, ok).value;
    }
  }

  /** The row after `UPDATE ... SET` the assignments, applied left to right. */
  function Apply(row: Row, a: seq<(string, JsValue)>): Row
    decreases |a|
  {
    if |a| == 0 then row
    else Apply(row, a[..|a| - 1])[a[|a| - 1].0 := a[|a| - 1].1]
  }

  /** With each column assigned at most once, every assigned column holds its value and every other column is unchanged. */
  lemma {:induction false} ApplyColumns(row: Row, a: seq<(string, JsValue)>, c: string)
    requires DistinctKeys(a)
    ensures forall p :: 0 <= p < |a| && a[p].0 == c ==> Column(Apply(row, a), c) == a[p].1
    ensures (forall p :: 0 <= p < |a| ==> a[p].0 != c) ==> Column(Apply(row, a), c) == Column(row, c)
    decreases |a|
  {
    if |a| > 0 {
      var init := a[..|a| - 1];
      assert forall p :: 0 <= p < |init| ==> init[p] == a[p];
      ApplyColumns(row, init, c);
    }
  }

  /** Some other row than `id` already stores `v` as its e-mail. */
  predicate EmailTakenByOther(employees: map<int, Row>, id: int, v: JsValue) {
    exists other :: other in employees && other != id && SqlEquals(Column(employees[other], "email"), v)
  }

  /**
   * Why `UPDATE employees SET ... WHERE id = ?` fails, if it does: a missing
   * table or an unknown column (both found before any row is looked at); then,
   * only when the row exists, a NULL for a NOT NULL column or an e-mail that
   * another row holds.
   */
  function UpdateCheck(store: TenantStore, id: int, a: seq<(string, JsValue)>): (r: Option<DbError>)
    ensures r.None? <==>
      && Employees in store.tables
      && (forall p :: 0 <= p < |a| ==> a[p].0 in EmployeeColumns)
      && (id in store.employees ==>
            && (forall p :: 0 <= p < |a| ==> a[p].0 in EmployeeNotNull ==> !a[p].1.Null?)
            && (forall p :: 0 <= p < |a| ==> a[p].0 == "email" ==> !EmailTakenByOther(store.employees, id, a[p].1)))
    ensures r.Some? && Employees in store.tables ==> r.value.UnknownColumn? || id in store.employees
  {
    if Employees !in store.tables then Some(NoSuchTable(Employees))
    else match FirstFailing(a, (entry: (string, JsValue)) => entry.0 in EmployeeColumns)
    case Some(c) => Some(UnknownColumn(Employees, c))
    case None =>
      if id !in store.employees then None
      else match FirstFailing(a, (entry: (string, JsValue)) => !(entry.0 in EmployeeNotNull && entry.1.Null?))
      case Some(c) => Some(ColumnCannotBeNull(Employees, c))
      case None =>
        if exists p :: 0 <= p < |a| && a[p].0 == "email" && EmailTakenByOther(store.employees, id, a[p].1) then
          Some(DuplicateEntry(Employees, "email"))
        else None
  }

  /** The store after the update: the row with this id, if there is one, gets the assignments; the rest is unchanged. */
  function Updated(store: TenantStore, id: int, a: seq<(string, JsValue)>): TenantStore {
    if id in store.employees then store.(employees := store.employees[id := Apply(store.employees[id], a)])
    else store
  }

  /** An update the checks accept keeps the store's constraints, provided it leaves `id` alone. */
  lemma UpdateKeepsValid(store: TenantStore, id: int, a: seq<(string, JsValue)>)
    requires store.Valid() && DistinctKeys(a)
    requires forall p :: 0 <= p < |a| ==> a[p].0 != "id"
    requires UpdateCheck(store, id, a).None?
    ensures Updated(store, id, a).Valid()
  {
    if id in store.employees {
      var s := Updated(store, id, a);
      var row := Apply(store.employees[id], a);
      ApplyColumns(store.employees[id], a, "email");
      if exists p :: 0 <= p < |a| && a[p].0 == "email" {
        var p :| 0 <= p < |a| && a[p].0 == "email";
        assert Column(row, "email") == a[p].1 && !a[p].1.Null?;
        assert !EmailTakenByOther(store.employees, id, a[p].1);
      }
      forall x, y | x in s.employees && y in s.employees && x != y && Column(s.employees[x], "email") != Null
        ensures Column(s.employees[x], "email") != Column(s.employees[y], "email")
      {
        if x == id {
          assert !SqlEquals(Column(store.employees[y], "email"), Column(row, "email"));
        } else if y == id {
          assert !SqlEquals(Column(store.employees[x], "email"), Column(row, "email"));
        }
      }
    }
  }

  /**
   * updateEmployee(dbName, employeeId, data). Only the keys whose value is
   * not undefined are written, PII keys encrypted unless null; with no such
   * key it throws 'No valid fields to update.' before running anything. A
   * missing row is not an error: nothing changes and the result is still
   * `{ id: employeeId, ...data }`.
   */
  method UpdateEmployee(srv: Server, codec: Codec, dbName: JsValue, employeeId: int, data: Entries)
    returns (r: Result<Fields, DbError>)
    requires srv.Valid()
    requires DistinctKeys(data)
    requires forall i :: 0 <= i < |data| ==> data[i].0 != "id"
    modifies srv`stores
    ensures srv.Valid()
    ensures r.Fail? ==> srv.stores == old(srv.stores)
    ensures Connect(old(srv.stores), dbName).Fail? ==> r == Fail(Connect(old(srv.stores), dbName).error)
    ensures Connect(old(srv.stores), dbName).Ok? ==>
      var name := ToJsString(dbName);
      var before := old(srv.stores)[name];
      var a := Assignments(codec, data);
      && (|a| == 0 ==> r == Fail(NoValidFields))
      && (|a| > 0 ==>
            && (r.Ok? <==> UpdateCheck(before, employeeId, a).None?)
            && (r.Fail? ==> Some(r.error) == UpdateCheck(before, employeeId, a))
            && (r.Ok? ==>
                  && r.value == WithId(employeeId, ToFields(data))
                  && srv.stores == old(srv.stores)[name := Updated(before, employeeId, a)]))
  {
    var connection := Connect(srv.stores, dbName);
    if connection.Fail? {
      return Fail(connection.error);
    }
    var name := connection.value.database;
    var updates, values := CollectAssignments(codec, data);
    if |updates| == 0 {
      return Fail(NoValidFields);
    }
    ghost var a := Assignments(codec, data);
    assert DistinctKeys(a) by {
      AssignmentsInKeyOrder(codec, data);
    }
    var assignments := seq(|updates|, p requires 0 <= p < |updates| => (updates[p], values[p]));
    assert assignments == a;
    var store := srv.stores[name];
    var check := UpdateCheck(store, employeeId, assignments);
    if check.Some? {
      return Fail(check.value);
    }
    UpdateKeepsValid(store, employeeId, a) by {
      AssignmentsInKeyOrder(codec, data);
    }
    srv.stores := srv.stores[name := Updated(store, employeeId, assignments)];
    return Ok(WithId(employeeId, ToFields(data)));
  }

  /**
   * What updateEmployee does to the row: a column named by a key whose value
   * is defined now holds the bound value, and every other column keeps its
   * old value.
   */
  lemma UpdateWritesDefinedKeys(codec: Codec, row: Row, data: Entries, c: string)
    requires DistinctKeys(data)
    ensures forall i :: 0 <= i < |data| && data[i].0 == c && !data[i].1.Undefined? ==>
      Column(Apply(row, Assignments(codec, data)), c) == BoundValue(codec, c, data[i].1)
    ensures (forall i :: 0 <= i < |data| && data[i].0 == c ==> data[i].1.Undefined?) ==>
      Column(Apply(row, Assignments(codec, data)), c) == Column(row, c)
  {
    var a := Assignments(codec, data);
    AssignmentsInKeyOrder(codec, data);
    var pos := DefinedPositions(data);
    assert DistinctKeys(a);
    ApplyColumns(row, a, c);
    forall i | 0 <= i < |data| && data[i].0 == c && !data[i].1.Undefined?
      ensures Column(Apply(row, a), c) == BoundValue(codec, c, data[i].1)
    {
      AssignedIff(codec, data, i);
    }
    if forall i :: 0 <= i < |data| && data[i].0 == c ==> data[i].1.Undefined? {
      forall p | 0 <= p < |a| ensures a[p].0 != c {
        assert !data[pos[p]].1.Undefined?;
      }
    }
  }

  // ---------------------------------------------------------------------------
  // deleteEmployee

  /**
   * deleteEmployee(dbName, employeeId): the row with this id goes, and the
   * result's `affectedRows` is 1 when there was one and 0 otherwise.
   */
  method DeleteEmployee(srv: Server, dbName: JsValue, employeeId: int) returns (r: Result<nat, DbError>)
    requires srv.Valid()
    modifies srv`stores
    ensures srv.Valid()
    ensures r.Fail? ==> srv.stores == old(srv.stores)
    ensures r.Fail? <==> EmployeeExistsById(old(srv.stores), dbName, employeeId).Fail?
    ensures r.Fail? ==> r.error == EmployeeExistsById(old(srv.stores), dbName, employeeId).error
    ensures r.Ok? ==>
      var name := ToJsString(dbName);
      var before := old(srv.stores)[name];
      && (r.value == 0 <==> employeeId !in before.employees)
      && r.value <= 1
      && srv.stores == old(srv.stores)[name := before.(employees := before.employees - {employeeId})]
  {
    var connection := Connect(srv.stores, dbName);
    if connection.Fail? {
      return Fail(connection.error);
    }
    var name := connection.value.database;
    var store := srv.stores[name];
    if Employees !in store.tables {
      return Fail(NoSuchTable(Employees));
    }
    var affected := if employeeId in store.employees then 1 else 0;
    srv.stores := srv.stores[name := store.(employees := store.employees - {employeeId})];
    return Ok(affected);
  }
}

=== FILE: encryption.dfy ===
/**
 * The field codec of server_side/utils/encryption.js: AES-256-CBC under one
 * key and one IV read from the environment when the module loads, so that a
 * plaintext always encrypts to the same ciphertext.
 *
 * The block cipher is a foreign call and stays abstract: a `Cipher` is a pair
 * of total functions, and what the model relies on about it is the predicate
 * `Sound` (ciphertexts are non-empty hex and decrypt to their plaintext).
 * Everything around the cipher (falsy inputs, coercion of non-strings, the
 * key and IV checks, the never-throwing wrappers) is modelled as written.
 */
module Encryption {
  import opened Results
  import opened Js

  /** `process.env.ENCRYPTION_KEY` and `process.env.IV`, read once at load time. */
  datatype Env = Env(encryptionKey: Option<string>, iv: Option<string>)

  /** `enc(keyHex, ivHex, plaintext)` is the hex ciphertext; `dec` gives the plaintext or fails ('bad decrypt'). */
  datatype Cipher = Cipher(
    enc: (string, string, string) -> string,
    dec: (string, string, string) -> Option<string>)

  /** The configured codec of one server process. */
  datatype Codec = Codec(env: Env, cipher: Cipher)

  datatype CryptoError =
    | KeyOrIvNotSet    // 'ENCRYPTION_KEY or IV is not set in the environment variables'
    | IvNot16Bytes     // 'IV must be 16 bytes'
    | KeyNot32Bytes    // 'ENCRYPTION_KEY must be 32 bytes'
    | InvalidArgType   // decipher.update given something that is not a string
    | BadDecrypt       // decipher.final on a ciphertext the key and IV do not open

  /** What the model assumes of AES-256-CBC: every ciphertext is non-empty and decrypts to its plaintext. */
  ghost predicate Sound(c: Cipher) {
    forall key, iv, p :: c.enc(key, iv, p) != "" && c.dec(key, iv, c.enc(key, iv, p)) == Some(p)
  }

  /** An environment variable counts as set when it is present and not empty. */
  predicate IsSet(o: Option<string>) {
    o.Some? && o.value != ""
  }

  /** Key material the cipher accepts: a 16-byte IV and a 32-byte key, both in hex. */
  predicate ValidKeys(env: Env) {
    && env.encryptionKey.Some? && env.iv.Some?
    && HexByteLength(env.iv.value) == 16
    && HexByteLength(env.encryptionKey.value) == 32
  }

  /** The checks both `encrypt` and `decrypt` run before touching the cipher, in their order. */
  function KeyCheck(env: Env): (r: Option<CryptoError>)
    ensures r.None? <==> ValidKeys(env)
  {
    if !IsSet(env.encryptionKey) || !IsSet(env.iv) then Some(KeyOrIvNotSet)
    else if HexByteLength(env.iv.value) != 16 then Some(IvNot16Bytes)
    else if HexByteLength(env.encryptionKey.value) != 32 then Some(KeyNot32Bytes)
    else None
  }

  /** Which check fails: a missing variable first, then the IV's length, then the key's. */
  lemma KeyCheckErrors(env: Env)
    ensures KeyCheck(env) == Some(KeyOrIvNotSet) <==> !IsSet(env.encryptionKey) || !IsSet(env.iv)
    ensures KeyCheck(env) == Some(IvNot16Bytes) <==>
      IsSet(env.encryptionKey) && IsSet(env.iv) && HexByteLength(env.iv.value) != 16
    ensures KeyCheck(env) == Some(KeyNot32Bytes) <==>
      IsSet(env.encryptionKey) && IsSet(env.iv) && HexByteLength(env.iv.value) == 16
      && HexByteLength(env.encryptionKey.value) != 32
  {
  }

  /** The string `encrypt` hands to the cipher: an array gives way to its first element, anything else goes through `String`. */
  function Coerce(v: JsValue): (text: string)
    requires Truthy(v)
    ensures v.Str? ==> text == v.s
    ensures v.Arr? ==> text == ToJsString(if |v.elems| > 0 then v.elems[0] else Undefined)
    ensures !v.Str? && !v.Arr? ==> text == ToJsString(v)
  {
    match v
    case Str(s) => s
    case Arr(es) =>
      var first := if |es| > 0 then es[0] else Undefined;
      if first.Str? then first.s else ToJsString(first)
    case _ => ToJsString(v)
  }

  /** `encrypt(text)`: null for a falsy input (before any key check), otherwise the ciphertext of the coerced text. */
  function Encrypt(codec: Codec, v: JsValue): (r: Result<Option<string>, CryptoError>)
    ensures !Truthy(v) ==> r == Ok(None)
    ensures Truthy(v) && r.Fail? ==> Some(r.error) == KeyCheck(codec.env)
    ensures Truthy(v) ==> (r.Ok? <==> ValidKeys(codec.env))
    ensures Truthy(v) && r.Ok? ==> r.value.Some?
  {
    if !Truthy(v) then Ok(None)
    else
      var text := Coerce(v);
      match KeyCheck(codec.env)
      case Some(e) => Fail(e)
      case None => Ok(Some(codec.cipher.enc(codec.env.encryptionKey.value, codec.env.iv.value, text)))
  }

  /** `decrypt(encryptedText)`: null for a falsy input (before any key check), otherwise the plaintext or an error. */
  function Decrypt(codec: Codec, v: JsValue): (r: Result<Option<string>, CryptoError>)
    ensures !Truthy(v) ==> r == Ok(None)
    ensures Truthy(v) && !ValidKeys(codec.env) ==> r.Fail? && Some(r.error) == KeyCheck(codec.env)
    ensures Truthy(v) && !v.Str? ==> r.Fail?
    ensures r.Ok? && Truthy(v) ==> r.value.Some?
  {
    if !Truthy(v) then Ok(None)
    else
      match KeyCheck(codec.env)
      case Some(e) => Fail(e)
      case None =>
        if !v.Str? then Fail(InvalidArgType)
        else
          match codec.cipher.dec(codec.env.encryptionKey.value, codec.env.iv.value, v.s)
          case None => Fail(BadDecrypt)
          case Some(p) => Ok(Some(p))
  }

  /** `safeEncrypt(value)`: never throws; null for a falsy input or when `encrypt` throws, otherwise exactly `encrypt`'s result. */
  function SafeEncrypt(codec: Codec, v: JsValue): (r: Option<string>)
    ensures !Truthy(v) ==> r == None
    ensures Encrypt(codec, v).Fail? ==> r == None
    ensures Encrypt(codec, v).Ok? ==> r == Encrypt(codec, v).value
  {
    if !Truthy(v) then None
    else
      match Encrypt(codec, v)
      case Ok(c) => c
      case Fail(_) => None
  }

  /** `safeDecrypt(value)`: never throws; null for a falsy input or when `decrypt` throws, otherwise exactly `decrypt`'s result. */
  function SafeDecrypt(codec: Codec, v: JsValue): (r: Option<string>)
    ensures !Truthy(v) ==> r == None
    ensures Decrypt(codec, v).Fail? ==> r == None
    ensures Decrypt(codec, v).Ok? ==> r == Decrypt(codec, v).value
  {
    if !Truthy(v) then None
    else
      match Decrypt(codec, v)
      case Ok(p) => p
      case Fail(_) => None
  }

  /** The column value written for `encrypt(v)` (a string, or SQL NULL). */
  function EncryptedColumn(codec: Codec, v: JsValue): JsValue
    requires Encrypt(codec, v).Ok?
  {
    OfNullable(Encrypt(codec, v).value)
  }

  // ---------------------------------------------------------------------------
  // Properties

  /** With valid key material a truthy input encrypts to a non-empty (truthy) ciphertext. */
  lemma EncryptTruthy(codec: Codec, v: JsValue)
    requires Sound(codec.cipher) && ValidKeys(codec.env) && Truthy(v)
    ensures Encrypt(codec, v).Ok? && Encrypt(codec, v).value.Some?
    ensures Truthy(EncryptedColumn(codec, v))
  {
    var key, iv := codec.env.encryptionKey.value, codec.env.iv.value;
    assert codec.cipher.enc(key, iv, Coerce(v)) != "";
  }

  /** Round trip: with valid key material, decrypt(encrypt(v)) is the coerced text of v; for a non-empty string, the string itself. */
  lemma RoundTrip(codec: Codec, v: JsValue)
    requires Sound(codec.cipher) && ValidKeys(codec.env) && Truthy(v)
    ensures Encrypt(codec, v).Ok?
    ensures Decrypt(codec, EncryptedColumn(codec, v)) == Ok(Some(Coerce(v)))
    ensures v.Str? ==> Decrypt(codec, EncryptedColumn(codec, v)) == Ok(Some(v.s))
  {
    var key, iv := codec.env.encryptionKey.value, codec.env.iv.value;
    var c := codec.cipher.enc(key, iv, Coerce(v));
    assert c != "" && codec.cipher.dec(key, iv, c) == Some(Coerce(v));
    assert EncryptedColumn(codec, v) == Str(c);
  }

  /** Encryption depends only on the coerced text: `encrypt(['x'])`, `encrypt('x')` and `encrypt(x)` with String(x) == 'x' agree. */
  lemma EncryptByCoercedText(codec: Codec, v: JsValue)
    requires Truthy(v) && Coerce(v) != ""
    ensures Encrypt(codec, v) == Encrypt(codec, Str(Coerce(v)))
  {
  }

  /**
   * Deterministic encryption makes ciphertext equality the same as plaintext
   * equality, which is what the equality lookups on encrypted columns rely on.
   */
  lemma CiphertextEqualIff(codec: Codec, a: string, b: string)
    requires Sound(codec.cipher) && ValidKeys(codec.env)
    ensures Encrypt(codec, Str(a)) == Encrypt(codec, Str(b)) <==> a == b
  {
    var key, iv := codec.env.encryptionKey.value, codec.env.iv.value;
    if a != "" && b != "" && Encrypt(codec, Str(a)) == Encrypt(codec, Str(b)) {
      var c := codec.cipher.enc(key, iv, a);
      assert codec.cipher.dec(key, iv, c) == Some(a);
      assert codec.cipher.dec(key, iv, codec.cipher.enc(key, iv, b)) == Some(b);
    } else if a == "" && b != "" {
      assert codec.cipher.enc(key, iv, b) != "";
    } else if a != "" && b == "" {
      assert codec.cipher.enc(key, iv, a) != "";
    }
  }

  /**
   * A stored column value that `encrypt` could have produced: SQL NULL, or a
   * ciphertext that decrypts to some plaintext which encrypts back to it.
   */
  predicate Canonical(codec: Codec, stored: JsValue) {
    && ValidKeys(codec.env)
    && (stored.Null? ||
        (stored.Str? &&
         var key, iv := codec.env.encryptionKey.value, codec.env.iv.value;
         var p := codec.cipher.dec(key, iv, stored.s);
         p.Some? && codec.cipher.enc(key, iv, p.value) == stored.s))
  }

  /** The stored value reads back as the given (truthy) plaintext. */
  predicate Holds(codec: Codec, stored: JsValue, v: JsValue) {
    Truthy(v) && SafeDecrypt(codec, stored) == Some(Coerce(v))
  }

  /** Whatever `encrypt` writes is canonical. */
  lemma EncryptedIsCanonical(codec: Codec, v: JsValue)
    requires Sound(codec.cipher) && ValidKeys(codec.env)
    ensures Encrypt(codec, v).Ok? && Canonical(codec, EncryptedColumn(codec, v))
  {
    if Truthy(v) {
      var key, iv := codec.env.encryptionKey.value, codec.env.iv.value;
      var c := codec.cipher.enc(key, iv, Coerce(v));
      assert codec.cipher.dec(key, iv, c) == Some(Coerce(v));
    }
  }

  /**
   * Lookup by ciphertext is lookup by plaintext: a canonical stored value
   * equals `encrypt(v)` exactly when it decrypts to the coerced text of v.
   */
  lemma CanonicalMatchIff(codec: Codec, stored: JsValue, v: JsValue)
    requires Sound(codec.cipher) && Canonical(codec, stored) && Truthy(v)
    ensures Encrypt(codec, v).Ok?
    ensures stored == EncryptedColumn(codec, v) <==> SafeDecrypt(codec, stored) == Some(Coerce(v))
  {
    var key, iv := codec.env.encryptionKey.value, codec.env.iv.value;
    var c := codec.cipher.enc(key, iv, Coerce(v));
    assert c != "" && codec.cipher.dec(key, iv, c) == Some(Coerce(v));
    assert EncryptedColumn(codec, v) == Str(c);
    if stored.Str? && stored.s != "" {
      var p := codec.cipher.dec(key, iv, stored.s);
      assert Decrypt(codec, stored) == Ok(p);
      if p == Some(Coerce(v)) {
        assert stored.s == c;
      }
    }
  }

  /** The plaintext a column written by `encrypt(v)` should read back as: the coerced text, or null for a falsy input. */
  function Plain(v: JsValue): Option<string> {
    if Truthy(v) then Some(Coerce(v)) else None
  }

  /** With valid key material, `safeDecrypt` of what `encrypt(v)` stored gives back the plaintext, and null for null. */
  lemma ReadBack(codec: Codec, v: JsValue)
    requires Sound(codec.cipher) && ValidKeys(codec.env)
    ensures Encrypt(codec, v).Ok?
    ensures SafeDecrypt(codec, EncryptedColumn(codec, v)) == Plain(v)
  {
    if Truthy(v) {
      RoundTrip(codec, v);
      EncryptTruthy(codec, v);
    }
  }
}

=== FILE: js.dfy ===
/**
 * The slice of JavaScript's value model that the server relies on: truthiness,
 * `String(v)`, decimal printing of integers, `split`/`join`, `trim`, and the
 * length of `Buffer.from(s, 'hex')`.
 */
module Js {
  import opened Results

  /** JavaScript values. Numbers are integers only (no fractions, NaN or -0). */
  datatype JsValue =
    | Undefined
    | Null
    | Bool(b: bool)
    | Num(n: int)
    | Str(s: string)
    | Arr(elems: seq<JsValue>)
    | Obj  // a plain object

  /** `!!v`: the falsy values are undefined, null, false, 0 and the empty string. */
  predicate Truthy(v: JsValue) {
    match v
    case Undefined => false
    case Null => false
    case Bool(b) => b
    case Num(n) => n != 0
    case Str(s) => s != ""
    case Arr(_) => true
    case Obj => true
  }

  /** A nullable string column as a JavaScript value. */
  function OfNullable(o: Option<string>): JsValue {
    match o
    case None => Null
    case Some(s) => Str(s)
  }

  /** `a || b` */
  function Or(a: JsValue, b: JsValue): (r: JsValue)
    ensures Truthy(a) ==> r == a
    ensures !Truthy(a) ==> r == b
  {
    if Truthy(a) then a else b
  }

  // ---------------------------------------------------------------------------
  // Decimal printing: String(n) for an integer n

  function DigitChar(d: nat): (c: char)
    requires d < 10
    ensures '0' <= c <= '9'
  {
    (('0' as int) + d) as char
  }

  function NatToDecimal(n: nat): string
    decreases n
  {
    if n < 10 then [DigitChar(n)] else NatToDecimal(n / 10) + [DigitChar(n % 10)]
  }

  function IntToDecimal(n: int): string {
    if n < 0 then "-" + NatToDecimal(-n) else NatToDecimal(n)
  }

  /** Decimal numerals are non-empty strings of digits, with one digit exactly for 0..9. */
  lemma {:induction false} NatToDecimalShape(n: nat)
    ensures |NatToDecimal(n)| >= 1
    ensures (|NatToDecimal(n)| == 1) <==> n < 10
    ensures forall k :: 0 <= k < |NatToDecimal(n)| ==> '0' <= NatToDecimal(n)[k] <= '9'
    decreases n
  {
    if n >= 10 {
      NatToDecimalShape(n / 10);
    }
  }

  /** Printing a natural number in decimal loses nothing: different numbers print differently. */
  lemma {:induction false} NatToDecimalInjective(a: nat, b: nat)
    requires NatToDecimal(a) == NatToDecimal(b)
    ensures a == b
    decreases a
  {
    NatToDecimalShape(a);
    NatToDecimalShape(b);
    if a >= 10 && b >= 10 {
      var sa, sb := NatToDecimal(a / 10), NatToDecimal(b / 10);
      assert NatToDecimal(a) == sa + [DigitChar(a % 10)];
      assert NatToDecimal(b) == sb + [DigitChar(b % 10)];
      assert |sa| == |sb|;
      assert sa == NatToDecimal(a)[..|sa|];
      assert sb == NatToDecimal(b)[..|sb|];
      NatToDecimalInjective(a / 10, b / 10);
      assert DigitChar(a % 10) == NatToDecimal(a)[|sa|] == DigitChar(b % 10);
    } else if a < 10 && b < 10 {
      assert DigitChar(a) == NatToDecimal(a)[0] == DigitChar(b);
    }
  }

  /** An integer's numeral starts with a minus sign exactly when the integer is negative. */
  lemma IntToDecimalSign(n: int)
    ensures |IntToDecimal(n)| >= 1
    ensures IntToDecimal(n)[0] == '-' <==> n < 0
  {
    if n < 0 {
      NatToDecimalShape(-n);
    } else {
      NatToDecimalShape(n);
    }
  }

  /** The same for integers of either sign. */
  lemma IntToDecimalInjective(a: int, b: int)
    requires IntToDecimal(a) == IntToDecimal(b)
    ensures a == b
  {
    IntToDecimalSign(a);
    IntToDecimalSign(b);
    if a < 0 {
      assert NatToDecimal(-a) == IntToDecimal(a)[1..];
      assert NatToDecimal(-b) == IntToDecimal(b)[1..];
      NatToDecimalInjective(-a, -b);
    } else {
      NatToDecimalInjective(a, b);
    }
  }

  // ---------------------------------------------------------------------------
  // String(v)

  /** `String(v)`; inside an array, undefined and null print as the empty string. */
  function ToJsString(v: JsValue): string
    decreases v, 1
  {
    match v
    case Undefined => "undefined"
    case Null => "null"
    case Bool(b) => if b then "true" else "false"
    case Num(n) => IntToDecimal(n)
    case Str(s) => s
    case Arr(es) => JoinElements(v, 0)
    case Obj => "[object Object]"
  }

  /** `Array.prototype.join(',')` of the elements of `v` from index `i` on. */
  function JoinElements(v: JsValue, i: nat): string
    requires v.Arr? && i <= |v.elems|
    decreases v, 0, |v.elems| - i
  {
    if i == |v.elems| then ""
    else
      var e := v.elems[i];
      (if i > 0 then "," else "")
      + (if e.Undefined? || e.Null? then "" else ToJsString(e))
      + JoinElements(v, i + 1)
  }

  // ---------------------------------------------------------------------------
  // split and join

  /** `s.split(sep)` for a one-character separator. */
  function Split(s: string, sep: char): (parts: seq<string>)
    ensures |parts| >= 1
    decreases |s|
  {
    if |s| == 0 then [""]
    else
      var rest := Split(s[1..], sep);
      if s[0] == sep then [""] + rest
      else [[s[0]] + rest[0]] + rest[1..]
  }

  /** `parts.join(sep)` */
  function Join(parts: seq<string>, sep: string): string
    decreases |parts|
  {
    if |parts| == 0 then ""
    else if |parts| == 1 then parts[0]
    else parts[0] + sep + Join(parts[1..], sep)
  }

  /** Splitting loses nothing (joining the parts restores the string) and no part holds the separator. */
  lemma {:induction false} SplitJoin(s: string, sep: char)
    ensures Join(Split(s, sep), [sep]) == s
    ensures forall k :: 0 <= k < |Split(s, sep)| ==> sep !in Split(s, sep)[k]
    decreases |s|
  {
    if |s| > 0 {
      var rest := Split(s[1..], sep);
      SplitJoin(s[1..], sep);
      assert s == [s[0]] + s[1..];
      if s[0] == sep {
        assert Split(s, sep) == [""] + rest;
        assert Join([""] + rest, [sep]) == "" + [sep] + Join(rest, [sep]);
      } else {
        var parts := Split(s, sep);
        assert parts == [[s[0]] + rest[0]] + rest[1..];
        assert sep !in rest[0];
        if |rest| == 1 {
          assert Join(parts, [sep]) == [s[0]] + rest[0];
        } else {
          assert parts[1..] == rest[1..];
          assert Join(rest, [sep]) == rest[0] + [sep] + Join(rest[1..], [sep]);
        }
        forall k | 0 <= k < |parts|
          ensures sep !in parts[k]
        {
          if k > 0 {
            assert parts[k] == rest[k];
          }
        }
      }
    }
  }

  // ---------------------------------------------------------------------------
  // trim

  /** The characters `String.prototype.trim` removes: WhiteSpace and LineTerminator of ECMA-262. */
  predicate IsJsWhitespace(c: char) {
    || c == ' ' || c == '\t' || c == '\n' || c == '\r'
    || c == '\U{000B}' || c == '\U{000C}' || c == '\U{00A0}' || c == '\U{1680}'
    || ('\U{2000}' <= c <= '\U{200A}')
    || c == '\U{2028}' || c == '\U{2029}' || c == '\U{202F}' || c == '\U{205F}'
    || c == '\U{3000}' || c == '\U{FEFF}'
  }

  function TrimStart(s: string): (r: string)
    ensures |r| <= |s| && r == s[|s| - |r|..]
    ensures forall k :: 0 <= k < |s| - |r| ==> IsJsWhitespace(s[k])
    ensures r != "" ==> !IsJsWhitespace(r[0])
    decreases |s|
  {
    if |s| > 0 && IsJsWhitespace(s[0]) then TrimStart(s[1..]) else s
  }

  function TrimEnd(s: string): (r: string)
    ensures |r| <= |s| && r == s[..|r|]
    ensures forall k :: |r| <= k < |s| ==> IsJsWhitespace(s[k])
    ensures r != "" ==> !IsJsWhitespace(r[|r| - 1])
    decreases |s|
  {
    if |s| > 0 && IsJsWhitespace(s[|s| - 1]) then TrimEnd(s[..|s| - 1]) else s
  }

  /** `r` sits at offset `i` of `s`, with nothing but white space before and after it. */
  predicate WhitespaceAround(s: string, i: int, r: string) {
    && 0 <= i <= |s| - |r| && r == s[i..i + |r|]
    && (forall k :: 0 <= k < i ==> IsJsWhitespace(s[k]))
    && (forall k :: i + |r| <= k < |s| ==> IsJsWhitespace(s[k]))
  }

  /** `s.trim()`: the longest middle part of `s` that neither starts nor ends with white space. */
  function Trim(s: string): (r: string)
    ensures r == "" <==> forall k :: 0 <= k < |s| ==> IsJsWhitespace(s[k])
    ensures r != "" ==> !IsJsWhitespace(r[0]) && !IsJsWhitespace(r[|r| - 1])
  {
    var t := TrimStart(s);
    var r := TrimEnd(t);
    assert r == "" ==> forall k :: 0 <= k < |s| ==> IsJsWhitespace(s[k]) by {
      if r == "" {
        forall k | 0 <= k < |s|
          ensures IsJsWhitespace(s[k])
        {
        }
      }
    }
    r
  }

  /** What `trim()` keeps is a middle part of `s`, and only white space lies before and after it. */
  lemma TrimWithin(s: string)
    ensures exists i :: WhitespaceAround(s, i, Trim(s))
  {
    var t := TrimStart(s);
    var i := |s| - |t|;
    TrimEndWithin(s, i, t);
    assert Trim(s) == TrimEnd(t);
    assert WhitespaceAround(s, i, Trim(s));
  }

  /** Trimming the end of a suffix of `s` leaves a part of `s` followed only by white space. */
  lemma TrimEndWithin(s: string, i: int, t: string)
    requires 0 <= i <= |s| && t == s[i..]
    ensures var r := TrimEnd(t);
      && i + |r| <= |s| && r == s[i..i + |r|]
      && forall k :: i + |r| <= k < |s| ==> IsJsWhitespace(s[k])
  {
    var r := TrimEnd(t);
    assert r == t[..|r|];
    forall k | i + |r| <= k < |s| ensures IsJsWhitespace(s[k]) {
      assert s[k] == t[k - i];
    }
  }

  /** Trimming twice changes nothing more. */
  lemma TrimIdempotent(s: string)
    ensures Trim(Trim(s)) == Trim(s)
  {
    var r := Trim(s);
    if r != "" {
      assert TrimStart(r) == r;
      assert TrimEnd(r) == r;
    }
  }

  // ---------------------------------------------------------------------------
  // Buffer.from(s, 'hex').length

  predicate IsHexDigit(c: char) {
    ('0' <= c <= '9') || ('a' <= c <= 'f') || ('A' <= c <= 'F')
  }

  /** Number of bytes `Buffer.from(s, 'hex')` yields: decoding stops at the first pair that is not two hex digits. */
  function HexByteLength(s: string): (n: nat)
    ensures 2 * n <= |s|
    ensures forall k :: 0 <= k < 2 * n ==> IsHexDigit(s[k])
    ensures 2 * n + 2 <= |s| ==> !(IsHexDigit(s[2 * n]) && IsHexDigit(s[2 * n + 1]))
    decreases |s|
  {
    if |s| >= 2 && IsHexDigit(s[0]) && IsHexDigit(s[1]) then 1 + HexByteLength(s[2..]) else 0
  }
}

=== FILE: results.dfy ===
/** Option and Result, the shapes used for JavaScript's `null`/value and throw/return. */
module Results {

  datatype Option<+T> = None | Some(value: T)

  /** A call that either returns a value or throws. */
  datatype Result<+T, +E> = Ok(value: T) | Fail(error: E)
}

=== FILE: schema.dfy ===
/**
 * The fixed schema of a tenant store, as the DDL in server_side/utils/dbCreator.js
 * and server_side/utils/defaultAdminCreator.js declares it: which tables exist,
 * which columns are unique or NOT NULL, the enumerations, the defaults and the
 * cascading foreign keys.
 */
module Schema {

  datatype Table = Departments | Roles | Employees | Attendance | Leaves | LeaveBalances | Admins

  /** The tables the tenant script of createClientDatabase creates (admins is created later, by createDefaultAdmin). */
  const ScriptTables: set<Table> := {Departments, Roles, Employees, Attendance, Leaves, LeaveBalances}

  /** Columns with a UNIQUE constraint. */
  function UniqueColumns(t: Table): set<string> {
    match t
    case Departments => {"department_name"}
    case Roles => {"role_name"}
    case Employees => {"email"}
    case Admins => {"email"}
    case _ => {}
  }

  /** Every column of `employees` (the ones an UPDATE may name). */
  const EmployeeColumns: set<string> := {
    "id", "first_name", "last_name", "email", "phone", "address", "profile_picture", "status",
    "department_id", "role_id", "hire_date", "termination_date", "document_aadhar", "document_pan",
    "document_licence", "created_at", "updated_at"}

  /** Columns of `employees` declared NOT NULL. */
  const EmployeeNotNull: set<string> := {"first_name", "last_name", "email"}

  const EmployeeStatuses: set<string> := {"active", "resigned", "terminated"}
  const AttendanceStatuses: set<string> := {"present", "late", "absent"}
  const LeaveTypes: set<string> := {"casual", "sick", "earned"}
  const LeaveStatuses: set<string> := {"pending", "approved", "rejected"}
  const AdminRoles: set<string> := {"admin", "superadmin"}

  /** The column defaults of a new `leave_balances` row. */
  datatype LeaveBalance = LeaveBalance(casual: int, sick: int, earned: int)
  const LeaveBalanceDefaults := LeaveBalance(10, 8, 5)

  /** A FOREIGN KEY clause: `child.column` references `parent(id)`. */
  datatype ForeignKey = ForeignKey(child: Table, column: string, parent: Table, onDeleteCascade: bool)

  const ForeignKeys: seq<ForeignKey> := [
    ForeignKey(Employees, "department_id", Departments, true),
    ForeignKey(Employees, "role_id", Roles, true),
    ForeignKey(Attendance, "employee_id", Employees, true),
    ForeignKey(Leaves, "employee_id", Employees, true),
    ForeignKey(LeaveBalances, "employee_id", Employees, true)
  ]

  /** The tables whose rows a deletion in `parent` removes directly by ON DELETE CASCADE. */
  function CascadesFrom(parent: Table): set<Table> {
    set i | 0 <= i < |ForeignKeys| && ForeignKeys[i].parent == parent && ForeignKeys[i].onDeleteCascade
      :: ForeignKeys[i].child
  }

  /**
   * The schema is closed and cascading: every foreign key stays inside the
   * tenant's own tables and cascades on delete; deleting a department or a
   * role reaches employees, and deleting an employee reaches attendance,
   * leaves and leave balances.
   */
  lemma SchemaCascades()
    ensures forall i :: 0 <= i < |ForeignKeys| ==>
      ForeignKeys[i].child in ScriptTables && ForeignKeys[i].parent in ScriptTables && ForeignKeys[i].onDeleteCascade
    ensures CascadesFrom(Departments) == {Employees}
    ensures CascadesFrom(Roles) == {Employees}
    ensures CascadesFrom(Employees) == {Attendance, Leaves, LeaveBalances}
    ensures CascadesFrom(Admins) == {}
  {
    assert ForeignKeys[0].child == Employees && ForeignKeys[1].child == Employees;
    assert ForeignKeys[2].child == Attendance && ForeignKeys[3].child == Leaves;
    assert ForeignKeys[4].child == LeaveBalances;
  }
}
